=== FILE: README.md ===
# vk dumpers: a Dafny model of their sequential core

The repository holds a few command-line dumpers for VK. `mu.py` downloads
audio tracks, `ph.py` and `phdmp.py` dump photo albums, and `im.py` dumps
dialogues to HTML. Shared helpers live in `utils.py` and `util.py`. The
dumpers are mostly network, file and thread plumbing. This project models
the logic in between and proves what it does:

- **Segmented-audio reassembly** (`mu.py`, `rqst_multiple` and its nested
  `m3u8_block`):
  - an HLS playlist is cut into key blocks at every `#EXT-X-KEY` tag
    (section 4.3.2.4 of RFC 8216);
  - the segment URIs are read from the `#EXTINF` lines (section 4.3.2.1 of
    RFC 8216) and resolved next to the playlist;
  - each block is decrypted with the key named on its own key line, with an
    all-zero IV;
  - the block results are merged in block order, whatever order the thread
    pool finishes in.

  Modules `Playlist` and `Reassembly`. The track's file name, glob escaping,
  URL dispatch and command-line parsing are in `AudioNaming`.
- **String helpers**, one module per copy, because the copies differ:
  - `Utils` (utils.py): one-dash sign handling, `str_cut`, `str_fix`,
    `expand_ranges` and the bounded `rqst_str` retry;
  - `Util` (util.py): all-dash sign handling, the Unicode-aware `esc`, the
    zero-padded photo name, and the retry/skip policy of `_dw_photo`;
  - `Phdmp` (phdmp.py): its own signs and `str_fix`, `rqst_filename`, the
    thread partition, the skip test, the nested size scan and link
    cleaning.
- **Small decision procedures**:
  - photo-size choice (`PhotoSizes`, `Ph.RqstSize`, `Phdmp.RqstSize`,
    `Im.RqstPhoto`);
  - the API-error classifier and retry loop (`ApiErrors`);
  - album codes, paging, link cleaning and target choice (`Ph`);
  - HTML escaping, the sender cache, the "joined message" rule, pagination
    and chat targets (`Im`).

`PyStr` gives Python's string operations the model needs. Each is written
out with Python's semantics: `find`, `rfind`, `split`, slices, `lstrip`,
`int`, `str` and `re.sub` deletion.

The outside world enters as parameters:

- a fetch is a function from URL to `Option<bytes>`;
- AES-CBC is an uninterpreted function of key, IV, the ciphertext already
  fed to the decryptor, and the next chunk;
- the thread pool is any permutation of the block indices;
- the directory listing is a sequence of names, or an "exists" flag;
- successive API or HTTP outcomes are a sequence or a function of the
  attempt number;
- Unicode categories are a predicate `punct`.

Where a natural reading of the program and the code differ, the model
follows the code:

- **An unencrypted playlist is never downloaded.** If the first block has no
  `METHOD=AES-128,URI="…"`, the `[0]` at mu.py:161 raises
  (`Reassembly.UnencryptedPlaylistCrashes`).
- **A failed block adds no bytes.** mu.py's own `rqst_str` returns `None` on
  a bad status and never retries. The file `frag<i>.ts` is opened before
  `future.result()` raises, so a failed block contributes an empty fragment
  and the merge goes on (`Reassembly.FragBytes`).
- **The inherited key is always fetched.** This happens even when a block
  names its own key, so an unreachable first key fails every encrypted
  block (`Reassembly.InheritedKeyIsFetched`).
- **A playlist URL without `/` loses its last character.** `url[:rfind('/')]`
  with `rfind` giving -1 drops it (`Playlist.BaseUrl`).
- **Album id 0 collides with the profile album.** An album whose id is 0 is
  dumped under code `0`, which `get_album` reads as the profile album
  (`Ph.ZeroIdIsProfile`).
- **`@0` is not a chat.** It gives target 2000000000, which is not above
  `2e9`, so it does not take the chat path (`Im.AtChatRoundTrip`).
- **`--pagenum n` means `n // 200 + 1` chunks** of 200 messages per file,
  not n messages (`Im.Chunks`).

## Model

| member | source | states |
|---|---|---|
| Playlist.KeepWith | mu.py:156 | a piece is kept exactly when it is one of the pieces and contains the tag; the result is never longer |
| Playlist.KeepWithConcat | mu.py:156 | the filter keeps order and multiplicity: filtering a concatenation is concatenating the filtered parts |
| Playlist.KeepWithOne | mu.py:156 | a single piece is kept, once, exactly when it contains the tag |
| Playlist.Blocks | mu.py:156 | the blocks are the pieces of the split on `#EXT-X-KEY` that hold `#EXTINF`, filtered in order; each holds `#EXTINF` and no `#EXT-X-KEY` |
| Playlist.MatchSegment | mu.py:96 | a match of `#EXTINF:\d+\.\d{3},\s(\S*)` at the start of the text begins with `#EXTINF:`, lies inside the text, and captures a whitespace-free URI that ends the match |
| Playlist.MatchKey | mu.py:102 | a match of `:METHOD=AES-128,URI="(\S*)"` starts with that literal head, and the capture is whitespace-free and directly followed by `"` |
| Playlist.FirstKeyUri | mu.py:161 | the first key URI found scanning left to right is whitespace-free (`None` where `[0]` raises) |
| Playlist.BaseUrl | mu.py:99 | the playlist URL up to its last `/`, or without its last character when it has no `/` |
| Playlist.SegmentUrl | mu.py:99 | a segment URL is the playlist URL up to and including its last `/`, then the relative URI |
| Playlist.SegmentUrlSibling | mu.py:99 | a playlist at `dir/name` resolves `uri` to `dir/uri` |
| Playlist.SegmentUrls | mu.py:96-99 | one URL per captured URI, in order, each resolved against the playlist URL |
| Playlist.SegmentUrisSkipsHashless | mu.py:96 | text without `#` adds no segment URI in front of what follows |
| Playlist.MatchRenderedEntry | mu.py:96 | a well-formed `#EXTINF:<s>.<ms>,` line and its URI line match up to the newline after the URI, capturing exactly that URI |
| Playlist.SegmentUrisOfEntries | mu.py:96 | scanning rendered entries yields their URIs in order, followed by whatever the rest of the text yields |
| Playlist.SegmentUrisOfBlock | mu.py:96 | the segment URIs of a rendered key block are its entries' URIs, in order |
| Playlist.FirstKeyUriOfBlock | mu.py:101-102 | a rendered key block contains `METHOD=AES-128` and its first key URI is the block's own key URI |
| Playlist.KeyTagNotInBlock | mu.py:156 | a rendered key block contains `#EXTINF` but no `#EXT-X-KEY` |
| Playlist.SplitRenderedBlocks | mu.py:156 | splitting a header and rendered blocks on `#EXT-X-KEY` gives the header, then each block's text, in order |
| Playlist.KeepAllBlocks | mu.py:156 | the `#EXTINF` filter keeps every rendered block |
| Playlist.ParseRenderedPlaylist | mu.py:96-161 | parsing a rendered playlist gives back its blocks in order, each block's segment URIs and its key URI, and the AES marker in each block |
| Reassembly.DecryptSplit | mu.py:104-109 | feeding one decryptor two runs of segments is feeding it their concatenation: the second run continues the chain |
| Reassembly.DecryptSegments | mu.py:108-109 | the in-place loop produces the chained decryption of the whole segment list: each segment decrypted after all bytes fed before it |
| Reassembly.Key | mu.py:85-93 | a decryptor exists exactly when the key URL was fetched and AES accepts the key length; it uses those bytes |
| Reassembly.BlockKey | mu.py:101-106 | an encrypted block gets a decryptor exactly when its own key URI is found and both the inherited key and its own key can be fetched; it uses its own key |
| Reassembly.M3u8Block | mu.py:84-111 | a block succeeds exactly when every segment is fetched and, for an encrypted block, its key is obtained |
| Reassembly.BlockUsesOwnKey | mu.py:101-111 | a successful encrypted block is its fetched segments decrypted in one chain with the key at its own URI, whichever branch fetched it |
| Reassembly.PlainBlockPassesThrough | mu.py:101-111 | a block without `METHOD=AES-128` is its fetched segments concatenated byte for byte |
| Reassembly.InheritedKeyIsFetched | mu.py:104-106 | an encrypted block fails when the first block's key cannot be fetched, even if its own key can |
| Reassembly.Collect | mu.py:165-172 | the completion dictionary holds exactly the completed indices, each with its own block's result |
| Reassembly.CollectComplete | mu.py:165-172 | for any completion order, the dictionary maps every block index, and only those, to that block's result |
| Reassembly.Frags | mu.py:179-186 | fragment i holds block i's bytes, or nothing when that block raised |
| Reassembly.MergeIgnoresCompletionOrder | mu.py:164-195 | `mu.ts` is the blocks' bytes concatenated in submission order, for every order the pool finishes in |
| Reassembly.MergeSameForAnyTwoOrders | mu.py:164-195 | two completion orders give the same merged stream |
| Reassembly.PlaylistTrack | mu.py:154-196 | the playlist branch streams, stops on an empty block list, or crashes; it never ends any other way |
| Reassembly.RqstMultiple | mu.py:119-198 | the download stops before anything else exactly when the escaped glob of the final name matches a file; a stream is always saved under that name; a direct URL is refused exactly when the response has a failing status, and otherwise ends as the direct download as written |
| Reassembly.DirectDownload | mu.py:136-152 | a direct download saves every chunk in order, or raises exactly when the length header is not a number, or when the handler raises and the first chunk's progress line fails (zero or missing length, no terminal, or an empty first chunk) |
| Reassembly.ProgressLoopOk | mu.py:139-152 | the chunk loop runs to the end exactly when the handler does not raise, there are no chunks, or the first progress line succeeds |
| Reassembly.MissingLengthCrashes | mu.py:136-150 | a response without `Content-Length`, or with `0`, raises at its first chunk |
| Reassembly.HandledProgressSaves | mu.py:145-151 | with a handler that only logs, a numeric length header always gives every chunk, in order |
| Reassembly.ExistingFileFetchesNothing | mu.py:123-127 | with the file already there, the outcome depends on neither the network, the cipher nor the pool |
| Reassembly.EmptyPlaylistFetchesNoKey | mu.py:156-159 | a playlist with no block holding a segment ends before any key fetch, cipher or pool plays a part |
| Reassembly.RenderedBlock | mu.py:84-111 | a rendered block fetched next to its playlist yields its entries' bodies decrypted with its own key |
| Reassembly.DownloadRenderedPlaylist | mu.py:154-195 | downloading a rendered playlist streams every block's segments, decrypted with that block's own key, in block order, for any pool order |
| Reassembly.PlaylistTrackStream | mu.py:156-195 | a playlist whose first block names a key streams the merge of all block results in block order |
| Reassembly.UnencryptedPlaylistCrashes | mu.py:156-161 | a single-block playlist with segments but no key line crashes instead of downloading |
| AudioNaming.GlobEscape | mu.py:123-124 | escaping never shortens a name and leaves names without brackets unchanged |
| AudioNaming.GlobRoundTrip | mu.py:123-124 | the escaped pattern matches exactly the original name: reading its classes back gives the name |
| AudioNaming.GlobEscapeInjective | mu.py:123-124 | distinct names have distinct escapes |
| AudioNaming.DefaultNameShape | mu.py:116-121 | the default name has none of `str_fix`'s characters (so no glob `*` or `?`), ends in `).mp3`, and is at most the track part plus the id plus seven characters long |
| AudioNaming.DefaultNameOfCleanTrack | mu.py:116-121 | clean fields of at most 100 characters give `artist - title (id).mp3` |
| AudioNaming.KindOf | mu.py:129-197 | `.mp3` anywhere means a direct download; otherwise `.m3u8` means a playlist; otherwise the URL is not recognised |
| AudioNaming.DirectWinsOverPlaylist | mu.py:129-154 | a URL containing both `.m3u8` and `.mp3` takes the direct path |
| AudioNaming.ParseArg | mu.py:292-334 | a target is the argument with its link prefixes removed and no `playlist/` head; a playlist argument had that head |
| AudioNaming.PlaylistArity | mu.py:302-306 | a playlist reference unpacks exactly when it has one or two `_` |
| AudioNaming.PlaylistParts | mu.py:302-306 | `o_a` and `o_a_h` unpack to owner, album and hash, with an empty hash for two parts |
| AudioNaming.ParsePlaylistLink | mu.py:293-306 | `https://vk.com/music/playlist/o_a_h` gives owner, album and hash; the bare `playlist/o_a` gives owner and album with an empty hash |
| AudioNaming.ParseAudioLink | mu.py:319-327 | `[[audio<o>_<i>]]` and `audio<o>_<i>` both name track `i` of owner `o` |
| AudioNaming.ParseTarget | mu.py:293-298 | a `vk.com/<name>` link with no other recognised prefix names the user or group `name` |
| Utils.StrToPlus | utils.py:27-30 | exactly one leading `-` is removed if present; otherwise the string is unchanged |
| Utils.StrToMinus | utils.py:32-35 | the result starts with `-`: the input itself if it had one, else `-` added in front |
| Utils.ToMinusIdempotent | utils.py:32-35 | adding the sign twice is adding it once |
| Utils.ToPlusUndoesToMinus | utils.py:27-35 | removing the sign after adding it gives back an unsigned string |
| Utils.ToPlusOneDash | utils.py:27-30 | only one dash goes, even before another dash |
| Utils.SignsOfId | utils.py:27-35 | on an integer id, the two helpers give the digits of its magnitude and their negative form |
| Utils.StrCut | utils.py:37-38 | a string that fits is kept; a longer one is cut to `letters` characters and the postfix added |
| Utils.StrCutIdempotent | utils.py:37-38 | cutting again with an empty postfix changes nothing |
| Utils.StrFix | utils.py:40-44 | the result has none of `/\?%*:{}【】\|"<>`; without truncation it is no longer than the input; with truncation at most `letters + 3` long; a clean short name is unchanged |
| Utils.StrFixIdempotent | utils.py:40-44 | sanitising without truncation twice is sanitising once |
| Utils.StrFixDropsOnlyForbidden | utils.py:41 | only the forbidden characters go; every other character stays, in order |
| Utils.MatchRange | utils.py:60 | a match of `\d+-\d+` at the start of the text is two non-empty digit runs around a `-` |
| Utils.Interval | utils.py:58 | `range(a, b + 1)`: `b - a + 1` consecutive numbers from `a`, or none when `a > b` |
| Utils.ExpandWithoutDigits | utils.py:54-60 | text without digits is unchanged |
| Utils.ExpandCopiesDigits | utils.py:54-60 | a digit run not followed by `-` or a digit is copied unchanged |
| Utils.ExpandSpan | utils.py:54-60 | `a-b` is replaced by `a,a+1,…,b`, or by nothing when `a > b`, and the scan continues after it |
| Utils.ExpandItems | utils.py:54-60 | a comma-separated list of numbers and ranges expands to the comma-joined expansion of each item |
| Utils.ExpandExample | utils.py:55 | `"1-5,8,10-12"` expands to `"1,2,3,4,5,8,10,11,12"` |
| Utils.RqstStr | utils.py:62-71 | at most `retries` attempts; success returns the content, a failing status returns `False` at once, only exceptions use up a retry, and `None` means every attempt raised |
| Util.StrToPlus | util.py:144-145 | every leading dash is stripped: the result is a suffix that does not start with `-`, and only dashes were removed |
| Util.StrToMinus | util.py:148-150 | exactly one `-` in front of the dash-stripped text, or `""` when only dashes were given |
| Util.StrToPlusIdempotent | util.py:144-145 | stripping twice is stripping once |
| Util.StrToMinusIdempotent | util.py:148-150 | signing twice is signing once |
| Util.PlusOfMinus | util.py:144-150 | stripping the sign `str_tominus` put back gives `str_toplus` |
| Util.SignsOfId | util.py:144-150 | on an integer id, the helpers give the digits of its magnitude and their negative form |
| Util.EscChars | util.py:161-173 | every output character is the replacement's, a kept bracket, or a safe character that is not punctuation, symbol or control |
| Util.EscCharsConcat | util.py:161-173 | the loop works character by character: the escape of a concatenation is the concatenation of the escapes |
| Util.EscCharsOne | util.py:164-171 | one character becomes the replacement exactly when it is one of `<>:"/\|?*` or NUL, or is punctuation, symbol or control and not a bracket; otherwise it is kept |
| Util.Collapse | util.py:175 | collapsing never lengthens, keeps the first character, and leaves no `__` |
| Util.CollapseConcat | util.py:175 | text that does not end in `_` collapses on its own, so the collapse of a concatenation is the concatenation of the collapses |
| Util.CollapseRun | util.py:175 | every non-empty underscore run between text not touching `_` becomes exactly one `_` |
| Util.CollapseIdempotent | util.py:175 | collapsing twice is collapsing once |
| Util.CollapseKeepsOthers | util.py:175 | every character other than `_` stays, in order |
| Util.Esc | util.py:157-177 | the result is at most 255 long, has no `__`, and every character is allowed |
| Util.EscKeepsPlainNames | util.py:157-177 | a short plain name with no `__` and no trailing space or dot is returned unchanged |
| Util.EscIsSafe | util.py:164-165 | with a safe replacement, none of `<>:"/\|?*` or NUL reaches the output |
| Util.PhotoFilename | util.py:61 | the name is exactly as long as the padded index plus `_` plus the URL's name; nothing is cut |
| Util.PhotoFilenameParts | util.py:61 | for an index below the album size, the digit prefix has the width of the size's digit count and reads back as the index |
| Util.PhotoFilenameInjective | util.py:61 | distinct photos of one album get distinct file names |
| Util.Attempts | util.py:69-114 | attempts stop at a saved response, a 404 or a non-client exception; only client errors and timeouts are retried; at most `max_retries` requests |
| Util.DwPhotoAsWritten | util.py:57-114 | an existing file makes no request |
| Util.DwPhoto | util.py:57-114 | an existing file makes no request; a 404 ends after that request; any other exception aborts; retries give up after `max_retries` retryable failures; a saved photo is stamped exactly when it has a date or a `Last-Modified` that parses to a non-zero time; it is written without progress exactly when it has no date and its header does not parse |
| Util.WrittenMeansProgress | util.py:64-101 | progress moves exactly when the file existed, or a response was saved and its time was a date or a parseable (or absent) header |
| Util.AsWrittenAgrees | util.py:81-101 | the code as written and the corrected policy make the same requests, and differ only where a saved photo has neither a date nor a header, which as written is left without progress |
| Util.UnboundTimestamp | util.py:81-90 | a photo with no date, served without `Last-Modified`, is written but does not advance progress as written |
| Util.HeaderEdgeCases | util.py:81-90 | without a date, an unparseable header leaves the file written without progress, and a header at the epoch leaves it unstamped |
| PhotoSizes.PyMax | ph.py:54-58 | `max(…, default={})` gives nothing exactly for an empty list |
| PhotoSizes.PyMaxIsFirstBest | ph.py:54-58 | `max` returns the first size of the highest priority |
| PhotoSizes.ScanIsFirstBest | phdmp.py:163-185 | the scan finds nothing exactly when no size has a ranked type, and otherwise the first size of the highest rank |
| PhotoSizes.ScanAgreesWithMax | phdmp.py:163-185 | where some size is ranked, the scan and `max` choose the same size; where none is, `max` picks the first size and the scan nothing |
| ApiErrors.Classify | phdmp.py:49-71 | `[5]` exits; then `[100]`, `[113]` or "group photos are disabled" gives `None`; then `[18]`, `[30]`, `[15]` or `[200]` gives `False`; then "server" waits 60 s; anything else waits 5 s |
| ApiErrors.RqstMethod | phdmp.py:42-71 | the loop ends at the first success or non-retried error, with the matching answer; every earlier call was retried, and the time slept is the sum of their pauses |
| ApiErrors.AuthFailureWins | phdmp.py:50-52 | a message containing `[5]` exits, whatever else it says |
| Phdmp.StrToPlus | phdmp.py:14-16 | one leading dash dropped if present; a non-empty input is required |
| Phdmp.StrToMinus | phdmp.py:18-20 | a dash in front unless one is there; a non-empty input is required |
| Phdmp.SignsAgreeWithUtils | phdmp.py:14-20 | on non-empty input these are the helpers of utils.py |
| Phdmp.SignRoundTrip | phdmp.py:14-20 | signing is idempotent, and unsigning a signed unsigned string gives it back |
| Phdmp.StrFix | phdmp.py:22-23 | the result has none of `/\'?%*:\|"<>`, is no longer than the input, and a clean name is unchanged |
| Phdmp.StrFixKeepsTheRest | phdmp.py:22-23 | sanitising works character by character |
| Phdmp.StrFixIdempotent | phdmp.py:22-23 | sanitising twice is sanitising once |
| Phdmp.ApostropheDiffers | phdmp.py:23 | an apostrophe is removed here but kept by utils.py's `str_fix` |
| Phdmp.BraceDiffers | phdmp.py:23 | a brace is kept here but removed by utils.py's `str_fix` |
| Phdmp.UrlPath | phdmp.py:32-33 | the URL up to its first `?`: a prefix without `?`, ending at a `?` or at the end |
| Phdmp.Basename | phdmp.py:35 | the part after the last `/`: a suffix without `/`, preceded by `/` unless it is the whole path |
| Phdmp.RqstFilename | phdmp.py:31-35 | a digit block at least as wide as `progress_all`'s digits that reads back as the index, `_`, then a name without `/` or `?` that ends the URL's path |
| Phdmp.RqstFilenameAgreesWithUtil | phdmp.py:31-35 | this name is the one util.py builds for the same index, album size and URL name |
| Phdmp.OneThreadPerIndex | phdmp.py:85 | with two threads or more, an index is handled by an offset exactly when the offset is its owner; with fewer, every thread handles it |
| Phdmp.EveryIndexOnce | phdmp.py:84-140 | over all started threads, every photo index is planned by exactly one thread |
| Phdmp.AsWrittenIgnoresTheFile | phdmp.py:74-80 | as written, a name is found exactly when it is listed, or when its stem is itself a listed name and some listed file is not a description; the file the loop is on plays no part |
| Phdmp.RenumberedPhoto | phdmp.py:78 | `001_abc.jpg` with `01_abc.jpg` listed is not found as written, and is found by the corrected test |
| Phdmp.ListedNameExists | phdmp.py:75-76 | a listed name is found by both tests |
| Phdmp.StemInListedFile | phdmp.py:77-79 | the corrected test finds a file whose stem appears in a listed non-description file |
| Phdmp.Decide | phdmp.py:96-121 | fetch exactly when not found or rewriting; otherwise only reset the time stamp when there is a date |
| Phdmp.ThreadPlan | phdmp.py:84-127 | a thread acts on exactly the indices it handles; each is fetched exactly when rewriting or when `is_exist` as written misses that photo's file name, and only touched exactly when it is found, not rewritten and has a date |
| Phdmp.RunThread | phdmp.py:84-127 | a thread completes its whole plan exactly when no touch hands `os.utime` a missing photo or (for a photo with text) a missing description; otherwise it completes the plan up to the first such touch and dies there |
| Phdmp.AsWrittenTouchDies | phdmp.py:74-124 | a dated photo found only because its stem is a listed name, and not itself on disk, ends its thread at or before that index |
| Phdmp.EveryIndexDoneOnce | phdmp.py:84-140 | when no thread dies, every photo index is completed by exactly its owning thread, or by the only thread |
| Phdmp.RqstSize | phdmp.py:163-185 | `''` when no size has a ranked type; otherwise the URL of the first size of the highest rank |
| Phdmp.DropRev | phdmp.py:327 | a six-character `?rev=1` or `?rev=0` tail is cut; anything else is kept |
| Phdmp.DropLead | phdmp.py:328-329 | a prefix is removed when present, otherwise nothing changes |
| Phdmp.CleanRest | phdmp.py:331-339 | `public` or `albums` in the first six characters: six are cut, there is no album, and nothing may be left empty; an `album` head: the rest must split on one `_` with a non-empty owner; otherwise a non-empty rest is an unsigned target with no album |
| Phdmp.AlbumLink | phdmp.py:327-339 | a printed album link gives its unsigned owner and its album id |
| Phdmp.PublicLink | phdmp.py:327-339 | a community link gives the community id and no album |
| Ph.RqstSize | ph.py:52-58 | `""` for no sizes; otherwise the URL of the first size of the highest priority |
| Ph.RqstSizeAgainstScan | ph.py:52-58 | where some size is ranked, this choice and phdmp.py's scan give the same URL |
| Ph.AlbumName | ph.py:78-92 | the name is profile, wall, saved or tagged exactly for `0`, `00`, `000`, `-9000` or that name itself; every other code is unchanged |
| Ph.PhotosMethod | ph.py:110-111 | `photos.getUserPhotos` exactly for the tagged album |
| Ph.Offsets | ph.py:126-137 | `count // 1000 + 1` requests at offsets 0, 1000, … |
| Ph.OffsetsCover | ph.py:126-137 | every photo index below `count` lies in exactly one requested page |
| Ph.LastPageBeyondCount | ph.py:126-137 | for a multiple of 1000, the last request starts past every photo |
| Ph.Kept | ph.py:144-160 | the kept URLs are never empty and no more than the items |
| Ph.AddItemsSpec | ph.py:144-160 | collected images extend the list, are numbered 0..k-1, and carry the non-empty URLs in order |
| Ph.AddItemsConcat | ph.py:127-160 | collecting two pages one after the other is collecting their items in one pass |
| Ph.AddPagesFlat | ph.py:127-160 | collecting page by page is one pass over all pages' items |
| Ph.GetAlbum | ph.py:69-170 | a bad input fails the two-part split; it crashes exactly when the title lookup reads a `None`/`False`/empty album list, the count is read from a `None`/`False` answer, the owner is not an integer, the first failing page answer is `None`/`False`, or a group's album whose list was `None` reaches `album.get`; it is empty exactly when the count is 0; otherwise the album name, API method, offsets and numbering are as above, and the images carry the kept URLs of all pages in order |
| Ph.GetAlbumHalts | ph.py:20-160 | past the title lookup, an exit or an unfinished retry of the first `photos.get` or of the first page answer that is not a value ends the run that way |
| Ph.Dispatch | ph.py:210-216 | an `album` prefix is split on `_` into owner and album; anything else is an unsigned target with no album |
| Ph.AlbumLink | ph.py:199-216 | a printed album link with `?rev=1` gives its unsigned owner and album code |
| Ph.Resolve | ph.py:222-235 | a non-DELETED group wins, then a user that is not deactivated; otherwise there is no target |
| Ph.NoDashInDigits | ph.py:225-230 | a decimal id is unchanged by `str_toplus` and gets one dash from `str_tominus` |
| Ph.AlbumCode | ph.py:277-299 | an album gets a code exactly when its id is non-negative or one of -6, -7, -15, -9000; a non-negative id is its own code |
| Ph.AlbumCodeNames | ph.py:277-296 | ids -6, -7, -15 and -9000 name the profile, wall, saved and tagged albums; a positive id names itself |
| Ph.ZeroIdIsProfile | ph.py:294-296 | an album with id 0 is dumped under the profile code |
| Ph.ItemCodes | ph.py:277-299 | each code is underscore-free and comes from a listed album |
| Ph.ItemCodesConcat | ph.py:277-299 | the codes keep the albums' order: the codes of a concatenation are the concatenated codes |
| Ph.ItemCodesOne | ph.py:277-299 | one album gives its own code, or nothing when it has none |
| Ph.AlbumPlanAsWritten | ph.py:252-299 | as written, there is a plan exactly when the album list came back |
| Ph.AlbumPlan | ph.py:252-299 | corrected: an album list or a "no albums" answer gives a plan; for "no albums" the plan is the profile then the wall |
| Ph.DisabledPhotosDropped | ph.py:257-271 | a group with photos disabled gets no plan as written, and the profile and wall under the corrected plan |
| Ph.ItemInputsSplit | ph.py:277-296 | each planned input splits on `_` back into the target and its album code |
| Ph.WallFirstForGroups | ph.py:273-275 | a group's wall comes first; a user's plan is the album list alone |
| Ph.ParseLink | ph.py:199-299 | a bad link stops; a dump needs a target that may be dumped; an album link to a target that may be dumped dumps that album alone; a page link dumps exactly when the album list came back, and then dumps the wall (for a group) and the listed albums; an exiting album request exits and a pending one retries forever |
| Ph.ParseCleaned | ph.py:216-299 | past the cleaning: no link is a bad link; no target exactly when neither lookup gives a live profile; a closed page stops exactly when neither a member nor granted access; an album link dumps that album alone; a page link dumps the wall (for a group) and listed albums exactly when the list came back, exits or retries forever with its request, and stops exactly on `None` or `False` |
| Ph.ParseLinkStops | ph.py:221-259 | a target that resolves to nothing stops, a closed page without membership or access stops, and a page link stops exactly when the album list is `None` or `False` |
| Ph.DisabledPageNotDumped | ph.py:257-271 | as written, a page whose album list is `None` is not dumped, though the corrected plan gives its profile and wall |
| Ph.GroupDumpStartsWithWall | ph.py:223-296 | a whole-page dump of a group starts with its wall |
| Im.EscChar | im.py:103-110 | every character maps to a non-empty text; characters other than `&"'<>` and newline map to themselves |
| Im.EscMap | im.py:112 | the map never shortens the text |
| Im.StrEsc | im.py:101-116 | without link parsing, no raw `<`, `>`, `"` or `'` is left |
| Im.EscMapConcat | im.py:112 | the map works character by character |
| Im.EscRoundTrip | im.py:103-116 | reading the entities back gives the original text |
| Im.LineBreaksOnly | im.py:109 | on text without line breaks, `url_parse` makes no difference to the map |
| Im.RqstPhoto | im.py:153-180 | with nothing ranked, a 100×100 `null` photo; otherwise the first size of the highest rank |
| Im.SameChoiceAsPhdmp | im.py:153-180 | the dialogue dumper keeps the photo dumper's URL, with `null` where that one gives `''` |
| Im.ExpectedLength | im.py:83 | a missing or zero `Content-Length` becomes 10000; a non-zero number is kept; a non-number raises |
| Im.RqstFile | im.py:59-99 | no request for an empty URL or an existing file without rewrite; a failing status is reported with that status; a GET that raises raises out of the call; a length that is not a number raises; with a usable length the download raises exactly when there is no terminal and a progress line reaches it (not verbose, or a forced line after two seconds), and otherwise announces the expected length as above |
| Im.LengthFallback | im.py:83 | an absent or `0` length is announced as 10000 bytes |
| Im.RequestedOutcome | im.py:67-99 | once the request is made, the outcome depends only on the response and the terminal, never on the URL or on why the request was made |
| Im.TerminalDecides | im.py:59-99 | with a usable length, a terminal always lets the download through; without one, only a verbose run with no forced line due gets through |
| Im.Lookup | im.py:183-185 | the first cached entry with the id, or none when no entry has it |
| Im.SenderApi | im.py:187-195 | positive ids are asked of `users.get`, others of `groups.getById` |
| Im.RqstUser | im.py:182-206 | a cached id is answered from the cache with no API call; otherwise the API is asked, `[0]` raises exactly when it answered `None` or an empty list, and else the first entry is the user, appended when saving |
| Im.CacheHit | im.py:182-206 | the cache never holds an id twice, and after a successful saved call the same id makes no API call |
| Im.Select | im.py:617-625 | forwarded messages use the forwarded blank; the same sender within 120 s joins; only the default blank moves the anchor |
| Im.AnchorHolds | im.py:617-625 | joined and forwarded messages leave the anchor alone |
| Im.RunAnchored | im.py:617-625 | three messages of one sender 100 s apart: the second joins the first, but the third starts a new block, since the anchor stayed on the first message 200 s earlier |
| Im.Chunks | im.py:57 | `n // 200 + 1` is the least number of 200-message chunks that pass `n`; it serves both for chunks per file and for the chunk requests of line 745 |
| Im.PageCount | im.py:746 | `count // (200 * chunks) + 1` files, enough to pass every message |
| Im.PagesHoldAllChunks | im.py:745-746 | the files have room for every chunk |
| Im.PrevLink | im.py:755-760 | every page but the first links back to the file before it |
| Im.NextLink | im.py:765-770 | every page but the last links on to the file after it |
| Im.LinksChain | im.py:748-770 | next and previous links of neighbouring pages point at each other's files, and the next file's number is within the page count |
| Im.AtTarget | im.py:981-982 | `@N` becomes `2000000000 + N`, and raises exactly where `int` does |
| Im.ChatId | im.py:682-685 | a target above `2e9` asks for a positive chat id |
| Im.AtChatRoundTrip | im.py:981-982 | `@N` for positive N reaches chat N; `@0` does not take the chat path |

## Left out

- Network I/O (`requests`, `aiohttp`, `vk_api`, sessions and login). Fetches and API answers are parameters: functions of the URL or sequences of outcomes.
- AES itself. The decryptor is an uninterpreted function of key, IV, the bytes already fed and the next chunk. Only the key-length check of `algorithms.AES` is modelled.
- Concurrency. The thread pool (mu.py:164), phdmp.py's threads (139-144), and util.py's semaphore and `gather` (27-52) are represented only by their results: an arbitrary completion order, or the per-offset index partition.
- Files and external programs: `glob` matching (an "exists" predicate), reading and writing fragments, the ffmpeg remux, `rename`, `delete_file`, `utime` and `chdir`. Of phdmp.py's `utime`, only whether the file it names is listed is modelled (`Phdmp.RunThread`). The metadata written by the remux is not modelled.
- The direct `.mp3` download (mu.py:130-152): the response is a failing status or a length header and a sequence of chunks, and whether `os.get_terminal_size()` works is the parameter `terminal`. The percentage arithmetic, the log line and the five-second sleep are not modelled; only whether the progress line raises is. A `requests.get` (130) or `iter_content` chunk read (139) that raises is not modelled: the response never raises.
- Floats and printing: progress percentages, `sizeof_fmt`, `fix_val`, `val_fix`, `float_fmt`, `progress_upd`, log lines and the stopwatch.
- HTML and presentation: templates, `rqst_attachments`, `rqst_message_service`, `html_fmt`, thumbnails, dates, and the album title strings.
- The link rewriting of `str_esc` with `url_parse` (im.py:102, 113-123). `Im.StrEsc` covers the character map only.
- The Unicode category table of `esc` is the parameter `punct`. Regex `\d` is taken as ASCII digits. `\s`/`\S` use Python's Unicode `str.isspace` set (`PyStr.IsSpace`).
- `int()` is modelled on ASCII digit strings with an optional sign. Surrounding whitespace and `_` separators are not accepted.
- `str()` of ids that are already strings: the sign helpers take the text.
- The copy of `rqst_method` in ph.py (27-48) has the classifier chain of phdmp.py, which `ApiErrors` models once.
- The `rqst_method` of mu.py (41-74) and im.py (208-240), whose chain differs: `[5] User authorization failed:` exits; `Invalid user id`, `group_ids is undefined` and `no access to this chat` give `None`; `Internal server error` sleeps 100 s; anything else sleeps 10 s and retries, so an access error such as `[15]` retries forever. In im.py, `Im.RqstUser` takes the answer of that call as `None` or a list only.
- Ph.GetAlbum: the album title (from `t_info` and the first album's `title`) and the image metadata other than the URL are not modelled. An answer is taken by its shape only: the album list as its length, the first `photos.get` answer as its count.
- phdmp.py's picture fetch loop (97-107) retries forever on exceptions. Only the decision to fetch (`Phdmp.Decide`) is modelled, and writing a fetched photo or its description is taken never to raise.
- im.py's chunked message fetching and its skipping of empty chunks: only the counts and links are modelled.
- A thread count of 0 or less: `Phdmp.EveryIndexOnce` requires at least one started thread, since with none nothing is downloaded.
- Playlist.SegmentUris: its own contract only says the URIs are whitespace-free. What it yields on rendered text is stated by `Playlist.SegmentUrisOfEntries`, `Playlist.SegmentUrisOfBlock` and `Playlist.ParseRenderedPlaylist`.
- Ph.ParseLink: the `groups.getById` and `users.get` lookups (ph.py:219-220) are taken as a profile or none; that either of them can exit the program or retry forever through `rqst_method` is not modelled. Only the album-list request's exit and endless retry are.
- Im.RqstFile: an exception while the chunks are read (`iter_content`, im.py:91) is not modelled; it raises out of `rqst_file` like a failing GET, after part of the file is written.
- util.py's `str_cut`, `expand_ranges` and `rqst_str` (153-154, 208-228) are the same code as utils.py's (37-38, 54-71) and are modelled once by `Utils`.
- Im.RqstUser: the exit and the endless retries of im.py's `rqst_method` (188, 195) are not modelled, nor the userpic download on save, which `Im.RqstFile` models on its own.
- Util.DwPhoto: the time stamp is a whole number of seconds, and the description file written for a photo with text is not modelled.
- Util.DwPhotoAsWritten: its contract only fixes the skip case. The rest is stated against the corrected `Util.DwPhoto` by `Util.AsWrittenAgrees`.

## Findings

| source | as written | input that shows it | evidently intended | confidence | as-written member | corrected member |
|---|---|---|---|---|---|---|
| util.py:81-90 | `ts` is bound only when the photo has a date or the response has `Last-Modified`. Otherwise `if ts:` raises `UnboundLocalError`, and the generic handler logs and returns after the file is written, so progress is never advanced | a photo without a date, served with status 200 and no `Last-Modified` | no timestamp, the file written, progress advanced | not executed; high | Util.DwPhotoAsWritten, Util.UnboundTimestamp | Util.DwPhoto, Util.WrittenMeansProgress |
| ph.py:257-271 | `if not albums: return` also returns for `None`, so the `albums is None` branch, which dumps the profile and wall of a group whose photos are disabled, is dead | `photos.getAlbums` failing with "group photos are disabled" (classified as `None`) | a group with disabled albums still dumps its profile and wall | not executed; high | Ph.AlbumPlanAsWritten, Ph.DisabledPhotosDropped, Ph.DisabledPageNotDumped | Ph.AlbumPlan |
| mu.py:150 | the handler of the chunk loop calls `os.path.basename(dir)` on the builtin `dir`, which raises `TypeError`, so any error in the progress line ends the download | a 200 response without `Content-Length` (or with `0`) and at least one chunk: `cl` is `None` and `cl / block_size` raises | the handler logs, sleeps and the loop goes on, saving every chunk | not executed; high | Reassembly.DirectDownload, Reassembly.MissingLengthCrashes | Reassembly.HandledProgressSaves |
| phdmp.py:78 | the loop tests whether the stem is an element of the listing (`in dir`), never looking at the current `file` | `001_abc.jpg` to be saved with `01_abc.jpg` listed | the stem found inside some listed non-description file | not executed; medium | Phdmp.IsExistAsWritten, Phdmp.RenumberedPhoto, Phdmp.ThreadPlan, Phdmp.AsWrittenTouchDies | Phdmp.IsExist, Phdmp.StemInListedFile |

=== FILE: api_errors.dfy ===
/** The wrapper around every VK API call in phdmp.py and ph.py
    (`rqst_method`): an error is classified by the text of the exception,
    and the call is retried, after a pause, until it returns or a verdict
    ends it. */
module ApiErrors {
  import opened PyStr

  /** What `rqst_method` does with a failed call: leave the program,
      return `None` (no such id, or no albums), return `False` (no access),
      or sleep 60 or 5 seconds and try again. */
  datatype Verdict = Exit | NoTarget | NoAccess | WaitLong | WaitShort

  predicate IsNoTarget(msg: string) {
    Contains(msg, "[100]") || Contains(msg, "[113]") || Contains(msg, "group photos are disabled")
  }

  predicate IsNoAccess(msg: string) {
    Contains(msg, "[18]") || Contains(msg, "[30]") || Contains(msg, "[15]") || Contains(msg, "[200]")
  }

  /** The `if`/`elif` chain of phdmp.py:50-71 (the same chain is ph.py:27-48):
      the first test that matches decides. */
  function Classify(msg: string): (v: Verdict)
    ensures v == Exit <==> Contains(msg, "[5]")
    ensures v == NoTarget <==> !Contains(msg, "[5]") && IsNoTarget(msg)
    ensures v == NoAccess <==> !Contains(msg, "[5]") && !IsNoTarget(msg) && IsNoAccess(msg)
    ensures v == WaitLong <==>
              !Contains(msg, "[5]") && !IsNoTarget(msg) && !IsNoAccess(msg) && Contains(msg, "server")
  {
    if Contains(msg, "[5]") then Exit
    else if IsNoTarget(msg) then NoTarget
    else if IsNoAccess(msg) then NoAccess
    else if Contains(msg, "server") then WaitLong
    else WaitShort
  }

  predicate Retried(v: Verdict) {
    v == WaitLong || v == WaitShort
  }

  /** The pause before the next try, in seconds. */
  function Pause(v: Verdict): nat {
    if v == WaitLong then 60 else if v == WaitShort then 5 else 0
  }

  /** One call of the API: its value or the text of its exception. */
  datatype Call<T> = Value(v: T) | Failure(msg: string)

  predicate RetriedCall<T>(c: Call<T>) {
    c.Failure? && Retried(Classify(c.msg))
  }

  /** How the loop ends; `Pending` means the calls given ran out while it
      was still retrying. */
  datatype Answer<T> = Got(v: T) | Exited | Null | Refused | Pending

  function Pauses<T>(calls: seq<Call<T>>): nat {
    if |calls| == 0 then 0
    else (if calls[0].Failure? then Pause(Classify(calls[0].msg)) else 0) + Pauses(calls[1..])
  }

  lemma {:induction false} PausesSnoc<T>(calls: seq<Call<T>>, c: Call<T>)
    ensures Pauses(calls + [c]) == Pauses(calls) + (if c.Failure? then Pause(Classify(c.msg)) else 0)
    decreases |calls|
  {
    if |calls| == 0 {
      assert calls + [c] == [c];
    } else {
      assert (calls + [c])[1..] == calls[1..] + [c];
      PausesSnoc(calls[1..], c);
    }
  }

  /** `rqst_method` fed the successive outcomes of its call. */
  method RqstMethod<T>(calls: seq<Call<T>>) returns (r: Answer<T>, used: nat, slept: nat)
    ensures used <= |calls|
    ensures r.Pending? <==> used == |calls| && forall j :: 0 <= j < |calls| ==> RetriedCall(calls[j])
    ensures !r.Pending? ==> used > 0 && forall j :: 0 <= j < used - 1 ==> RetriedCall(calls[j])
    ensures r.Pending? ==> slept == Pauses(calls)
    ensures !r.Pending? ==> slept == Pauses(calls[..used - 1])
    ensures r.Got? ==> calls[used - 1] == Value(r.v)
    ensures r.Exited? ==> calls[used - 1].Failure? && Classify(calls[used - 1].msg) == Exit
    ensures r.Null? ==> calls[used - 1].Failure? && Classify(calls[used - 1].msg) == NoTarget
    ensures r.Refused? ==> calls[used - 1].Failure? && Classify(calls[used - 1].msg) == NoAccess
  {
    used, slept := 0, 0;
    while used < |calls|
      invariant used <= |calls|
      invariant forall j :: 0 <= j < used ==> RetriedCall(calls[j])
      invariant slept == Pauses(calls[..used])
    {
      var c := calls[used];
      PausesSnoc(calls[..used], c);
      assert calls[..used + 1] == calls[..used] + [c];
      used := used + 1;
      match c
      case Value(v) =>
        return Got(v), used, Pauses(calls[..used - 1]);
      case Failure(msg) =>
        var verdict := Classify(msg);
        if verdict == Exit {
          return Exited, used, Pauses(calls[..used - 1]);
        } else if verdict == NoTarget {
          return Null, used, Pauses(calls[..used - 1]);
        } else if verdict == NoAccess {
          return Refused, used, Pauses(calls[..used - 1]);
        }
        slept := slept + Pause(verdict);
    }
    assert calls[..used] == calls;
    r := Pending;
  }

  /** `[5]` ends the program even when the message also names another
      error. */
  lemma AuthFailureWins(a: string, b: string)
    ensures Classify(a + "[5]" + b) == Exit
  {
    var m := a + "[5]" + b;
    assert m[|a|..|a| + 3] == "[5]";
    assert OccursAt(m, "[5]", |a|);
  }
}

=== FILE: audio_naming.dfy ===
/** The string side of the audio downloader mu.py: the default file name of
    a track, the escaping that makes a file name usable as a literal glob
    pattern, the choice between the direct and the playlist download, and
    the normalisation of a command-line argument. */
module AudioNaming {
  import opened PyStr
  import opened Utils

  // ---------------------------------------------------------------------
  // Glob escaping (mu.py:123-124)

  /** `glob_esc.get(c, c)`: `[` and `]` become one-character classes. */
  function GlobChar(c: char): string {
    if c == '[' then "[[]" else if c == ']' then "[]]" else [c]
  }

  function GlobEscape(s: string): (r: string)
    ensures |r| >= |s|
    ensures (forall i :: 0 <= i < |s| ==> s[i] != '[' && s[i] != ']') ==> r == s
  {
    if |s| == 0 then "" else GlobChar(s[0]) + GlobEscape(s[1..])
  }

  /** How a glob pattern made only of literal characters and the classes
      `[[]`, `[]]` reads back as the one name it matches. */
  function GlobUnescape(p: string): string
    decreases |p|
  {
    if |p| >= 3 && p[0] == '[' && (p[1] == '[' || p[1] == ']') && p[2] == ']' then
      [p[1]] + GlobUnescape(p[3..])
    else if |p| == 0 then ""
    else [p[0]] + GlobUnescape(p[1..])
  }

  lemma UnescapeStep(c: char, rest: string)
    ensures GlobUnescape(GlobChar(c) + rest) == [c] + GlobUnescape(rest)
  {
    var p := GlobChar(c) + rest;
    if c == '[' || c == ']' {
      assert p[0] == '[' && p[1] == c && p[2] == ']';
      assert p[3..] == rest;
    } else {
      assert p[0] == c;
      assert p[1..] == rest;
    }
  }

  /** The escaped pattern stands for exactly the original name. */
  lemma {:induction false} GlobRoundTrip(s: string)
    ensures GlobUnescape(GlobEscape(s)) == s
    decreases |s|
  {
    if |s| > 0 {
      GlobRoundTrip(s[1..]);
      UnescapeStep(s[0], GlobEscape(s[1..]));
      assert [s[0]] + s[1..] == s;
    }
  }

  /** Two names with the same escape are the same name. */
  lemma GlobEscapeInjective(a: string, b: string)
    requires GlobEscape(a) == GlobEscape(b)
    ensures a == b
  {
    GlobRoundTrip(a);
    GlobRoundTrip(b);
  }

  // ---------------------------------------------------------------------
  // The default file name of a track (mu.py:116, 119-121)

  /** `"%s - %s" % (str_cut(artist, 100, ''), str_cut(title, 100, ''))`. */
  function TrackName(artist: string, title: string): string {
    StrCut(artist, 100, "") + " - " + StrCut(title, 100, "")
  }

  /** `str_fix("%s (%s).mp3" % (name, id), 0)`. */
  function DefaultName(id: string, artist: string, title: string): string {
    StrFix(TrackName(artist, title) + " (" + id + ").mp3", 0)
  }

  /** The default name is sanitised, never truncated, and keeps its
      extension, so the glob built from it has no `*` or `?`. */
  lemma DefaultNameShape(id: string, artist: string, title: string)
    ensures Clean(DefaultName(id, artist, title))
    ensures EndsWith(DefaultName(id, artist, title), ").mp3")
    ensures |DefaultName(id, artist, title)| <= |TrackName(artist, title)| + |id| + 7
    ensures forall i :: 0 <= i < |DefaultName(id, artist, title)| ==>
      DefaultName(id, artist, title)[i] != '*' && DefaultName(id, artist, title)[i] != '?'
  {
    var stem := TrackName(artist, title) + " (" + id;
    assert stem + ").mp3" == TrackName(artist, title) + " (" + id + ").mp3";
    FixKeepsExtension(stem);
  }

  lemma FixKeepsExtension(stem: string)
    ensures StrFix(stem + ").mp3", 0) == Without(stem, FixForbidden) + ").mp3"
  {
    WithoutConcat(stem, ").mp3", FixForbidden);
    ExtensionClean();
  }

  lemma ExtensionClean()
    ensures Without(").mp3", FixForbidden) == ").mp3"
  {
    assert Clean(").mp3");
    WithoutClean(").mp3");
  }

  /** A track whose fields are already clean and short gets the obvious
      name. */
  lemma DefaultNameOfCleanTrack(id: string, artist: string, title: string)
    requires Clean(id) && Clean(artist) && Clean(title)
    requires |artist| <= 100 && |title| <= 100
    ensures DefaultName(id, artist, title) == artist + " - " + title + " (" + id + ").mp3"
  {
    var full := artist + " - " + title + " (" + id + ").mp3";
    assert TrackName(artist, title) + " (" + id + ").mp3" == full;
    assert Clean(full) by {
      forall i | 0 <= i < |full|
        ensures full[i] !in FixForbidden
      {
        if i < |artist| {
          assert full[i] == artist[i];
        } else if i < |artist| + 3 {
        } else if i < |artist| + 3 + |title| {
          assert full[i] == title[i - |artist| - 3];
        } else if i < |artist| + 5 + |title| {
        } else if i < |artist| + 5 + |title| + |id| {
          assert full[i] == id[i - |artist| - 5 - |title|];
        }
      }
    }
  }

  // ---------------------------------------------------------------------
  // Which download path a track takes (mu.py:129, 154, 197)

  datatype UrlKind = DirectFile | HlsPlaylist | UnknownUrl

  function KindOf(url: string): (k: UrlKind)
    ensures k == DirectFile <==> Contains(url, ".mp3")
    ensures k == HlsPlaylist <==> !Contains(url, ".mp3") && Contains(url, ".m3u8")
    ensures k == UnknownUrl <==> !Contains(url, ".mp3") && !Contains(url, ".m3u8")
  {
    if Contains(url, ".mp3") then DirectFile
    else if Contains(url, ".m3u8") then HlsPlaylist
    else UnknownUrl
  }

  /** A playlist whose URL also mentions `.mp3` anywhere is fetched as a
      direct file. */
  lemma DirectWinsOverPlaylist(a: string, b: string, c: string)
    ensures KindOf(a + ".m3u8" + b + ".mp3" + c) == DirectFile
  {
    var u := a + ".m3u8" + b + ".mp3" + c;
    var i := |a| + 5 + |b|;
    assert u[i..i + 4] == ".mp3";
    assert OccursAt(u, ".mp3", i);
  }

  // ---------------------------------------------------------------------
  // Command-line arguments (mu.py:292-332)

  /** What an argument names. `Malformed` is the `ValueError` of a tuple
      unpacking with the wrong number of `_`-separated parts, which ends
      the program. */
  datatype Arg =
    | PlaylistArg(owner: string, album: string, accessHash: string)
    | AudioArg(owner: string, audio: string)
    | TargetArg(target: string)
    | Malformed

  /** The three optional link prefixes, each dropped once, in order. */
  function StripLink(arg: string): string {
    RemovePrefix(RemovePrefix(RemovePrefix(arg, "https://"), "vk.com/"), "music/")
  }

  /** `owner_album[_hash]` after `playlist/`: three parts when there is more
      than one `_`, two otherwise, and any other count of parts fails the
      unpacking. */
  function ParsePlaylist(rest: string): (r: Arg)
    ensures r.PlaylistArg? || r.Malformed?
  {
    var parts := Split(rest, "_");
    if CountChar(rest, '_') > 1 then
      if |parts| == 3 then PlaylistArg(parts[0], parts[1], parts[2]) else Malformed
    else
      if |parts| == 2 then PlaylistArg(parts[0], parts[1], "") else Malformed
  }

  /** `[[audio<owner>_<id>]]` or `audio<owner>_<id>`. */
  function ParseAudio(a: string): (r: Arg)
    ensures r.AudioArg? || r.Malformed?
  {
    var d := RemovePrefix(RemoveSuffix(RemovePrefix(a, "[["), "]]"), "audio");
    var parts := Split(d, "_");
    if |parts| == 2 then AudioArg(parts[0], parts[1]) else Malformed
  }

  function ParseArg(arg: string): (r: Arg)
    ensures r.TargetArg? ==> r.target == StripLink(arg) && !StartsWith(r.target, "playlist/")
    ensures r.PlaylistArg? ==> StartsWith(StripLink(arg), "playlist/")
  {
    var a := StripLink(arg);
    if StartsWith(a, "playlist/") then ParsePlaylist(a[9..])
    else if Take(a, 5) == "audio" || Take(a, 5) == "[[aud" then ParseAudio(a)
    else TargetArg(a)
  }

  /** A playlist reference parses exactly when it has one or two `_`. */
  lemma PlaylistArity(rest: string)
    ensures ParsePlaylist(rest).PlaylistArg? <==> CountChar(rest, '_') == 1 || CountChar(rest, '_') == 2
  {
    SplitCount(rest, '_');
  }

  lemma PlaylistParts(o: string, a: string, h: string)
    requires Lacks(o, '_') && Lacks(a, '_') && Lacks(h, '_')
    ensures ParsePlaylist(o + "_" + a) == PlaylistArg(o, a, "")
    ensures ParsePlaylist(o + "_" + a + "_" + h) == PlaylistArg(o, a, h)
  {
    SplitPair(o, '_', a);
    SplitTriple(o, '_', a, h);
    SplitCount(o + "_" + a, '_');
    SplitCount(o + "_" + a + "_" + h, '_');
  }

  lemma StripFullLink(x: string)
    ensures StripLink("https://vk.com/music/" + x) == x
  {
    var full := "https://vk.com/music/" + x;
    assert full == "https://" + ("vk.com/" + ("music/" + x));
    assert RemovePrefix(full, "https://") == "vk.com/" + ("music/" + x);
    assert RemovePrefix("vk.com/" + ("music/" + x), "vk.com/") == "music/" + x;
  }

  lemma ArgIsPlaylist(arg: string)
    requires StartsWith(StripLink(arg), "playlist/")
    ensures ParseArg(arg) == ParsePlaylist(StripLink(arg)[9..])
  {
  }

  lemma ArgIsAudio(arg: string)
    requires StripLink(arg) == arg && |arg| >= 5
    requires arg[..5] == "audio" || arg[..5] == "[[aud"
    ensures ParseArg(arg) == ParseAudio(arg)
  {
    assert arg[0] == arg[..5][0];
    assert !StartsWith(arg, "playlist/") by {
      if |arg| >= 9 {
        assert arg[..9][0] == arg[0];
      }
    }
    assert Take(arg, 5) == arg[..5];
  }

  /** An argument that starts with none of the link prefixes is kept. */
  lemma StripBare(x: string)
    requires |x| > 0 && x[0] != 'h' && x[0] != 'v' && x[0] != 'm'
    ensures StripLink(x) == x
  {
    assert !StartsWith(x, "https://") by {
      if |x| >= 8 {
        assert x[..8][0] == x[0];
      }
    }
    assert !StartsWith(x, "vk.com/") by {
      if |x| >= 7 {
        assert x[..7][0] == x[0];
      }
    }
    assert !StartsWith(x, "music/") by {
      if |x| >= 6 {
        assert x[..6][0] == x[0];
      }
    }
  }

  lemma PlaylistRef(body: string)
    ensures ParseArg("playlist/" + body) == ParsePlaylist(body)
    ensures ParseArg("https://vk.com/music/" + ("playlist/" + body)) == ParsePlaylist(body)
  {
    var p := "playlist/" + body;
    assert p[0] == 'p';
    StripBare(p);
    assert p[..9] == "playlist/" && p[9..] == body;
    ArgIsPlaylist(p);
    StripFullLink(p);
    ArgIsPlaylist("https://vk.com/music/" + p);
  }

  /** A full playlist link, and the bare `playlist/` form, give back the
      owner, album and access hash they were built from. */
  lemma ParsePlaylistLink(o: string, a: string, h: string)
    requires Lacks(o, '_') && Lacks(a, '_') && Lacks(h, '_')
    ensures ParseArg("https://vk.com/music/" + ("playlist/" + (o + "_" + a + "_" + h))) == PlaylistArg(o, a, h)
    ensures ParseArg("playlist/" + (o + "_" + a)) == PlaylistArg(o, a, "")
  {
    PlaylistParts(o, a, h);
    PlaylistRef(o + "_" + a + "_" + h);
    PlaylistRef(o + "_" + a);
  }

  /** After the brackets and the `audio` prefix are dropped, what is left
      is split on `_`. */
  lemma AudioCore(w: string, core: string)
    requires w == "audio" + core && |core| > 0 && core[|core| - 1] != ']'
    ensures ParseAudio("[[" + w + "]]") == ParseAudio(w)
    ensures ParseAudio(w) == (var parts := Split(core, "_");
      if |parts| == 2 then AudioArg(parts[0], parts[1]) else Malformed)
  {
    var v := "[[" + w + "]]";
    assert RemovePrefix(v, "[[") == w + "]]";
    assert RemoveSuffix(w + "]]", "]]") == w;
    assert RemovePrefix(w, "[[") == w by {
      assert w[0] == 'a';
    }
    assert RemoveSuffix(w, "]]") == w by {
      assert w[|w| - 1] == core[|core| - 1];
    }
    assert RemovePrefix(w, "audio") == core;
  }

  lemma AudioPrefixes(core: string)
    ensures ("audio" + core)[..5] == "audio"
    ensures ("[[" + ("audio" + core) + "]]")[..5] == "[[aud"
  {
  }

  /** The vkopt form `[[audio<owner>_<id>]]` and the bare form
      `audio<owner>_<id>` both name the audio. */
  lemma ParseAudioLink(o: string, i: string)
    requires Lacks(o, '_') && Lacks(i, '_')
    requires |i| > 0 && i[|i| - 1] != ']'
    ensures ParseArg("[[" + ("audio" + (o + "_" + i)) + "]]") == AudioArg(o, i)
    ensures ParseArg("audio" + (o + "_" + i)) == AudioArg(o, i)
  {
    SplitPair(o, '_', i);
    var core := o + "_" + i;
    var w := "audio" + core;
    var v := "[[" + w + "]]";
    assert core[|core| - 1] == i[|i| - 1];
    AudioCore(w, core);
    assert v[0] == '[' && w[0] == 'a';
    StripBare(v);
    StripBare(w);
    AudioPrefixes(core);
    ArgIsAudio(v);
    ArgIsAudio(w);
  }

  /** Anything else names a user or group, after the link prefixes are
      dropped. */
  lemma ParseTarget(name: string)
    requires !StartsWith(name, "https://") && !StartsWith(name, "vk.com/") && !StartsWith(name, "music/")
    requires !StartsWith(name, "playlist/") && Take(name, 5) != "audio" && Take(name, 5) != "[[aud"
    ensures ParseArg("https://vk.com/" + name) == TargetArg(name)
  {
    var full := "https://vk.com/" + name;
    assert full == "https://" + ("vk.com/" + name);
    assert RemovePrefix(full, "https://") == "vk.com/" + name;
    assert RemovePrefix("vk.com/" + name, "vk.com/") == name;
  }
}

=== FILE: im.dfy ===
/** The dialogue dumper: HTML escaping of message text, the photo size it
    shows, the skip rules of its file fetcher, the cache of senders, the
    choice of message blank, the page arithmetic of the HTML files, and
    the `@N` chat targets. */
module Im {
  import opened PyStr
  import opened PhotoSizes
  import Phdmp

  // ---------------------------------------------------------------------
  // Escaping message text (im.py:101-116)

  /** The entry of `html_escape_table` for `c`, or `c` itself. */
  function EscChar(c: char, urlParse: bool): (r: string)
    ensures |r| >= 1
    ensures c !in "&\"'<>\n" ==> r == [c]
  {
    if c == '&' then "&amp;"
    else if c == '\"' then "&quot;"
    else if c == '\'' then "&apos;"
    else if c == '>' then "&gt;"
    else if c == '<' then "&lt;"
    else if c == '\n' then (if urlParse then "<br/>\n" else "\n")
    else [c]
  }

  /** The character map of `str_esc`, applied to every character. */
  function EscMap(s: string, urlParse: bool): (r: string)
    ensures |r| >= |s|
  {
    if |s| == 0 then "" else EscChar(s[0], urlParse) + EscMap(s[1..], urlParse)
  }

  /** `str_esc(s)` with `url_parse` false: the map and nothing more. */
  function StrEsc(s: string): (r: string)
    ensures forall i :: 0 <= i < |r| ==> r[i] !in "<>\"'"
  {
    EscNoRaw(s);
    EscMap(s, false)
  }

  lemma {:induction false} EscNoRaw(s: string)
    ensures forall i :: 0 <= i < |EscMap(s, false)| ==> EscMap(s, false)[i] !in "<>\"'"
    decreases |s|
  {
    if |s| > 0 {
      EscNoRaw(s[1..]);
      var h := EscChar(s[0], false);
      assert forall i :: 0 <= i < |h| ==> h[i] !in "<>\"'";
      assert EscMap(s, false) == h + EscMap(s[1..], false);
    }
  }

  /** The map works character by character. */
  lemma {:induction false} EscMapConcat(a: string, b: string, urlParse: bool)
    ensures EscMap(a + b, urlParse) == EscMap(a, urlParse) + EscMap(b, urlParse)
    decreases |a|
  {
    if |a| > 0 {
      assert (a + b)[1..] == a[1..] + b;
      EscMapConcat(a[1..], b, urlParse);
    } else {
      assert a + b == b;
    }
  }

  /** Reading the five entities back. */
  function Unescape(s: string): string
    decreases |s|
  {
    if |s| == 0 then ""
    else if s[0] == '&' && |s| >= 5 && s[1] == 'a' && s[2] == 'm' && s[3] == 'p' && s[4] == ';' then
      "&" + Unescape(s[5..])
    else if s[0] == '&' && |s| >= 6 && s[1] == 'q' && s[2] == 'u' && s[3] == 'o' && s[4] == 't' && s[5] == ';' then
      "\"" + Unescape(s[6..])
    else if s[0] == '&' && |s| >= 6 && s[1] == 'a' && s[2] == 'p' && s[3] == 'o' && s[4] == 's' && s[5] == ';' then
      "'" + Unescape(s[6..])
    else if s[0] == '&' && |s| >= 4 && s[1] == 'g' && s[2] == 't' && s[3] == ';' then
      ">" + Unescape(s[4..])
    else if s[0] == '&' && |s| >= 4 && s[1] == 'l' && s[2] == 't' && s[3] == ';' then
      "<" + Unescape(s[4..])
    else [s[0]] + Unescape(s[1..])
  }

  lemma UnescapeStep(c: char, t: string)
    ensures Unescape(EscChar(c, false) + t) == [c] + Unescape(t)
  {
    var h := EscChar(c, false);
    if c == '&' {
      assert (h + t)[5..] == t;
    } else if c == '\"' {
      assert (h + t)[6..] == t;
    } else if c == '\'' {
      assert (h + t)[6..] == t;
    } else if c == '>' || c == '<' {
      assert (h + t)[4..] == t;
    } else {
      assert h == [c];
      assert (h + t)[1..] == t;
    }
  }

  /** No text is lost: the entities read back as the original text. */
  lemma {:induction false} EscRoundTrip(s: string)
    ensures Unescape(StrEsc(s)) == s
    decreases |s|
  {
    if |s| > 0 {
      EscRoundTrip(s[1..]);
      UnescapeStep(s[0], EscMap(s[1..], false));
      assert [s[0]] + s[1..] == s;
    }
  }

  /** With `url_parse` the only change to the map is at line breaks. */
  lemma {:induction false} LineBreaksOnly(s: string)
    requires forall i :: 0 <= i < |s| ==> s[i] != '\n'
    ensures EscMap(s, true) == EscMap(s, false)
    decreases |s|
  {
    if |s| > 0 {
      LineBreaksOnly(s[1..]);
    }
  }

  // ---------------------------------------------------------------------
  // The photo shown for an attachment (im.py:153-180)

  datatype Photo = Photo(url: string, height: int, width: int)

  const NoPhoto := Photo("null", 100, 100)

  /** The scan of the sizes; with nothing ranked, a 100×100 `null` photo. */
  function RqstPhoto(sizes: seq<Size>): (p: Photo)
    ensures (forall j :: 0 <= j < |sizes| ==> Rank(sizes[j].kind) == 0) ==> p == NoPhoto
    ensures forall k: nat :: FirstBest(sizes, k) && Rank(sizes[k].kind) > 0 ==>
              p == Photo(sizes[k].url, sizes[k].height, sizes[k].width)
  {
    ScanIsFirstBest(sizes);
    match Scan(sizes)
    case None => NoPhoto
    case Some(k) =>
      assert forall b: nat :: FirstBest(sizes, b) ==> b == k by {
        forall b: nat | FirstBest(sizes, b) ensures b == k {
          FirstBestUnique(sizes, b, k);
        }
      }
      Photo(sizes[k].url, sizes[k].height, sizes[k].width)
  }

  /** The photo dumper's scan keeps the same URL, with `''` where this one
      shows the `null` photo. */
  lemma SameChoiceAsPhdmp(sizes: seq<Size>)
    ensures Scan(sizes).Some? ==> RqstPhoto(sizes).url == Phdmp.RqstSize(sizes)
    ensures Scan(sizes).None? ==> RqstPhoto(sizes).url == "null" && Phdmp.RqstSize(sizes) == ""
  {
    ScanIsFirstBest(sizes);
  }

  // ---------------------------------------------------------------------
  // Fetching a file (im.py:67-83)

  /** The answer to the GET: a success with its `Content-Length` header,
      if any, or a failed status. */
  /** What `requests.get` gives: a truthy response with its length
      header, a falsy one with its status, or an exception (a timeout or a
      refused connection), which nothing in `rqst_file` catches. */
  datatype Response = Ok(contentLength: Option<string>) | Failed(status: int) | Unreachable

  datatype FileRun =
    | NoRequest                    // empty URL, or a file kept because rewriting is off
    | BadStatus(status: int)       // logged, nothing written
    | RequestRaised                // `requests.get` raises out of `rqst_file`
    | BadHeader                    // `int()` of the header raises
    | NoTerminal                   // `os.get_terminal_size()` raises in `progress`
    | Download(expected: int)      // written; the size the progress line announces

  /** `int(headers.get('Content-Length', '0')) or 10000`. */
  function ExpectedLength(header: Option<string>): (r: Option<int>)
    ensures header.None? ==> r == Some(10000)
    ensures r.Some? ==> r.value != 0
    ensures header.Some? && ParseInt(header.value).Some? && ParseInt(header.value).value != 0 ==>
              r == ParseInt(header.value)
    ensures header.Some? && ParseInt(header.value) == Some(0) ==> r == Some(10000)
    ensures header.Some? && ParseInt(header.value).None? ==> r.None?
  {
    var n := ParseInt(if header.Some? then header.value else "0");
    assert header.None? ==> n == Some(0) by {
      assert AllDigits("0");
    }
    match n
    case None => None
    case Some(v) => Some(if v != 0 then v else 10000)
  }

  /** Whether `progress` raises. The first line goes to the terminal
      unless `--verbose` is on; the lines forced while the chunks arrive
      (only once two seconds have passed, `slow`) always do, and
      `os.get_terminal_size()` raises when there is no terminal. */
  predicate ProgressRaises(terminal: bool, verbose: bool, slow: bool) {
    !terminal && (!verbose || slow)
  }

  /** `rqst_file(url, path)`: the request `response` is made only when
      `url` is not empty and the path is absent or rewriting is on. */
  function RqstFile(url: string, exists_: bool, rewrite: bool, response: Response,
                    terminal: bool, verbose: bool, slow: bool): (run: FileRun)
    ensures run == NoRequest <==> url == "" || (exists_ && !rewrite)
    ensures run.BadStatus? ==> response == Failed(run.status)
    ensures response.Failed? && run != NoRequest ==> run == BadStatus(response.status)
    ensures run == RequestRaised <==> run != NoRequest && response.Unreachable?
    ensures run == BadHeader <==>
              run != NoRequest && response.Ok? && ExpectedLength(response.contentLength).None?
    ensures response.Ok? && run != NoRequest ==>
              (run.Download? <==> ExpectedLength(response.contentLength).Some? && !ProgressRaises(terminal, verbose, slow))
    ensures run == NoTerminal <==>
              run != NoRequest && response.Ok? && ExpectedLength(response.contentLength).Some? &&
              ProgressRaises(terminal, verbose, slow)
    ensures run.Download? ==> response.Ok? && run.expected == ExpectedLength(response.contentLength).value
  {
    if url == "" then NoRequest
    else if exists_ && !rewrite then NoRequest
    else match response
      case Failed(status) => BadStatus(status)
      case Unreachable => RequestRaised
      case Ok(h) =>
        match ExpectedLength(h)
        case None => BadHeader
        case Some(n) => if ProgressRaises(terminal, verbose, slow) then NoTerminal else Download(n)
  }

  /** A zero or absent length is announced as 10000 bytes. */
  lemma LengthFallback(url: string, rewrite: bool)
    requires url != ""
    ensures RqstFile(url, false, rewrite, Ok(None), true, false, false) == Download(10000)
    ensures RqstFile(url, false, rewrite, Ok(Some("0")), true, false, false) == Download(10000)
  {
    assert AllDigits("0") && ParseDigits("0") == 0;
  }

  /** Once the request is made, the outcome depends on the response and
      the terminal only, not on the URL or why the request was made. */
  lemma RequestedOutcome(url: string, exists_: bool, rewrite: bool, url2: string, exists2: bool, rewrite2: bool,
                         response: Response, terminal: bool, verbose: bool, slow: bool)
    requires url != "" && (!exists_ || rewrite)
    requires url2 != "" && (!exists2 || rewrite2)
    ensures RqstFile(url, exists_, rewrite, response, terminal, verbose, slow) ==
            RqstFile(url2, exists2, rewrite2, response, terminal, verbose, slow)
    ensures RqstFile(url, exists_, rewrite, response, terminal, verbose, slow) != NoRequest
  {
  }

  /** With a usable length, a terminal always lets the download through;
      without one, a verbose run gets through only when no forced line is
      due, and a quiet run never does. */
  lemma TerminalDecides(url: string, exists_: bool, rewrite: bool, h: Option<string>, verbose: bool, slow: bool)
    requires url != "" && (!exists_ || rewrite) && ExpectedLength(h).Some?
    ensures RqstFile(url, exists_, rewrite, Ok(h), true, verbose, slow) == Download(ExpectedLength(h).value)
    ensures RqstFile(url, exists_, rewrite, Ok(h), false, true, false) == Download(ExpectedLength(h).value)
    ensures RqstFile(url, exists_, rewrite, Ok(h), false, verbose, true) == NoTerminal
    ensures RqstFile(url, exists_, rewrite, Ok(h), false, false, slow) == NoTerminal
  {
  }

  // ---------------------------------------------------------------------
  // The sender cache (im.py:182-206)

  /** A cached sender. */
  datatype User = User(id: int, photo: string, name: string)

  /** The first cached entry with the id, as the loop over the cache finds it. */
  function Lookup(users: seq<User>, id: int): (k: Option<nat>)
    ensures k.Some? ==> k.value < |users| && users[k.value].id == id &&
                        forall j :: 0 <= j < k.value ==> users[j].id != id
    ensures k.None? ==> forall j :: 0 <= j < |users| ==> users[j].id != id
  {
    if |users| == 0 then None
    else if users[0].id == id then Some(0)
    else match Lookup(users[1..], id)
      case None => None
      case Some(k) => Some(k + 1)
  }

  /** What the API answers for an id not in the cache. */
  datatype Fetched = Fetched(photo: string, name: string)

  /** The API asked for an uncached id: users for positive ids, groups
      (by the unsigned id) otherwise. */
  function SenderApi(id: int): (m: string)
    ensures m == "users.get" <==> id > 0
  {
    if id > 0 then "users.get" else "groups.getById"
  }

  /** The outcome of one `rqst_user` call: the sender, the cache after it,
      and the API asked, if any; or the `[0]` of the answer raised after
      asking `api`. */
  datatype UserRun =
    | UserRun(user: User, users: seq<User>, asked: Option<string>)
    | Raised(api: string)

  /** `rqst_user(id, save)` with the API's answer `fetch` passed in:
      `None` when `rqst_method` answered `None` (an unknown user or group),
      otherwise the list it returned. */
  function RqstUser(users: seq<User>, id: int, save: bool, fetch: Option<seq<Fetched>>): (run: UserRun)
    ensures run.UserRun? ==> run.user.id == id
    ensures Lookup(users, id).Some? ==>
              run == UserRun(users[Lookup(users, id).value], users, None)
    ensures Lookup(users, id).None? ==>
              (run.Raised? <==> fetch.None? || |fetch.value| == 0) &&
              (run.Raised? ==> run.api == SenderApi(id)) &&
              (run.UserRun? ==>
                 run.asked == Some(SenderApi(id)) &&
                 run.user == User(id, fetch.value[0].photo, fetch.value[0].name) &&
                 run.users == (if save then users + [run.user] else users))
  {
    match Lookup(users, id)
    case Some(k) => UserRun(users[k], users, None)
    case None =>
      if fetch.None? || |fetch.value| == 0 then Raised(SenderApi(id))
      else
        var user := User(id, fetch.value[0].photo, fetch.value[0].name);
        UserRun(user, if save then users + [user] else users, Some(SenderApi(id)))
  }

  predicate UniqueIds(users: seq<User>) {
    forall i, j :: 0 <= i < j < |users| ==> users[i].id != users[j].id
  }

  /** The cache never holds an id twice, and after a saved call the next
      call for the same id asks nothing and returns the same sender. */
  lemma CacheHit(users: seq<User>, id: int, fetch: Option<seq<Fetched>>, later: Option<seq<Fetched>>)
    requires UniqueIds(users)
    ensures RqstUser(users, id, true, fetch).UserRun? ==> UniqueIds(RqstUser(users, id, true, fetch).users)
    ensures var run := RqstUser(users, id, true, fetch);
            run.UserRun? ==> RqstUser(run.users, id, true, later) == UserRun(run.user, run.users, None)
  {
    var run := RqstUser(users, id, true, fetch);
    if Lookup(users, id).None? && run.UserRun? {
      assert run.users[|users|] == run.user;
      assert Lookup(run.users, id) == Some(|users|) by {
        LookupLast(users, run.user);
      }
    }
  }

  lemma {:induction false} LookupLast(users: seq<User>, u: User)
    requires forall j :: 0 <= j < |users| ==> users[j].id != u.id
    ensures Lookup(users + [u], u.id) == Some(|users|)
    decreases |users|
  {
    if |users| > 0 {
      assert (users + [u])[1..] == users[1..] + [u];
      LookupLast(users[1..], u);
    }
  }

  // ---------------------------------------------------------------------
  // Choosing the message blank (im.py:617-625)

  datatype Blank = ForwardedBlank | JoinedBlank | DefaultBlank

  /** The sender and date of the last message that got the default blank. */
  datatype Anchor = Anchor(prevId: int, prevDate: int)

  /** One message: forwarded ones use their blank; a message from the
      anchor's sender less than 120 s after the anchor is joined to it;
      any other starts a new anchor. */
  function Select(a: Anchor, forwarded: bool, fromId: int, date: int): (r: (Blank, Anchor))
    ensures r.0 == ForwardedBlank <==> forwarded
    ensures r.0 == JoinedBlank <==> !forwarded && fromId == a.prevId && date - a.prevDate < 120
    ensures r.0 == DefaultBlank ==> r.1 == Anchor(fromId, date)
    ensures r.0 != DefaultBlank ==> r.1 == a
  {
    if forwarded then (ForwardedBlank, a)
    else if a.prevId == fromId && date - a.prevDate < 120 then (JoinedBlank, a)
    else (DefaultBlank, Anchor(fromId, date))
  }

  datatype Msg = Msg(forwarded: bool, fromId: int, date: int)

  /** The blanks of a sequence of messages, in rendering order. */
  function SelectAll(a: Anchor, msgs: seq<Msg>): (r: (seq<Blank>, Anchor))
    ensures |r.0| == |msgs|
    decreases |msgs|
  {
    if |msgs| == 0 then ([], a)
    else
      var first := Select(a, msgs[0].forwarded, msgs[0].fromId, msgs[0].date);
      var rest := SelectAll(first.1, msgs[1..]);
      ([first.0] + rest.0, rest.1)
  }

  /** Joined and forwarded messages leave the anchor alone, so a joined
      run is measured from its first message, not from the one before. */
  lemma {:induction false} AnchorHolds(a: Anchor, msgs: seq<Msg>)
    requires forall j :: 0 <= j < |msgs| ==> SelectAll(a, msgs).0[j] != DefaultBlank
    ensures SelectAll(a, msgs).1 == a
    decreases |msgs|
  {
    if |msgs| > 0 {
      var first := Select(a, msgs[0].forwarded, msgs[0].fromId, msgs[0].date);
      assert SelectAll(a, msgs).0[0] == first.0;
      assert first.1 == a;
      forall j | 0 <= j < |msgs[1..]| ensures SelectAll(a, msgs[1..]).0[j] != DefaultBlank {
        assert SelectAll(a, msgs).0[j + 1] == SelectAll(a, msgs[1..]).0[j];
      }
      AnchorHolds(a, msgs[1..]);
    }
  }

  /** Three messages of one sender 100 s apart: the second joins the
      first, the third starts a new group (200 s after the anchor). */
  lemma RunAnchored(id: int)
    requires id != 0
    ensures SelectAll(Anchor(0, 0), [Msg(false, id, 1000), Msg(false, id, 1100), Msg(false, id, 1200)]).0 ==
            [DefaultBlank, JoinedBlank, DefaultBlank]
  {
    var m := [Msg(false, id, 1000), Msg(false, id, 1100), Msg(false, id, 1200)];
    var a1 := Anchor(id, 1000);
    var a2 := Anchor(id, 1200);
    var one := m[1..][1..];
    assert one[0] == Msg(false, id, 1200) && one[1..] == [];
    assert SelectAll(a1, one).0 == [DefaultBlank];
    var two := m[1..];
    assert two[0] == Msg(false, id, 1100) && two[1..] == one;
    assert SelectAll(a1, two).0 == [JoinedBlank, DefaultBlank];
    assert m[0] == Msg(false, id, 1000);
  }

  // ---------------------------------------------------------------------
  // Pages of the HTML dump (im.py:57, 745-770)

  const ChunkSize: nat := 200

  /** `n // 200 + 1`: the least number of 200-message chunks that pass
      `n`. It turns `--pagenum n` into chunks per file (im.py:57) and the
      message count into chunk requests (im.py:745). */
  function Chunks(n: nat): (c: nat)
    ensures c >= 1 && ChunkSize * (c - 1) <= n < ChunkSize * c
  {
    n / ChunkSize + 1
  }

  /** The number of HTML files: `count // (200 * chunks) + 1`. */
  function PageCount(count: nat, chunks: nat): (n: nat)
    requires chunks >= 1
    ensures n >= 1 && ChunkSize * chunks * (n - 1) <= count < ChunkSize * chunks * n
  {
    var d := ChunkSize * chunks;
    var q := count / d;
    assert count == d * q + count % d;
    assert d * (q + 1) == d * q + d;
    q + 1
  }

  /** The files have room for every chunk: `page_count * chunks` chunk
      slots are at least the chunks there are. */
  lemma PagesHoldAllChunks(count: nat, chunks: nat)
    requires chunks >= 1
    ensures PageCount(count, chunks) * chunks >= Chunks(count)
  {
    var n := PageCount(count, chunks);
    var c := Chunks(count);
    assert ChunkSize * (c - 1) <= count < ChunkSize * chunks * n;
    assert ChunkSize * (c - 1) < ChunkSize * (chunks * n);
  }

  /** `messages{n}.html` is written for page index `n - 1`. */
  function FileNumber(page: nat): nat {
    page + 1
  }

  /** The previous-page link of page `page`: `messages{page}.html`, on
      every page but the first. */
  function PrevLink(page: nat): (l: Option<nat>)
    ensures l.Some? <==> page > 0
    ensures l.Some? ==> l.value == FileNumber(page - 1)
  {
    if page > 0 then Some(page) else None
  }

  /** The next-page link: `messages{page + 2}.html`, on every page but the
      last. */
  function NextLink(page: nat, pageCount: nat): (l: Option<nat>)
    requires page < pageCount
    ensures l.Some? <==> page + 1 < pageCount
    ensures l.Some? ==> l.value == FileNumber(page + 1)
  {
    if page + 1 != pageCount then Some(page + 2) else None
  }

  /** Each link points at a file that is written, and the next and
      previous links of neighbouring pages point at each other. */
  lemma LinksChain(page: nat, pageCount: nat)
    requires page + 1 < pageCount
    ensures NextLink(page, pageCount) == Some(FileNumber(page + 1))
    ensures PrevLink(page + 1) == Some(FileNumber(page))
    ensures FileNumber(page + 1) <= pageCount
  {
  }

  // ---------------------------------------------------------------------
  // Chat targets (im.py:682-685, 981-982)

  const ChatBase: int := 2000000000

  /** `@N` names chat N: `2000000000 + int(N)`; `None` where `int` raises. */
  function AtTarget(arg: string): (t: Option<int>)
    requires |arg| > 0 && arg[0] == '@'
    ensures t.Some? <==> ParseInt(arg[1..]).Some?
    ensures t.Some? ==> t.value == ChatBase + ParseInt(arg[1..]).value
  {
    match ParseInt(arg[1..])
    case None => None
    case Some(n) => Some(ChatBase + n)
  }

  /** Targets above `2e9` are chats, asked for by `target - 2e9`. */
  predicate IsChat(target: int) {
    target > ChatBase
  }

  function ChatId(target: int): (c: int)
    requires IsChat(target)
    ensures c > 0
  {
    target - ChatBase
  }

  /** `@N` for a positive N reaches chat N; `@0` is not a chat target. */
  lemma AtChatRoundTrip(n: nat)
    ensures AtTarget("@" + NatToString(n)).Some?
    ensures n > 0 ==> IsChat(AtTarget("@" + NatToString(n)).value) &&
                      ChatId(AtTarget("@" + NatToString(n)).value) == n
    ensures n == 0 ==> !IsChat(AtTarget("@" + NatToString(n)).value)
  {
    assert ("@" + NatToString(n))[1..] == NatToString(n);
    ParseIntOfNat(n);
  }
}

=== FILE: ph.dfy ===
/** The photo album dumper: the size it keeps for each photo, the album
    codes and paging of `get_album`, and the link cleaning, target choice
    and album list of `parse_link`. */
module Ph {
  import opened PyStr
  import Util
  import opened PhotoSizes
  import opened ApiErrors
  import Phdmp

  // ---------------------------------------------------------------------
  // The size kept for a photo (ph.py:52-58)

  /** `max(sizes, key=priority, default={}).get("url", "")`. */
  function RqstSize(sizes: seq<Size>): (url: string)
    ensures |sizes| == 0 ==> url == ""
    ensures forall k: nat :: FirstBest(sizes, k) ==> url == sizes[k].url
  {
    match PyMax(sizes)
    case None => ""
    case Some(k) =>
      PyMaxIsFirstBest(sizes);
      assert forall b: nat :: FirstBest(sizes, b) ==> b == k by {
        forall b: nat | FirstBest(sizes, b) ensures b == k {
          FirstBestUnique(sizes, b, k);
        }
      }
      sizes[k].url
  }

  /** This selection and the loop of phdmp.py agree whenever some size has
      a ranked type; with only unknown types this one keeps the first
      size's URL where the loop keeps nothing. */
  lemma RqstSizeAgainstScan(sizes: seq<Size>)
    ensures (exists j :: 0 <= j < |sizes| && Rank(sizes[j].kind) > 0) ==> RqstSize(sizes) == Phdmp.RqstSize(sizes)
    ensures |sizes| > 0 && (forall j :: 0 <= j < |sizes| ==> Rank(sizes[j].kind) == 0) ==>
              RqstSize(sizes) == sizes[0].url && Phdmp.RqstSize(sizes) == ""
  {
    if |sizes| > 0 {
      PyMaxIsFirstBest(sizes);
      var k := PyMax(sizes).value;
      if exists j :: 0 <= j < |sizes| && Rank(sizes[j].kind) > 0 {
        var j :| 0 <= j < |sizes| && Rank(sizes[j].kind) > 0;
        assert Rank(sizes[k].kind) >= Rank(sizes[j].kind);
      } else {
        assert FirstBest(sizes, 0);
      }
    }
  }

  // ---------------------------------------------------------------------
  // Album codes (ph.py:76-92, 110-111)

  /** The album id the API is asked for, given the code after the `_`. */
  function AlbumName(code: string): (name: string)
    ensures name == "profile" <==> code == "0" || code == "profile"
    ensures name == "wall" <==> code == "00" || code == "wall"
    ensures name == "saved" <==> code == "000" || code == "saved"
    ensures name == "tagged" <==> code == "-9000" || code == "tagged"
    ensures code !in {"0", "00", "000", "-9000"} ==> name == code
  {
    if code == "0" then "profile"
    else if code == "00" then "wall"
    else if code == "000" then "saved"
    else if code == "-9000" then "tagged"
    else code
  }

  /** Tagged photos come from `photos.getUserPhotos`, the rest from
      `photos.get`. */
  function PhotosMethod(code: string): (m: string)
    ensures m == "photos.getUserPhotos" <==> AlbumName(code) == "tagged"
  {
    if AlbumName(code) == "tagged" then "photos.getUserPhotos" else "photos.get"
  }

  lemma TaggedOnlyForItsCode(code: string)
    requires code != "-9000" && code != "tagged"
    ensures PhotosMethod(code) == "photos.get"
  {
  }

  // ---------------------------------------------------------------------
  // Paging (ph.py:121-142)

  const PageSize: nat := 1000

  /** The offsets of the page requests: `count // 1000 + 1` of them, at
      `0, 1000, 2000, …`. */
  function Offsets(count: nat): (offs: seq<nat>)
    ensures |offs| == count / PageSize + 1
    ensures forall p :: 0 <= p < |offs| ==> offs[p] == p * PageSize
  {
    seq(count / PageSize + 1, p => p * PageSize)
  }

  /** Every photo index below `count` lies in exactly one requested page. */
  lemma OffsetsCover(count: nat, j: nat)
    requires j < count
    ensures var offs := Offsets(count);
            var p := j / PageSize;
            p < |offs| && offs[p] <= j < offs[p] + PageSize
    ensures forall p :: 0 <= p < |Offsets(count)| && Offsets(count)[p] <= j < Offsets(count)[p] + PageSize ==>
              p == j / PageSize
  {
    forall p | 0 <= p < |Offsets(count)| && Offsets(count)[p] <= j < Offsets(count)[p] + PageSize
      ensures p == j / PageSize
    {
      Phdmp.ModUnique(j, PageSize, p, j - p * PageSize);
    }
  }

  /** For a multiple of 1000 the last request starts at `count`, past every
      photo. */
  lemma LastPageBeyondCount(count: nat)
    requires count > 0 && count % PageSize == 0
    ensures Offsets(count)[|Offsets(count)| - 1] == count
  {
  }

  /** One collected image: its index and URL. */
  datatype Image = Image(index: nat, url: string)

  /** The URLs kept, in order: each item's chosen size, empty ones dropped. */
  function Kept(items: seq<seq<Size>>): (urls: seq<string>)
    ensures |urls| <= |items|
    ensures forall k :: 0 <= k < |urls| ==> urls[k] != ""
  {
    if |items| == 0 then []
    else
      var url := RqstSize(items[0]);
      (if url != "" then [url] else []) + Kept(items[1..])
  }

  predicate Numbered(images: seq<Image>) {
    forall k :: 0 <= k < |images| ==> images[k].index == k
  }

  /** The loop of ph.py:144-160: an item with a URL is appended under the
      index `len(img_dict)`; one without is skipped. */
  function AddItems(acc: seq<Image>, items: seq<seq<Size>>): (r: seq<Image>)
    decreases |items|
  {
    if |items| == 0 then acc
    else
      var url := RqstSize(items[0]);
      AddItems(if url != "" then acc + [Image(|acc|, url)] else acc, items[1..])
  }

  /** `r` is `acc` followed by one image per URL of `kept`, in order. */
  predicate Extends(acc: seq<Image>, kept: seq<string>, r: seq<Image>) {
    |r| == |acc| + |kept| && r[..|acc|] == acc &&
    forall k :: |acc| <= k < |r| ==> r[k].url == kept[k - |acc|]
  }

  /** The collected images extend what was there, are numbered 0..k-1 with
      no gap, and carry the kept URLs in order. */
  lemma {:induction false} AddItemsSpec(acc: seq<Image>, items: seq<seq<Size>>)
    requires Numbered(acc)
    ensures Extends(acc, Kept(items), AddItems(acc, items)) && Numbered(AddItems(acc, items))
    decreases |items|
  {
    if |items| > 0 {
      var url := RqstSize(items[0]);
      var rest := items[1..];
      if url != "" {
        var acc' := acc + [Image(|acc|, url)];
        assert Numbered(acc');
        AddItemsSpec(acc', rest);
        assert AddItems(acc, items) == AddItems(acc', rest);
        assert Kept(items) == [url] + Kept(rest);
        KeptStep(acc, url, Kept(rest), AddItems(acc', rest));
      } else {
        AddItemsSpec(acc, rest);
        assert AddItems(acc, items) == AddItems(acc, rest);
        assert Kept(items) == Kept(rest);
      }
    } else {
      assert AddItems(acc, items)[..|acc|] == acc;
    }
  }

  /** One kept image: what holds after it, given what holds for the rest. */
  lemma KeptStep(acc: seq<Image>, url: string, kept: seq<string>, r: seq<Image>)
    requires Extends(acc + [Image(|acc|, url)], kept, r)
    ensures Extends(acc, [url] + kept, r)
  {
    var acc' := acc + [Image(|acc|, url)];
    assert r[..|acc|] == r[..|acc'|][..|acc|];
    forall k | |acc| <= k < |r|
      ensures r[k].url == ([url] + kept)[k - |acc|]
    {
      if k == |acc| {
        assert r[k] == r[..|acc'|][k] == acc'[k];
      }
    }
  }

  lemma {:induction false} AddItemsConcat(acc: seq<Image>, a: seq<seq<Size>>, b: seq<seq<Size>>)
    ensures AddItems(acc, a + b) == AddItems(AddItems(acc, a), b)
    decreases |a|
  {
    if |a| > 0 {
      assert (a + b)[1..] == a[1..] + b;
      var url := RqstSize(a[0]);
      AddItemsConcat(if url != "" then acc + [Image(|acc|, url)] else acc, a[1..], b);
    } else {
      assert a + b == b;
    }
  }

  /** The images of pages `p .. n-1` appended to `acc`, page by page. */
  function AddPages(acc: seq<Image>, pages: nat -> seq<seq<Size>>, p: nat, n: nat): seq<Image>
    requires p <= n
    decreases n - p
  {
    if p == n then acc else AddPages(AddItems(acc, pages(p)), pages, p + 1, n)
  }

  /** The items of pages `p .. n-1`, in page order. */
  function PageItems(pages: nat -> seq<seq<Size>>, p: nat, n: nat): seq<seq<Size>>
    requires p <= n
    decreases n - p
  {
    if p == n then [] else pages(p) + PageItems(pages, p + 1, n)
  }

  /** Page by page is the same as one pass over all the pages' items. */
  lemma {:induction false} AddPagesFlat(acc: seq<Image>, pages: nat -> seq<seq<Size>>, p: nat, n: nat)
    requires p <= n
    ensures AddPages(acc, pages, p, n) == AddItems(acc, PageItems(pages, p, n))
    decreases n - p
  {
    if p < n {
      AddPagesFlat(AddItems(acc, pages(p)), pages, p + 1, n);
      AddItemsConcat(acc, pages(p), PageItems(pages, p + 1, n));
    }
  }

  /** What `get_album` does before the download starts. */
  datatype AlbumRun =
    | BadInput                                     // the `_` split does not give two parts
    | Quit                                         // an answer was `sys.exit()`
    | StillRetrying                                // the calls given ran out while retrying
    | Crashed                                      // `None`/`False` or an empty list read, or `int()` raised
    | EmptyAlbum                                   // the first answer reports no photos
    | Collected(owner: string, album: string, api: string, offsets: seq<nat>, images: seq<Image>)

  /** The album names `get_album` does not look up in the album list. */
  predicate SystemAlbum(name: string) {
    name == "wall" || name == "profile" || name == "saved" || name == "tagged"
  }

  /** The title lookup on the `photos.getAlbums` answer (its number of
      albums) goes through: it is skipped for a group whose answer is
      `None` and for a system album, and otherwise reads the first album.
      Such a group album still fails later, at `album.get("error")`. */
  predicate TitleLookupOk(owner: string, name: string, albums: Answer<nat>) {
    (StartsWith(owner, "-") && albums.Null?) || SystemAlbum(name) || (albums.Got? && albums.v > 0)
  }

  /** How an answer that is not a value ends the run. */
  function Halt<T>(a: Answer<T>): (run: AlbumRun)
    requires !a.Got?
    ensures run == Quit <==> a.Exited?
    ensures run == StillRetrying <==> a.Pending?
    ensures run == Crashed <==> a.Null? || a.Refused?
  {
    match a
    case Exited => Quit
    case Pending => StillRetrying
    case _ => Crashed
  }

  /** The first of pages `p .. n-1` whose answer is not a value. */
  function FirstGap(pages: nat -> Answer<seq<seq<Size>>>, p: nat, n: nat): (g: Option<nat>)
    requires p <= n
    ensures g.None? <==> forall q :: p <= q < n ==> pages(q).Got?
    ensures g.Some? ==> p <= g.value < n && !pages(g.value).Got? &&
                        forall q :: p <= q < g.value ==> pages(q).Got?
    decreases n - p
  {
    if p == n then None
    else if !pages(p).Got? then Some(p)
    else FirstGap(pages, p + 1, n)
  }

  /** The items of each page answer, none where it is not a value. */
  function Bodies(pages: nat -> Answer<seq<seq<Size>>>): nat -> seq<seq<Size>> {
    (p: nat) => if pages(p).Got? then pages(p).v else []
  }

  /** `get_album(input)`: `albums` is the `photos.getAlbums` answer (as its
      number of albums), `first` the first `photos.get` answer (as its photo
      count) and `pages(p)` the answer for the page at offset `p * 1000`. */
  function GetAlbum(input: string, albums: Answer<nat>, first: Answer<nat>,
                    pages: nat -> Answer<seq<seq<Size>>>): (run: AlbumRun)
    ensures run.BadInput? <==> |Split(input, "_")| != 2
    ensures |Split(input, "_")| == 2 && (albums.Exited? || albums.Pending?) ==> run == Halt(albums)
    ensures run == Crashed <==>
              |Split(input, "_")| == 2 && !albums.Exited? && !albums.Pending? &&
              (!TitleLookupOk(Split(input, "_")[0], AlbumName(Split(input, "_")[1]), albums) ||
               first.Null? || first.Refused? ||
               (first.Got? && first.v > 0 &&
                (ParseInt(Split(input, "_")[0]).None? ||
                 (FirstGap(pages, 0, |Offsets(first.v)|).Some? &&
                  Halt(pages(FirstGap(pages, 0, |Offsets(first.v)|).value)) == Crashed) ||
                 (FirstGap(pages, 0, |Offsets(first.v)|).None? &&
                  !SystemAlbum(AlbumName(Split(input, "_")[1])) && !albums.Got?))))
    ensures run.EmptyAlbum? <==>
              |Split(input, "_")| == 2 && !albums.Exited? && !albums.Pending? &&
              TitleLookupOk(Split(input, "_")[0], AlbumName(Split(input, "_")[1]), albums) &&
              first == Got(0)
    ensures run.Collected? <==>
              |Split(input, "_")| == 2 && !albums.Exited? && !albums.Pending? &&
              TitleLookupOk(Split(input, "_")[0], AlbumName(Split(input, "_")[1]), albums) &&
              first.Got? && first.v > 0 && ParseInt(Split(input, "_")[0]).Some? &&
              (forall q :: 0 <= q < |Offsets(first.v)| ==> pages(q).Got?) &&
              (SystemAlbum(AlbumName(Split(input, "_")[1])) || albums.Got?)
    ensures run.Collected? ==>
              run.album == AlbumName(Split(input, "_")[1]) &&
              (run.api == "photos.getUserPhotos" <==> run.album == "tagged")
    ensures run.Collected? ==>
              run.owner == Split(input, "_")[0] &&
              run.offsets == Offsets(first.v) && Numbered(run.images) &&
              Extends([], Kept(PageItems(Bodies(pages), 0, |Offsets(first.v)|)), run.images)
  {
    var parts := Split(input, "_");
    if |parts| != 2 then BadInput
    else if albums.Exited? || albums.Pending? then Halt(albums)
    else if !TitleLookupOk(parts[0], AlbumName(parts[1]), albums) then Crashed
    else if !first.Got? then Halt(first)
    else if first.v == 0 then EmptyAlbum
    else if ParseInt(parts[0]).None? then Crashed
    else
      var n := |Offsets(first.v)|;
      match FirstGap(pages, 0, n)
      case Some(p) => Halt(pages(p))
      case None =>
        if !SystemAlbum(AlbumName(parts[1])) && !albums.Got? then Crashed
        else
          AddPagesFlat([], Bodies(pages), 0, n);
          AddItemsSpec([], PageItems(Bodies(pages), 0, n));
          Collected(parts[0], AlbumName(parts[1]), PhotosMethod(parts[1]), Offsets(first.v),
                    AddPages([], Bodies(pages), 0, n))
  }

  /** The run ends as the first answer that is not a value says: `sys.exit()`
      quits, a retry that has not ended keeps retrying. */
  lemma GetAlbumHalts(input: string, albums: Answer<nat>, first: Answer<nat>,
                      pages: nat -> Answer<seq<seq<Size>>>, owner: string, name: string)
    requires |Split(input, "_")| == 2 && owner == Split(input, "_")[0] && name == AlbumName(Split(input, "_")[1])
    requires !albums.Exited? && !albums.Pending? && TitleLookupOk(owner, name, albums)
    ensures first.Exited? || first.Pending? ==> GetAlbum(input, albums, first, pages) == Halt(first)
    ensures first.Got? && first.v > 0 && ParseInt(owner).Some? && FirstGap(pages, 0, |Offsets(first.v)|).Some? ==>
              GetAlbum(input, albums, first, pages) == Halt(pages(FirstGap(pages, 0, |Offsets(first.v)|).value))
  {
  }

  // ---------------------------------------------------------------------
  // Link cleaning (ph.py:200-216)

  /** The target a link names and, for an album link, the album code. */
  datatype Link = Link(target: string, albumId: string)

  /** The chain of `removeprefix`/`removesuffix` calls. */
  function Strip(s: string): string {
    RemoveSuffix(RemoveSuffix(
      RemovePrefix(RemovePrefix(RemovePrefix(RemovePrefix(s, "https://"), "vk.com/"), "public"), "albums"),
      "?rev=1"), "?rev=0")
  }

  /** An `album` prefix is cut and the rest must split on `_` into two
      parts (anything else raises, `None` here); the target is unsigned. */
  function Dispatch(c: string): (r: Option<Link>)
    ensures StartsWith(c, "album") ==>
              (r.Some? <==> |Split(c[5..], "_")| == 2) &&
              (r.Some? ==> r == Some(Link(Util.StrToPlus(Split(c[5..], "_")[0]), Split(c[5..], "_")[1])))
    ensures !StartsWith(c, "album") ==> r == Some(Link(Util.StrToPlus(c), ""))
  {
    if StartsWith(c, "album") then
      var parts := Split(RemovePrefix(c, "album"), "_");
      if |parts| == 2 then Some(Link(Util.StrToPlus(parts[0]), parts[1])) else None
    else Some(Link(Util.StrToPlus(c), ""))
  }

  function CleanLink(s: string): Option<Link> {
    Dispatch(Strip(s))
  }

  /** The prefix tests on `album<o>_<a>…`: only `album` matches. */
  lemma AlbumPrefixes(c: string, o: string)
    requires |c| >= 6 && c[..5] == "album"
    requires |o| == 0 || o[0] != 's'
    requires c[5] == (if |o| == 0 then '_' else o[0])
    ensures !StartsWith(c, "https://") && !StartsWith(c, "vk.com/") && !StartsWith(c, "public") &&
            !StartsWith(c, "albums") && StartsWith(c, "album")
  {
    assert c[0] == 'a';
  }

  lemma StripLeads(body: string)
    requires !StartsWith(body, "https://") && !StartsWith(body, "vk.com/")
    requires !StartsWith(body, "public") && !StartsWith(body, "albums")
    ensures RemovePrefix(RemovePrefix(RemovePrefix(RemovePrefix("https://" + ("vk.com/" + body), "https://"),
              "vk.com/"), "public"), "albums") == body
  {
    assert StartsWith("https://" + ("vk.com/" + body), "https://");
    assert StartsWith("vk.com/" + body, "vk.com/");
  }

  lemma StripRev(x: string)
    requires Lacks(x, '?')
    ensures RemoveSuffix(RemoveSuffix(x + "?rev=1", "?rev=1"), "?rev=0") == x
  {
    assert EndsWith(x + "?rev=1", "?rev=1");
    if |x| >= 6 {
      assert x[|x| - 6..][0] == x[|x| - 6];
    }
  }

  lemma AlbumShape(o: string, a: string)
    requires Lacks(o, '?') && Lacks(a, '?')
    ensures var body := "album" + o + "_" + a;
            |body| >= 6 && body[..5] == "album" && body[5] == (if |o| == 0 then '_' else o[0]) &&
            body[5..] == o + "_" + a && Lacks(body, '?')
  {
    var body := "album" + o + "_" + a;
    forall i | 0 <= i < |body| ensures body[i] != '?' {
      if i < 5 {
        assert body[i] == "album"[i];
      } else if i < 5 + |o| {
        assert body[i] == o[i - 5];
      } else if i > 5 + |o| {
        assert body[i] == a[i - 6 - |o|];
      }
    }
  }

  /** An album link, as the site prints it, yields its owner (unsigned)
      and album code. An owner starting with `s` would read as `albums…`. */
  lemma AlbumLink(o: string, a: string)
    requires |o| == 0 || o[0] != 's'
    requires Lacks(o, '_') && Lacks(a, '_') && Lacks(o, '?') && Lacks(a, '?')
    ensures CleanLink("https://" + ("vk.com/" + ("album" + o + "_" + a + "?rev=1"))) ==
            Some(Link(Util.StrToPlus(o), a))
  {
    var body := "album" + o + "_" + a;
    var tailed := body + "?rev=1";
    AlbumShape(o, a);
    assert tailed[..5] == "album" && tailed[5] == body[5];
    AlbumPrefixes(tailed, o);
    StripLeads(tailed);
    StripRev(body);
    assert Strip("https://" + ("vk.com/" + tailed)) == body;
    AlbumPrefixes(body, o);
    SplitPair(o, '_', a);
    assert o + "_" + a == o + ['_'] + a;
    assert RemovePrefix(body, "album") == o + "_" + a;
  }

  // ---------------------------------------------------------------------
  // Choosing the target (ph.py:219-245)

  /** The first entry of a `groups.getById` or `users.get` answer, or
      `None` for an empty or failed answer. */
  datatype Profile = Profile(id: nat, name: string, deactivated: bool,
                             closed: bool, member: bool, canAccessClosed: bool)

  /** The target: the signed id later calls use, and its profile. */
  datatype Target = Target(work: string, info: Profile)

  /** A group that is not `DELETED` wins; otherwise a user that is not
      deactivated; otherwise there is no target. */
  function Resolve(group: Option<Profile>, user: Option<Profile>): (t: Option<Target>)
    ensures t.Some? <==> (group.Some? && group.value.name != "DELETED") || (user.Some? && !user.value.deactivated)
    ensures group.Some? && group.value.name != "DELETED" ==>
              t == Some(Target("-" + NatToString(group.value.id), group.value))
    ensures !(group.Some? && group.value.name != "DELETED") && t.Some? ==>
              t == Some(Target(NatToString(user.value.id), user.value))
  {
    if group.Some? && group.value.name != "DELETED" then
      NoDashInDigits(NatToString(group.value.id));
      Some(Target(Util.StrToMinus(NatToString(group.value.id)), group.value))
    else if user.Some? && !user.value.deactivated then
      NoDashInDigits(NatToString(user.value.id));
      Some(Target(Util.StrToPlus(NatToString(user.value.id)), user.value))
    else None
  }

  /** A decimal id has no sign to strip. */
  lemma NoDashInDigits(s: string)
    requires |s| > 0 && AllDigits(s)
    ensures Util.StrToPlus(s) == s
    ensures Util.StrToMinus(s) == "-" + s
  {
    assert s[0] != '-';
  }

  /** A closed page is dumped only for a member or when access is granted. */
  predicate MayDump(p: Profile) {
    !p.closed || p.member || p.canAccessClosed
  }

  // ---------------------------------------------------------------------
  // The list of albums (ph.py:247-299)

  /** The code an album of `photos.getAlbums` is dumped under; the other
      negative ids are only logged. */
  function AlbumCode(id: int): (c: Option<string>)
    ensures c.Some? <==> id >= 0 || id in {-6, -7, -15, -9000}
    ensures id >= 0 ==> c == Some(NatToString(id))
  {
    if id == -6 then Some("0")
    else if id == -7 then Some("00")
    else if id == -15 then Some("000")
    else if id == -9000 then Some("-9000")
    else if id >= 0 then Some(NatToString(id))
    else None
  }

  /** The codes land on the system albums they stand for, and a positive
      id on itself. */
  lemma AlbumCodeNames(id: int)
    ensures id == -6 ==> AlbumName(AlbumCode(id).value) == "profile"
    ensures id == -7 ==> AlbumName(AlbumCode(id).value) == "wall"
    ensures id == -15 ==> AlbumName(AlbumCode(id).value) == "saved"
    ensures id == -9000 ==> AlbumName(AlbumCode(id).value) == "tagged"
    ensures id > 0 ==> AlbumName(AlbumCode(id).value) == NatToString(id)
  {
    if id > 0 {
      var c := NatToString(id);
      ParseNatToString(id);
      assert c != "0" && c != "00" && c != "000" by {
        ZeroStrings();
      }
      assert c != "-9000" by {
        assert !IsDigit("-9000"[0]);
      }
    }
  }

  lemma ZeroStrings()
    ensures AllDigits("0") && ParseDigits("0") == 0
    ensures AllDigits("00") && ParseDigits("00") == 0
    ensures AllDigits("000") && ParseDigits("000") == 0
  {
    assert "00"[..1] == "0";
    assert "000"[..2] == "00";
  }

  /** An album whose id is 0 is dumped under the profile code. */
  lemma ZeroIdIsProfile()
    ensures AlbumCode(0) == AlbumCode(-6)
  {
  }

  /** The codes of the listed albums that have one, in list order; each
      stands for some listed album and is free of `_`. */
  function ItemCodes(ids: seq<int>): (codes: seq<string>)
    ensures |codes| <= |ids|
    ensures forall k :: 0 <= k < |codes| ==> Lacks(codes[k], '_')
    ensures forall k :: 0 <= k < |codes| ==> exists j :: 0 <= j < |ids| && AlbumCode(ids[j]) == Some(codes[k])
  {
    if |ids| == 0 then []
    else
      var rest := ItemCodes(ids[1..]);
      var head := match AlbumCode(ids[0]) case Some(c) => [c] case None => [];
      assert AlbumCode(ids[0]).Some? ==> Lacks(AlbumCode(ids[0]).value, '_') by {
        if AlbumCode(ids[0]).Some? {
          CodeLacksUnderscore(ids[0]);
        }
      }
      assert forall k :: 0 <= k < |rest| ==> exists j :: 0 <= j < |ids| && AlbumCode(ids[j]) == Some(rest[k]) by {
        forall k | 0 <= k < |rest| ensures exists j :: 0 <= j < |ids| && AlbumCode(ids[j]) == Some(rest[k]) {
          var j' :| 0 <= j' < |ids[1..]| && AlbumCode(ids[1..][j']) == Some(rest[k]);
          assert ids[1..][j'] == ids[j' + 1];
        }
      }
      head + rest
  }

  /** The codes keep the albums' order: the list of a concatenation is the
      concatenation of the lists. */
  lemma {:induction false} ItemCodesConcat(a: seq<int>, b: seq<int>)
    ensures ItemCodes(a + b) == ItemCodes(a) + ItemCodes(b)
    decreases |a|
  {
    if |a| > 0 {
      var h := match AlbumCode(a[0]) case Some(c) => [c] case None => [];
      assert (a + b)[0] == a[0];
      assert (a + b)[1..] == a[1..] + b;
      assert ItemCodes(a + b) == h + ItemCodes(a[1..] + b);
      ItemCodesConcat(a[1..], b);
      assert ItemCodes(a) == h + ItemCodes(a[1..]);
    } else {
      assert a + b == b;
    }
  }

  /** One album gives its code, or nothing when it has none. */
  lemma ItemCodesOne(id: int)
    ensures ItemCodes([id]) == (match AlbumCode(id) case Some(c) => [c] case None => [])
  {
    assert [id][1..] == [];
  }

  /** One `get_album` input per listed album with a code. */
  function ItemInputs(work: string, ids: seq<int>): (inputs: seq<string>)
    ensures |inputs| == |ItemCodes(ids)|
  {
    var codes := ItemCodes(ids);
    seq(|codes|, k requires 0 <= k < |codes| => work + "_" + codes[k])
  }

  /** A group's wall goes first, then the listed albums. */
  function Listed(work: string, ids: seq<int>): seq<string> {
    (if Contains(work, "-") then [work + "_00"] else []) + ItemInputs(work, ids)
  }

  /** The albums asked for, as `rqst_method` answered: `None` from a
      no-target error, `False` from a no-access error. */
  function AlbumPlanAsWritten(work: string, albums: Answer<seq<int>>): (plan: Option<seq<string>>)
    ensures plan.Some? <==> albums.Got?
  {
    match albums
    case Got(ids) => Some(Listed(work, ids))
    case _ => None
  }

  /** The plan with the `None` branch reachable: a page whose albums are
      disabled still gets its profile and wall. */
  function AlbumPlan(work: string, albums: Answer<seq<int>>): (plan: Option<seq<string>>)
    ensures plan.Some? <==> albums.Got? || albums.Null?
    ensures albums.Null? ==> plan == Some([work + "_0", work + "_00"])
    ensures albums.Got? ==> plan == AlbumPlanAsWritten(work, albums)
  {
    match albums
    case Got(ids) => Some(Listed(work, ids))
    case Null => Some([work + "_0", work + "_00"])
    case _ => None
  }

  /** As written, a group whose photos are disabled is dropped: the error
      message makes `rqst_method` answer `None`, and `not albums` returns
      before the branch meant for it. */
  lemma DisabledPhotosDropped(work: string, msg: string)
    requires Contains(msg, "group photos are disabled") && !Contains(msg, "[5]")
    ensures Classify(msg) == NoTarget
    ensures AlbumPlanAsWritten(work, Null) == None
    ensures AlbumPlan(work, Null) == Some([work + "_0", work + "_00"])
  {
  }

  /** Each planned input splits on `_` back into the target and its
      code, so `get_album` accepts it. */
  lemma ItemInputsSplit(work: string, ids: seq<int>)
    requires Lacks(work, '_')
    ensures forall k :: 0 <= k < |ItemInputs(work, ids)| ==>
              Split(ItemInputs(work, ids)[k], "_") == [work, ItemCodes(ids)[k]]
  {
    forall k | 0 <= k < |ItemInputs(work, ids)|
      ensures Split(ItemInputs(work, ids)[k], "_") == [work, ItemCodes(ids)[k]]
    {
      InputSplit(work, ItemCodes(ids)[k]);
    }
  }

  lemma CodeLacksUnderscore(id: int)
    requires AlbumCode(id).Some?
    ensures Lacks(AlbumCode(id).value, '_')
  {
  }

  lemma InputSplit(work: string, c: string)
    requires Lacks(work, '_') && Lacks(c, '_')
    ensures Split(work + "_" + c, "_") == [work, c]
  {
    SplitPair(work, '_', c);
    assert work + "_" + c == work + ['_'] + c;
  }

  /** A group's wall comes first; a user's plan is the album list alone. */
  lemma WallFirstForGroups(work: string, ids: seq<int>)
    ensures Contains(work, "-") ==> Listed(work, ids)[0] == work + "_00"
    ensures !Contains(work, "-") ==> Listed(work, ids) == ItemInputs(work, ids)
  {
  }

  /** What `parse_link` sets off. */
  datatype Run =
    | BadLink           // the album part of the link does not split in two
    | NoProfile         // neither a group nor a user answers
    | ClosedPage        // closed, and neither a member nor granted access
    | NoAlbums          // the album list is refused or missing
    | Exits             // the album list request exits the program
    | Retrying          // the album list request never gets an answer
    | Dump(inputs: seq<string>)

  /** `parse_link` past the link cleaning: what the cleaned link, the
      two profile lookups and the album list lead to. */
  function ParseCleaned(l: Option<Link>, group: Option<Profile>, user: Option<Profile>,
                        albums: Answer<seq<int>>): (run: Run)
    ensures l.None? <==> run == BadLink
    ensures l.Some? ==> (Resolve(group, user).None? <==> run == NoProfile)
    ensures l.Some? && Resolve(group, user).Some? ==>
              (!MayDump(Resolve(group, user).value.info) <==> run == ClosedPage)
    ensures run.Dump? ==> Resolve(group, user).Some? && MayDump(Resolve(group, user).value.info)
    ensures l.Some? && l.value.albumId != "" && Resolve(group, user).Some? &&
            MayDump(Resolve(group, user).value.info) ==>
              run == Dump([Resolve(group, user).value.work + "_" + l.value.albumId])
    ensures l.Some? && l.value.albumId == "" && Resolve(group, user).Some? &&
            MayDump(Resolve(group, user).value.info) ==>
              (run.Dump? <==> albums.Got?) &&
              (run.Dump? ==> run.inputs == Listed(Resolve(group, user).value.work, albums.v)) &&
              (run.Exits? <==> albums.Exited?) &&
              (run.Retrying? <==> albums.Pending?) &&
              (run.NoAlbums? <==> albums.Null? || albums.Refused?)
  {
    match l
    case None => BadLink
    case Some(l) =>
      match Resolve(group, user)
      case None => NoProfile
      case Some(t) =>
        if !MayDump(t.info) then ClosedPage
        else if l.albumId != "" then Dump([t.work + "_" + l.albumId])
        else if albums.Exited? then Exits
        else if albums.Pending? then Retrying
        else match AlbumPlanAsWritten(t.work, albums)
          case None => NoAlbums
          case Some(inputs) => Dump(inputs)
  }

  /** `parse_link` up to the `get_album` calls it makes. */
  function ParseLink(link: string, group: Option<Profile>, user: Option<Profile>,
                     albums: Answer<seq<int>>): (run: Run)
    ensures CleanLink(link).None? ==> run == BadLink
    ensures run.Dump? ==> Resolve(group, user).Some? && MayDump(Resolve(group, user).value.info)
    ensures CleanLink(link).Some? && CleanLink(link).value.albumId != "" && Resolve(group, user).Some? &&
            MayDump(Resolve(group, user).value.info) ==>
              run == Dump([Resolve(group, user).value.work + "_" + CleanLink(link).value.albumId])
    ensures CleanLink(link).Some? && CleanLink(link).value.albumId == "" && Resolve(group, user).Some? &&
            MayDump(Resolve(group, user).value.info) ==>
              (run.Dump? <==> albums.Got?) &&
              (run.Dump? ==> run.inputs == Listed(Resolve(group, user).value.work, albums.v)) &&
              (run.Exits? <==> albums.Exited?) &&
              (run.Retrying? <==> albums.Pending?)
  {
    ParseCleaned(CleanLink(link), group, user, albums)
  }

  /** Where `parse_link` stops without dumping: no profile, a closed
      page, or an album list that is `None` or `False`. */
  lemma ParseLinkStops(link: string, group: Option<Profile>, user: Option<Profile>, albums: Answer<seq<int>>)
    ensures CleanLink(link).Some? && Resolve(group, user).None? ==> ParseLink(link, group, user, albums) == NoProfile
    ensures CleanLink(link).Some? && Resolve(group, user).Some? && !MayDump(Resolve(group, user).value.info) ==>
              ParseLink(link, group, user, albums) == ClosedPage
    ensures CleanLink(link).Some? && CleanLink(link).value.albumId == "" && Resolve(group, user).Some? &&
            MayDump(Resolve(group, user).value.info) ==>
              (ParseLink(link, group, user, albums) == NoAlbums <==> albums.Null? || albums.Refused?)
  {
  }

  /** As written, a page whose album list comes back `None` (photos
      disabled) is not dumped at all, though the corrected plan would give
      its profile and wall. */
  lemma DisabledPageNotDumped(link: string, group: Option<Profile>, user: Option<Profile>, t: Target)
    ensures CleanLink(link).Some? && CleanLink(link).value.albumId == "" &&
            Resolve(group, user) == Some(t) && MayDump(t.info) ==>
              ParseLink(link, group, user, Null) == NoAlbums
    ensures AlbumPlan(t.work, Null) == Some([t.work + "_0", t.work + "_00"])
  {
  }

  /** A whole-page dump of a group always starts with its wall. */
  lemma GroupDumpStartsWithWall(link: string, g: Profile, user: Option<Profile>, ids: seq<int>)
    requires CleanLink(link).Some? && CleanLink(link).value.albumId == ""
    requires g.name != "DELETED" && MayDump(g)
    ensures ParseLink(link, Some(g), user, Got(ids)) == Dump(Listed("-" + NatToString(g.id), ids))
    ensures var run := ParseLink(link, Some(g), user, Got(ids));
            run.Dump? && |run.inputs| > 0 && run.inputs[0] == "-" + NatToString(g.id) + "_00"
  {
    var w := "-" + NatToString(g.id);
    PageDumpIsPlan(link, Some(g), user, ids, Target(w, g));
    assert OccursAt(w, "-", 0);
    WallFirstForGroups(w, ids);
  }

  lemma PageDumpIsPlan(link: string, group: Option<Profile>, user: Option<Profile>, ids: seq<int>, t: Target)
    ensures CleanLink(link).Some? && CleanLink(link).value.albumId == "" &&
            Resolve(group, user) == Some(t) && MayDump(t.info) ==>
              ParseLink(link, group, user, Got(ids)) == Dump(Listed(t.work, ids))
  {
  }
}

=== FILE: phdmp.dfy ===
/** The photo dumper's own copies of the helpers (sign handling that
    indexes the first character, a narrower filename sanitiser), its photo
    filename, the split of an album over worker threads, the skip test on
    the directory listing, its size scan and its link cleaning. */
module Phdmp {
  import opened PyStr
  import Utils
  import Util
  import opened PhotoSizes

  // ---------------------------------------------------------------------
  // Signs of ids (phdmp.py:14-20)

  /** `str_toplus`: drops one leading dash. The first character is read
      unconditionally, so an empty string raises. */
  function StrToPlus(s: string): (r: string)
    requires |s| > 0
    ensures s[0] == '-' ==> s == "-" + r
    ensures s[0] != '-' ==> r == s
  {
    if s[0] == '-' then s[1..] else s
  }

  /** `str_tominus`: puts a dash in front unless one is there. */
  function StrToMinus(s: string): (r: string)
    requires |s| > 0
    ensures |r| > 0 && r[0] == '-'
    ensures s[0] == '-' ==> r == s
    ensures s[0] != '-' ==> r == "-" + s
  {
    if s[0] != '-' then "-" + s else s
  }

  /** On the inputs both accept, these copies are the ones of utils.py. */
  lemma SignsAgreeWithUtils(s: string)
    requires |s| > 0
    ensures StrToPlus(s) == Utils.StrToPlus(s)
    ensures StrToMinus(s) == Utils.StrToMinus(s)
  {
    assert StartsWith(s, "-") <==> s[0] == '-' by {
      assert s[..1] == [s[0]];
    }
  }

  lemma SignRoundTrip(s: string)
    requires |s| > 0
    ensures StrToMinus(StrToMinus(s)) == StrToMinus(s)
    ensures s[0] != '-' ==> StrToPlus(StrToMinus(s)) == s
  {
  }

  // ---------------------------------------------------------------------
  // Filename sanitising (phdmp.py:22-23)

  /** The characters this `str_fix` deletes: `/ \ ' ? % * : | " < >`. */
  const FixForbidden: set<char> := {'/', '\\', '\'', '?', '%', '*', ':', '|', '\"', '<', '>'}

  predicate Clean(s: string) {
    forall i :: 0 <= i < |s| ==> s[i] !in FixForbidden
  }

  /** `str_fix`: every forbidden character deleted, nothing cut. */
  function StrFix(s: string): (r: string)
    ensures Clean(r) && |r| <= |s|
    ensures Clean(s) ==> r == s
  {
    Without(s, FixForbidden)
  }

  /** Only the forbidden characters go: what is left is the input with
      them taken out, in order. */
  lemma StrFixKeepsTheRest(a: string, b: string)
    ensures StrFix(a + b) == StrFix(a) + StrFix(b)
  {
    WithoutConcat(a, b, FixForbidden);
  }

  lemma StrFixIdempotent(s: string)
    ensures StrFix(StrFix(s)) == StrFix(s)
  {
  }

  /** The two sanitisers agree on names that neither would touch. */
  lemma StrFixAgreesOnCleanNames(s: string)
    requires Clean(s) && Utils.Clean(s)
    ensures StrFix(s) == Utils.StrFix(s, 0) == s
  {
  }

  /** The sets differ: an apostrophe goes here and stays in utils.py. */
  lemma ApostropheDiffers()
    ensures StrFix("'") == ""
    ensures Utils.StrFix("'", 0) == "'"
  {
    assert '\'' in FixForbidden;
    assert Utils.Clean("'");
  }

  /** A brace stays here and goes in utils.py. */
  lemma BraceDiffers()
    ensures StrFix("{") == "{"
    ensures Utils.StrFix("{", 0) == ""
  {
    assert Clean("{");
    assert '{' in Utils.FixForbidden;
  }

  // ---------------------------------------------------------------------
  // Photo filenames (phdmp.py:31-35)

  /** The URL up to its first `?`. */
  function UrlPath(url: string): (p: string)
    ensures Lacks(p, '?')
    ensures StartsWith(url, p)
    ensures p == url || url[|p|] == '?'
  {
    var q := Find(url, "?");
    if q != -1 then
      assert forall j :: 0 <= j < q ==> url[j] != '?' by {
        forall j | 0 <= j < q ensures url[j] != '?' {
          assert !OccursAt(url, "?", j);
          assert url[j..j + 1] == [url[j]];
        }
      }
      url[..q]
    else
      LacksOfAbsent(url, '?');
      url
  }

  /** `os.path.basename`: what follows the last `/`. */
  function Basename(p: string): (b: string)
    ensures Lacks(b, '/')
    ensures EndsWith(p, b)
    ensures b == p || p[|p| - |b| - 1] == '/'
  {
    p[RFindChar(p, '/') + 1..]
  }

  /** `'0' * (len(str(all)) - len(str(n))) + str(n)`: a negative repeat
      count gives no zeros. */
  function PadIndex(n: nat, all: nat): string {
    var pad := |NatToString(all)| - |NatToString(n)|;
    seq(if pad > 0 then pad else 0, _ => '0') + NatToString(n)
  }

  /** The padding is the zero-padding of util.py. */
  lemma PadIndexIsZeroPad(n: nat, all: nat)
    ensures PadIndex(n, all) == ZeroPad(n, |NatToString(all)|)
  {
  }

  /** `rqst_filename(n, url)` with `progress_all` passed in: a digit block
      of the width of `all` (or wider) that reads back as `n`, an
      underscore, then a name free of `/` and `?` that ends the URL's path. */
  function RqstFilename(n: nat, url: string, all: nat): (r: string)
    ensures var w := |PadIndex(n, all)|;
            w >= |NatToString(all)| && w < |r| && AllDigits(r[..w]) && ParseDigits(r[..w]) == n &&
            r[w] == '_' && Lacks(r[w + 1..], '/') && Lacks(r[w + 1..], '?') &&
            EndsWith(UrlPath(url), r[w + 1..])
  {
    PadIndexIsZeroPad(n, all);
    var name := Basename(UrlPath(url));
    LacksOfSuffix(UrlPath(url), name, '?');
    UnderscoreJoin(PadIndex(n, all), name, PadIndex(n, all) + "_" + name);
    PadIndex(n, all) + "_" + name
  }

  /** A suffix of a text without `c` is without `c`. */
  lemma LacksOfSuffix(s: string, t: string, c: char)
    requires Lacks(s, c) && EndsWith(s, t)
    ensures Lacks(t, c)
  {
    forall i | 0 <= i < |t| ensures t[i] != c {
      assert t[i] == s[|s| - |t| + i];
    }
  }

  /** The pieces of `p + "_" + name`. */
  lemma UnderscoreJoin(p: string, name: string, r: string)
    requires r == p + "_" + name
    ensures |p| < |r| && r[..|p|] == p && r[|p|] == '_' && r[|p| + 1..] == name
  {
  }

  /** This filename is the one util.py builds for the same index and album
      size from the name that ends the URL's path. */
  lemma RqstFilenameAgreesWithUtil(n: nat, url: string, all: nat)
    ensures RqstFilename(n, url, all) == Util.PhotoFilename(n, all, Basename(UrlPath(url)))
  {
    PadIndexIsZeroPad(n, all);
  }

  // ---------------------------------------------------------------------
  // Splitting an album over threads (phdmp.py:85, 139-140, 312-313)

  /** The thread started with `offset` (one per offset below `threads`)
      takes index `i`. */
  predicate Handles(offset: nat, i: nat, threads: nat)
    requires offset < threads
  {
    (i + offset) % threads == 1 || threads < 2
  }

  /** The one offset that takes index `i` when there are several threads. */
  function Owner(i: nat, threads: nat): (o: nat)
    requires threads >= 2
    ensures o < threads
  {
    (threads + 1 - i % threads) % threads
  }

  lemma {:induction false} MulAtLeast(t: int, k: int)
    requires t > 0 && k >= 1
    ensures t * k >= t
    decreases k
  {
    if k > 1 {
      MulAtLeast(t, k - 1);
      assert t * k == t * (k - 1) + t;
    }
  }

  /** The remainder is determined by any quotient-remainder split. */
  lemma ModUnique(a: int, t: int, q: int, m: int)
    requires t > 0 && 0 <= m < t && a == t * q + m
    ensures a % t == m
  {
    var q0 := a / t;
    var m0 := a % t;
    assert a == t * q0 + m0;
    assert t * (q - q0) == m0 - m;
    if q > q0 {
      MulAtLeast(t, q - q0);
    } else if q < q0 {
      MulAtLeast(t, q0 - q);
    }
  }

  lemma ModStep(i: nat, o: nat, t: nat)
    requires t > 0
    ensures (i + o) % t == (i % t + o) % t
  {
    var q := i / t;
    var r := i % t;
    assert i == t * q + r;
    var x := r + o;
    var q2 := x / t;
    var m2 := x % t;
    assert x == t * q2 + m2;
    assert i + o == t * (q + q2) + m2;
    ModUnique(i + o, t, q + q2, m2);
  }

  /** With two threads or more, every index is taken by exactly one
      thread; with one thread, that thread takes every index. */
  lemma OneThreadPerIndex(i: nat, threads: nat, offset: nat)
    requires offset < threads
    ensures threads >= 2 ==> (Handles(offset, i, threads) <==> offset == Owner(i, threads))
    ensures threads < 2 ==> Handles(offset, i, threads)
  {
    if threads >= 2 {
      var r := i % threads;
      ModStep(i, offset, threads);
      if r + offset < threads {
        ModUnique(r + offset, threads, 0, r + offset);
      } else {
        ModUnique(r + offset, threads, 1, r + offset - threads);
      }
      if r <= 1 {
        ModUnique(threads + 1 - r, threads, 1, 1 - r);
      } else {
        ModUnique(threads + 1 - r, threads, 0, threads + 1 - r);
      }
    }
  }

  // ---------------------------------------------------------------------
  // The skip test (phdmp.py:74-80, 96, 121)

  /** Python's `s[a:b]`. */
  function Slice(s: string, a: int, b: int): string {
    var i := SliceIndex(|s|, a);
    var j := SliceIndex(|s|, b);
    if i <= j then s[i..j] else ""
  }

  /** `filename[w + 1:-4]`: the filename without its index prefix and a
      four-character extension. */
  function Stem(filename: string, w: nat): string {
    Slice(filename, w + 1, -4)
  }

  /** Not a description file: the last three characters are not `txt`. */
  predicate NotText(f: string) {
    Drop(f, -3) != "txt"
  }

  /** `is_exist` as written: the loop over the listing tests the stem
      against the whole listing and never looks at the file it is on. */
  predicate IsExistAsWritten(filename: string, dir: seq<string>, w: nat) {
    filename in dir || exists k :: 0 <= k < |dir| && NotText(dir[k]) && Stem(filename, w) in dir
  }

  /** `is_exist` with the loop's file in the test: some file of the
      listing that is not a description carries the stem. */
  predicate IsExist(filename: string, dir: seq<string>, w: nat) {
    filename in dir || exists k :: 0 <= k < |dir| && NotText(dir[k]) && Contains(dir[k], Stem(filename, w))
  }

  /** As written, the file the loop is on plays no part: past the exact
      name, the answer is "the stem is itself a listed name and some
      listed file is not a description". */
  lemma AsWrittenIgnoresTheFile(filename: string, dir: seq<string>, w: nat)
    ensures IsExistAsWritten(filename, dir, w) <==>
            (filename in dir || (Stem(filename, w) in dir && exists k :: 0 <= k < |dir| && NotText(dir[k])))
  {
  }

  /** A photo saved under another index width (`01_abc.jpg`) is not
      recognised for `001_abc.jpg` as written, and is with the file in the
      test. */
  lemma RenumberedPhoto()
    ensures !IsExistAsWritten("001_abc.jpg", ["01_abc.jpg"], 3)
    ensures IsExist("001_abc.jpg", ["01_abc.jpg"], 3)
  {
    var f := "01_abc.jpg";
    var dir := [f];
    assert dir[0] == f;
    assert Stem("001_abc.jpg", 3) == "abc";
    assert Drop(f, -3) == "jpg";
    assert NotText(f);
    assert OccursAt(f, "abc", 3);
    assert NotText(dir[0]) && Contains(dir[0], Stem("001_abc.jpg", 3));
  }

  /** Any listed name that is not a description counts for itself. */
  lemma ListedNameExists(filename: string, dir: seq<string>, w: nat)
    requires filename in dir
    ensures IsExist(filename, dir, w) && IsExistAsWritten(filename, dir, w)
  {
  }

  /** A file already there whose stem shows up in a non-description file
      is found. */
  lemma StemInListedFile(filename: string, dir: seq<string>, w: nat, k: nat)
    requires k < |dir| && NotText(dir[k]) && Contains(dir[k], Stem(filename, w))
    ensures IsExist(filename, dir, w)
  {
  }

  /** What one index of the thread does with its photo. */
  datatype Action = Fetch | Touch | Leave

  /** Fetch when not found or when rewriting; otherwise only reset the
      timestamps, and only when the item has a date. */
  function Decide(found: bool, rewrite: bool, hasDate: bool): (a: Action)
    ensures a == Fetch <==> !found || rewrite
    ensures a == Touch <==> found && !rewrite && hasDate
    ensures a == Leave <==> found && !rewrite && !hasDate
  {
    if !found || rewrite then Fetch
    else if found && hasDate then Touch
    else Leave
  }

  /** One item of the album as the thread sees it. */
  datatype Item = Item(picture: string, hasDate: bool, hasText: bool)

  /** What the thread with `offset` does, index by index: `Some` for the
      indices it takes, `None` for the others. The skip test is `is_exist`
      as written. */
  function ThreadPlan(offset: nat, threads: nat, items: seq<Item>, dir: seq<string>, all: nat, rewrite: bool)
    : (plan: seq<Option<Action>>)
    requires offset < threads
    ensures |plan| == |items|
    ensures forall i :: 0 <= i < |items| ==> (plan[i].Some? <==> Handles(offset, i, threads))
    ensures forall i :: 0 <= i < |items| && plan[i].Some? ==>
              (plan[i].value == Fetch <==>
                 rewrite || !IsExistAsWritten(RqstFilename(i, items[i].picture, all), dir, |NatToString(all)|))
    ensures forall i :: 0 <= i < |items| && plan[i].Some? ==>
              (plan[i].value == Touch <==>
                 !rewrite && IsExistAsWritten(RqstFilename(i, items[i].picture, all), dir, |NatToString(all)|) &&
                 items[i].hasDate)
  {
    seq(|items|, i requires 0 <= i < |items| =>
      if Handles(offset, i, threads) then
        var found := IsExistAsWritten(RqstFilename(i, items[i].picture, all), dir, |NatToString(all)|);
        Some(Decide(found, rewrite, items[i].hasDate))
      else None)
  }

  /** Over all the threads, every index of the album is acted on exactly
      once when there are several threads, and by the only thread when
      there is one. */
  lemma EveryIndexOnce(threads: nat, items: seq<Item>, dir: seq<string>, all: nat, rewrite: bool, i: nat)
    requires threads >= 1 && i < |items|
    ensures threads >= 2 ==>
              forall o :: 0 <= o < threads ==>
                (ThreadPlan(o, threads, items, dir, all, rewrite)[i].Some? <==> o == Owner(i, threads))
    ensures threads == 1 ==> ThreadPlan(0, 1, items, dir, all, rewrite)[i].Some?
  {
    forall o | 0 <= o < threads
      ensures threads >= 2 ==> (Handles(o, i, threads) <==> o == Owner(i, threads))
    {
      OneThreadPerIndex(i, threads, o);
    }
    if threads == 1 {
      OneThreadPerIndex(i, 1, 0);
    }
  }

  /** The description file kept beside a photo with text. */
  function DescriptionName(filename: string): string {
    filename + "_description.txt"
  }

  /** A touch hands `os.utime` the photo's name and, for a photo with
      text, its description's name; either one missing from the disk
      raises `FileNotFoundError`. The listing taken when the thread starts
      stands for the disk: the other threads only write the files of
      their own indices. */
  predicate TouchFails(filename: string, hasText: bool, dir: seq<string>) {
    filename !in dir || (hasText && DescriptionName(filename) !in dir)
  }

  /** Index `i` of a plan is a touch that raises. */
  predicate Raises(plan: seq<Option<Action>>, items: seq<Item>, dir: seq<string>, all: nat, i: nat)
    requires |plan| == |items| && i < |items|
  {
    plan[i] == Some(Touch) && TouchFails(RqstFilename(i, items[i].picture, all), items[i].hasText, dir)
  }

  /** Which indices of a plan are touches that raise. */
  function Raising(plan: seq<Option<Action>>, items: seq<Item>, dir: seq<string>, all: nat): (bs: seq<bool>)
    requires |plan| == |items|
    ensures |bs| == |items|
    ensures forall i :: 0 <= i < |items| ==> (bs[i] <==> Raises(plan, items, dir, all, i))
  {
    seq(|items|, i requires 0 <= i < |items| => Raises(plan, items, dir, all, i))
  }

  /** The first true entry from `from` on. */
  function FirstTrue(bs: seq<bool>, from: nat): (k: Option<nat>)
    requires from <= |bs|
    ensures k.Some? ==> from <= k.value < |bs| && bs[k.value]
    ensures forall j :: from <= j < |bs| && (k.None? || j < k.value) ==> !bs[j]
    decreases |bs| - from
  {
    if from == |bs| then None
    else if bs[from] then Some(from)
    else FirstTrue(bs, from + 1)
  }

  /** How a thread ends: the plan entries it got through, and the index
      at which an uncaught `FileNotFoundError` ended it, if any. */
  datatype ThreadEnd = ThreadEnd(done: seq<Option<Action>>, died: Option<nat>)

  /** The thread as it runs: its plan, cut at the first touch that
      raises. That index and all later ones are never completed. */
  function RunThread(offset: nat, threads: nat, items: seq<Item>, dir: seq<string>, all: nat, rewrite: bool)
    : (r: ThreadEnd)
    requires offset < threads
    ensures var plan := ThreadPlan(offset, threads, items, dir, all, rewrite);
            r.died.None? ==> r.done == plan
    ensures var plan := ThreadPlan(offset, threads, items, dir, all, rewrite);
            r.died.Some? ==>
              r.died.value < |items| && r.done == plan[..r.died.value] && plan[r.died.value] == Some(Touch) &&
              TouchFails(RqstFilename(r.died.value, items[r.died.value].picture, all),
                         items[r.died.value].hasText, dir)
    ensures var plan := ThreadPlan(offset, threads, items, dir, all, rewrite);
            r.died.None? <==> forall j :: 0 <= j < |items| ==> !Raises(plan, items, dir, all, j)
    ensures var plan := ThreadPlan(offset, threads, items, dir, all, rewrite);
            forall j :: 0 <= j < |r.done| ==> !Raises(plan, items, dir, all, j)
  {
    var plan := ThreadPlan(offset, threads, items, dir, all, rewrite);
    match FirstTrue(Raising(plan, items, dir, all), 0)
    case None => ThreadEnd(plan, None)
    case Some(k) => ThreadEnd(plan[..k], Some(k))
  }

  /** As written, a name whose stem is itself listed counts as found even
      when the photo is not on disk. With a date and no rewrite, the
      thread taking it touches a missing file and dies there, so neither
      that index nor any later one of the thread is completed. */
  lemma AsWrittenTouchDies(offset: nat, threads: nat, items: seq<Item>, dir: seq<string>, all: nat, i: nat, k: nat)
    requires offset < threads && i < |items| && Handles(offset, i, threads) && items[i].hasDate
    requires var f := RqstFilename(i, items[i].picture, all);
             f !in dir && Stem(f, |NatToString(all)|) in dir && k < |dir| && NotText(dir[k])
    ensures var r := RunThread(offset, threads, items, dir, all, false);
            r.died.Some? && r.died.value <= i && |r.done| <= i
  {
    var plan := ThreadPlan(offset, threads, items, dir, all, false);
    assert Raises(plan, items, dir, all, i);
  }

  /** When no thread dies, every index of the album is completed by
      exactly its owner (by the only thread when there is one). */
  lemma EveryIndexDoneOnce(threads: nat, items: seq<Item>, dir: seq<string>, all: nat, rewrite: bool, i: nat)
    requires threads >= 1 && i < |items|
    requires forall o :: 0 <= o < threads ==> RunThread(o, threads, items, dir, all, rewrite).died.None?
    ensures threads >= 2 ==>
              forall o :: 0 <= o < threads ==>
                (|RunThread(o, threads, items, dir, all, rewrite).done| == |items| &&
                 (RunThread(o, threads, items, dir, all, rewrite).done[i].Some? <==> o == Owner(i, threads)))
    ensures threads == 1 ==> RunThread(0, 1, items, dir, all, rewrite).done[i].Some?
  {
    EveryIndexOnce(threads, items, dir, all, rewrite, i);
  }

  // ---------------------------------------------------------------------
  // The nested size scan (phdmp.py:163-185)

  /** The URL the scan settles on, or `''` when no size has a ranked
      type. */
  function RqstSize(sizes: seq<Size>): (url: string)
    ensures (forall j :: 0 <= j < |sizes| ==> Rank(sizes[j].kind) == 0) ==> url == ""
    ensures forall k: nat :: FirstBest(sizes, k) && Rank(sizes[k].kind) > 0 ==> url == sizes[k].url
  {
    ScanIsFirstBest(sizes);
    match Scan(sizes)
    case None => ""
    case Some(k) =>
      assert forall b :: FirstBest(sizes, b) ==> b == k by {
        forall b | FirstBest(sizes, b) ensures b == k {
          FirstBestUnique(sizes, b, k);
        }
      }
      sizes[k].url
  }

  // ---------------------------------------------------------------------
  // Link cleaning (phdmp.py:327-339)

  /** The target and album id a link names; the album id is empty for a
      whole-owner link. */
  datatype Link = Link(target: string, albumId: string)

  /** A six-character `?rev=1` or `?rev=0` tail is cut off. */
  function DropRev(s: string): (r: string)
    ensures (Drop(s, -6) == "?rev=1" || Drop(s, -6) == "?rev=0") ==> |s| >= 6 && r == s[..|s| - 6]
    ensures !(Drop(s, -6) == "?rev=1" || Drop(s, -6) == "?rev=0") ==> r == s
  {
    if Drop(s, -6) == "?rev=1" || Drop(s, -6) == "?rev=0" then Take(s, -6) else s
  }

  /** `s[:k] == p` tests, followed by `s = s[k:]`. */
  function DropLead(s: string, p: string): (r: string)
    ensures StartsWith(s, p) ==> s == p + r
    ensures !StartsWith(s, p) ==> r == s
  {
    if Take(s, |p|) == p then Drop(s, |p|) else s
  }

  /** `re.findall('public|albums', s[:6])` finds something. */
  predicate OwnerPrefix(s: string) {
    Contains(Take(s, 6), "public") || Contains(Take(s, 6), "albums")
  }

  /** The rest of the cleaning: an owner prefix is cut; an `album` prefix
      is cut and the rest split on `_` into two parts, anything else
      raising; the target is then unsigned, which raises when it is
      empty. */
  function CleanRest(c: string): (r: Option<Link>)
    ensures OwnerPrefix(c) ==> (r.Some? <==> |c| > 6) && (r.Some? ==> r.value.albumId == "")
    ensures !OwnerPrefix(c) && StartsWith(c, "album") ==>
              (r.Some? <==> CountChar(c[5..], '_') == 1 && |Split(c[5..], "_")[0]| > 0)
    ensures !OwnerPrefix(c) && !StartsWith(c, "album") ==>
              (r.Some? <==> |c| > 0) && (r.Some? ==> r.value == Link(StrToPlus(c), ""))
  {
    if OwnerPrefix(c) then
      var t := Drop(c, 6);
      if |t| > 0 then Some(Link(StrToPlus(t), "")) else None
    else if Take(c, 5) == "album" then
      var parts := Split(Drop(c, 5), "_");
      SplitCount(Drop(c, 5), '_');
      if |parts| == 2 && |parts[0]| > 0 then Some(Link(StrToPlus(parts[0]), parts[1])) else None
    else if |c| > 0 then Some(Link(StrToPlus(c), ""))
    else None
  }

  /** The cleaning of `parse_link`, up to the target and album id it looks
      up; `None` where Python raises. */
  function CleanLink(s: string): Option<Link> {
    CleanRest(DropLead(DropLead(DropRev(s), "https://"), "vk.com/"))
  }

  /** A text with no `?` has no revision tail to cut. */
  lemma DropRevNoQuery(s: string)
    requires Lacks(s, '?')
    ensures DropRev(s) == s
  {
    if |s| >= 6 {
      assert Drop(s, -6)[0] == s[|s| - 6];
    }
  }

  lemma RevTail(x: string, d: char)
    requires d == '0' || d == '1'
    ensures DropRev(x + "?rev=" + [d]) == x
  {
    var s := x + "?rev=" + [d];
    assert Drop(s, -6) == "?rev=" + [d];
  }

  lemma SchemeAndHost(body: string)
    ensures DropLead(DropLead("https://" + ("vk.com/" + body), "https://"), "vk.com/") == body
  {
    assert StartsWith("https://" + ("vk.com/" + body), "https://");
    assert StartsWith("vk.com/" + body, "vk.com/");
  }

  lemma AlbumBody(o: string, a: string)
    requires |o| > 0 && o[0] != 's'
    ensures !OwnerPrefix("album" + o + "_" + a)
    ensures StartsWith("album" + o + "_" + a, "album")
    ensures ("album" + o + "_" + a)[5..] == o + "_" + a
  {
    var c := "album" + o + "_" + a;
    var h := Take(c, 6);
    assert |h| == 6 && h[0] == 'a' && h[5] == o[0];
    assert !Contains(h, "public") by {
      assert h[..6][0] != "public"[0];
    }
    assert !Contains(h, "albums") by {
      assert h[..6][5] != "albums"[5];
    }
  }

  /** An album link, as the site prints it, yields its owner (unsigned)
      and album. An owner starting with `s` would read as `albums…`. */
  lemma AlbumLink(o: string, a: string, d: char)
    requires |o| > 0 && o[0] != 's' && Lacks(o, '_') && Lacks(a, '_')
    requires d == '0' || d == '1'
    ensures CleanLink("https://" + ("vk.com/" + ("album" + o + "_" + a)) + "?rev=" + [d]) ==
            Some(Link(StrToPlus(o), a))
  {
    var body := "album" + o + "_" + a;
    RevTail("https://" + ("vk.com/" + body), d);
    SchemeAndHost(body);
    AlbumBody(o, a);
    SplitPair(o, '_', a);
    assert o + "_" + a == o + ['_'] + a;
  }

  lemma PublicBody(id: string)
    ensures OwnerPrefix("public" + id)
    ensures Drop("public" + id, 6) == id
  {
    assert OccursAt(Take("public" + id, 6), "public", 0);
  }

  /** A community link yields the community's id, with no album. */
  lemma PublicLink(id: string)
    requires |id| > 0 && Lacks(id, '?')
    ensures CleanLink("https://" + ("vk.com/" + ("public" + id))) == Some(Link(StrToPlus(id), ""))
  {
    var s := "https://" + ("vk.com/" + ("public" + id));
    assert Lacks(s, '?') by {
      assert forall i :: 0 <= i < |s| - |id| ==> s[i] != '?';
      assert forall i :: |s| - |id| <= i < |s| ==> s[i] == id[i - (|s| - |id|)];
    }
    DropRevNoQuery(s);
    SchemeAndHost("public" + id);
    PublicBody(id);
  }
}

=== FILE: playlist.dfy ===
/** The playlist side of the segmented-audio fetcher (mu.py, `rqst_multiple`
    and its nested `m3u8_block`): cutting the playlist text into key blocks
    at every `#EXT-X-KEY` tag (section 4.3.2.4 of RFC 8216), pulling the
    segment URIs out of the `#EXTINF` lines (section 4.3.2.1 of RFC 8216),
    reading the key URI of a block, and resolving a segment URI against the
    playlist URL. The two regular expressions of mu.py are modelled as
    matchers tried at the start of a suffix of the text, which is how
    Python's `re.findall` scans. */
module Playlist {
  import opened PyStr

  const KeyTag := "#EXT-X-KEY"
  const SegmentTag := "#EXTINF"
  const AesMethod := "METHOD=AES-128"
  /** The literal head of the key pattern `:METHOD=AES-128,URI="(\S*)"`. */
  const KeyPattern := ":METHOD=AES-128,URI=\""
  /** The literal head of the segment pattern `#EXTINF:\d+\.\d{3},\s(\S*)`. */
  const SegmentPattern := "#EXTINF:"

  predicate NoHash(s: string) {
    forall i :: 0 <= i < |s| ==> s[i] != '#'
  }

  /** The pieces that contain `tag`, in their original order. */
  function KeepWith(pieces: seq<string>, tag: string): (r: seq<string>)
    ensures |r| <= |pieces|
    ensures forall x :: x in r <==> x in pieces && Contains(x, tag)
  {
    if |pieces| == 0 then []
    else (if Contains(pieces[0], tag) then [pieces[0]] else []) + KeepWith(pieces[1..], tag)
  }

  /** Filtering keeps order and multiplicity: it distributes over
      concatenation. */
  lemma {:induction false} KeepWithConcat(a: seq<string>, b: seq<string>, tag: string)
    ensures KeepWith(a + b, tag) == KeepWith(a, tag) + KeepWith(b, tag)
    decreases |a|
  {
    if |a| > 0 {
      var h := if Contains(a[0], tag) then [a[0]] else [];
      assert (a + b)[0] == a[0];
      assert (a + b)[1..] == a[1..] + b;
      assert KeepWith(a + b, tag) == h + KeepWith(a[1..] + b, tag);
      KeepWithConcat(a[1..], b, tag);
      assert KeepWith(a, tag) == h + KeepWith(a[1..], tag);
    } else {
      assert a + b == b;
    }
  }

  /** One piece is kept exactly when it holds the tag. */
  lemma KeepWithOne(x: string, tag: string)
    ensures KeepWith([x], tag) == (if Contains(x, tag) then [x] else [])
  {
    assert [x][1..] == [];
  }

  /** The key blocks of a playlist: the text split on `#EXT-X-KEY`, keeping
      only the pieces that hold a segment line. */
  function Blocks(text: string): (r: seq<string>)
    ensures forall b :: b in r ==> Contains(b, SegmentTag) && !Contains(b, KeyTag)
    ensures forall b :: b in Split(text, KeyTag) && Contains(b, SegmentTag) ==> b in r
    ensures r == KeepWith(Split(text, KeyTag), SegmentTag)
  {
    KeepWith(Split(text, KeyTag), SegmentTag)
  }

  /** The segment pattern `#EXTINF:\d+\.\d{3},\s(\S*)` tried at the start of
      `t`: on a match, the length matched and the captured URI. The `\d+` run
      cannot give digits back to the `.` that follows, and `(\S*)` is
      greedy with nothing after it, so the match is unique. */
  function MatchSegment(t: string): (m: Option<(nat, string)>)
    ensures m.Some? ==> StartsWith(t, SegmentPattern) && 0 < m.value.0 <= |t|
    ensures m.Some? ==> NoSpace(m.value.1)
    ensures m.Some? ==> |m.value.1| <= m.value.0 && m.value.1 == t[m.value.0 - |m.value.1|..m.value.0]
  {
    if !StartsWith(t, SegmentPattern) then None
    else
      var u := t[|SegmentPattern|..];
      var d := DigitsLen(u);
      if d == 0 || |u| < d + 6 then None
      else if u[d] != '.' || !AllDigits(u[d + 1..d + 4]) || u[d + 4] != ',' || !IsSpace(u[d + 5]) then None
      else
        var c := |SegmentPattern| + d + 6;
        var n := NonSpaceLen(t[c..]);
        assert t[c..][..n] == t[c..c + n];
        Some((c + n, t[c..c + n]))
  }

  /** `re.findall` of the segment pattern over `t` (mu.py:96): the captured
      URIs of the non-overlapping matches, left to right. */
  function SegmentUris(t: string): (r: seq<string>)
    ensures forall k :: 0 <= k < |r| ==> NoSpace(r[k])
    decreases |t|
  {
    if |t| == 0 then []
    else
      match MatchSegment(t)
      case Some((e, u)) => [u] + SegmentUris(t[e..])
      case None => SegmentUris(t[1..])
  }

  /** The key pattern `:METHOD=AES-128,URI="(\S*)"` tried at the start of
      `t`. The greedy `\S*` backs off to the LAST `"` inside the
      non-whitespace run that follows `URI="`, so the capture is that run up
      to its last quote. */
  function MatchKey(t: string): (m: Option<string>)
    ensures m.Some? ==> StartsWith(t, KeyPattern) && NoSpace(m.value)
    ensures m.Some? ==> StartsWith(t[|KeyPattern|..], m.value + "\"")
  {
    if !StartsWith(t, KeyPattern) then None
    else
      var rest := t[|KeyPattern|..];
      var run := rest[..NonSpaceLen(rest)];
      var q := RFindChar(run, '"');
      if q < 0 then None
      else
        assert run[..q] + "\"" == rest[..q + 1];
        Some(run[..q])
  }

  /** `re.findall(key pattern, t)[0]` (mu.py:102, 161): the capture of the
      leftmost match, or `None` where Python's `[0]` would raise. */
  function FirstKeyUri(t: string): (r: Option<string>)
    ensures r.Some? ==> NoSpace(r.value)
    decreases |t|
  {
    if |t| == 0 then None
    else if MatchKey(t).Some? then MatchKey(t)
    else FirstKeyUri(t[1..])
  }

  /** `url[:url.rfind("/")]` (mu.py:99). With no `/` at all, `rfind` gives -1
      and the slice drops the last character. */
  function BaseUrl(url: string): (r: string)
    ensures RFindChar(url, '/') >= 0 ==> r == url[..RFindChar(url, '/')]
    ensures RFindChar(url, '/') < 0 && |url| > 0 ==> r == url[..|url| - 1]
  {
    Take(url, RFindChar(url, '/'))
  }

  /** The absolute URL of a segment (mu.py:99): everything of the playlist
      URL before its last `/`, then `/`, then the relative URI. */
  function SegmentUrl(playlistUrl: string, uri: string): (r: string)
    ensures RFindChar(playlistUrl, '/') >= 0 ==>
              r == playlistUrl[..RFindChar(playlistUrl, '/') + 1] + uri
  {
    var b := BaseUrl(playlistUrl);
    assert RFindChar(playlistUrl, '/') >= 0 ==>
             b + "/" == playlistUrl[..RFindChar(playlistUrl, '/') + 1];
    b + "/" + uri
  }

  /** A playlist URL of the form `dir + "/" + name` resolves `uri` to
      `dir + "/" + uri`. */
  lemma SegmentUrlSibling(dir: string, name: string, uri: string)
    requires forall i :: 0 <= i < |name| ==> name[i] != '/'
    ensures SegmentUrl(dir + "/" + name, uri) == dir + "/" + uri
  {
    var u := dir + "/" + name;
    assert u[|dir|] == '/';
    assert RFindChar(u, '/') == |dir|;
    assert u[..|dir| + 1] == dir + "/";
  }

  /** The segment URLs of a block, in order of appearance. */
  function SegmentUrls(playlistUrl: string, block: string): (r: seq<string>)
    ensures |r| == |SegmentUris(block)|
    ensures forall k :: 0 <= k < |r| ==> r[k] == SegmentUrl(playlistUrl, SegmentUris(block)[k])
  {
    var uris := SegmentUris(block);
    seq(|uris|, k requires 0 <= k < |uris| => SegmentUrl(playlistUrl, uris[k]))
  }

  // ---------------------------------------------------------------------
  // A playlist renderer, the partner of the parser: rendering and then
  // parsing gives back the blocks, their key URIs and their segment URIs.

  /** One `#EXTINF:<seconds>.<millis>,` line followed by its URI line. */
  datatype Entry = Entry(seconds: string, millis: string, uri: string)

  /** One `#EXT-X-KEY` line, its segments and any further tag lines. */
  datatype KeyBlock = KeyBlock(keyUri: string, entries: seq<Entry>, extra: string)

  predicate ValidEntry(e: Entry) {
    EntryFields(e) && NoHash(e.uri)
  }

  /** The fields the segment pattern reads: digit seconds, three digit
      milliseconds, a URI without whitespace. */
  predicate EntryFields(e: Entry) {
    |e.seconds| > 0 && AllDigits(e.seconds) && |e.millis| == 3 && AllDigits(e.millis) && NoSpace(e.uri)
  }

  predicate ValidKeyBlock(b: KeyBlock) {
    |b.entries| > 0 && (forall k :: 0 <= k < |b.entries| ==> ValidEntry(b.entries[k])) &&
    NoSpace(b.keyUri) && NoHash(b.keyUri) &&
    !Contains(b.extra, KeyTag) && !Contains(b.extra, SegmentPattern)
  }

  function RenderEntry(e: Entry): string {
    SegmentPattern + e.seconds + "." + e.millis + ",\n" + e.uri + "\n"
  }

  function RenderEntries(es: seq<Entry>): string {
    if |es| == 0 then "" else RenderEntry(es[0]) + RenderEntries(es[1..])
  }

  function Uris(es: seq<Entry>): (r: seq<string>)
    ensures |r| == |es|
    ensures forall k :: 0 <= k < |es| ==> r[k] == es[k].uri
  {
    if |es| == 0 then [] else [es[0].uri] + Uris(es[1..])
  }

  /** What follows the `#EXT-X-KEY` tag of a block, up to the next tag. */
  function KeyBlockText(b: KeyBlock): string {
    KeyPattern + b.keyUri + "\"\n" + RenderEntries(b.entries) + b.extra
  }

  function RenderBlocks(bs: seq<KeyBlock>): string {
    if |bs| == 0 then "" else KeyTag + KeyBlockText(bs[0]) + RenderBlocks(bs[1..])
  }

  function RenderPlaylist(header: string, bs: seq<KeyBlock>): string {
    header + RenderBlocks(bs)
  }

  function BlockTexts(bs: seq<KeyBlock>): (r: seq<string>)
    ensures |r| == |bs|
    ensures forall k :: 0 <= k < |bs| ==> r[k] == KeyBlockText(bs[k])
  {
    if |bs| == 0 then [] else [KeyBlockText(bs[0])] + BlockTexts(bs[1..])
  }

  // --- the segment scanner over rendered text

  /** Text without `#` holds no segment line: scanning skips over it. */
  lemma {:induction false} SegmentUrisSkipsHashless(x: string, rest: string)
    requires NoHash(x)
    ensures SegmentUris(x + rest) == SegmentUris(rest)
    decreases |x|
  {
    if |x| > 0 {
      var t := x + rest;
      assert t[0] == x[0] != '#';
      assert MatchSegment(t).None?;
      assert t[1..] == x[1..] + rest;
      SegmentUrisSkipsHashless(x[1..], rest);
    } else {
      assert x + rest == rest;
    }
  }

  /** A rendered entry and what follows it, from the `.` after the seconds. */
  function EntryRest(e: Entry, rest: string): string {
    ("." + e.millis + ",\n") + (e.uri + ("\n" + rest))
  }

  lemma EntryTextShape(e: Entry, rest: string)
    requires |e.millis| == 3
    ensures RenderEntry(e) + rest == SegmentPattern + (e.seconds + EntryRest(e, rest))
    ensures |RenderEntry(e)| - 1 == |SegmentPattern| + |e.seconds| + 6 + |e.uri|
  {
  }

  /** What follows the seconds of a rendered entry: `.`, three digits, `,`,
      a space character, then the URI up to the next space character. */
  predicate EntryTail(w: string, uri: string) {
    |w| >= 6 && w[0] == '.' && AllDigits(w[1..4]) && w[4] == ',' && IsSpace(w[5]) &&
    NonSpaceLen(w[6..]) == |uri| && w[6..][..|uri|] == uri
  }

  /** A segment line split at the end of its seconds: the tag, the digit
      run `sec`, and the rest `w` holding the URI. */
  predicate SegmentParts(t: string, sec: string, w: string, uri: string) {
    t == SegmentPattern + (sec + w) && |sec| > 0 && AllDigits(sec) && EntryTail(w, uri)
  }

  lemma EntryTailOf(e: Entry, rest: string)
    requires |e.millis| == 3 && AllDigits(e.millis) && NoSpace(e.uri)
    ensures EntryTail(EntryRest(e, rest), e.uri)
  {
    var tail := e.uri + ("\n" + rest);
    MillisFacts(e.millis, tail);
    NonSpaceLenConcat(e.uri, "\n" + rest);
    assert tail[..|e.uri|] == e.uri;
  }

  /** The segment pattern over a digit run followed by the rest of an entry. */
  lemma MatchSegmentOfParts(t: string, sec: string, w: string, uri: string)
    requires SegmentParts(t, sec, w, uri)
    ensures MatchSegment(t) == Some((|SegmentPattern| + |sec| + 6 + |uri|, uri))
  {
    var u := DigitsThenTail(sec, w, uri);
    MatchSegmentAt(t, u, |sec|, |uri|);
  }

  /** The text after the tag of a segment line: `d` digits, `.`, three
      digits, `,`, a space character and a run of `n` non-space characters. */
  predicate SegmentBody(u: string, d: nat, n: nat) {
    DigitsLen(u) == d && d > 0 && |u| >= d + 6 &&
    u[d] == '.' && AllDigits(u[d + 1..d + 4]) && u[d + 4] == ',' && IsSpace(u[d + 5]) &&
    NonSpaceLen(u[d + 6..]) == n
  }

  lemma DigitsThenTail(sec: string, w: string, uri: string) returns (u: string)
    requires |sec| > 0 && AllDigits(sec) && EntryTail(w, uri)
    ensures u == sec + w && SegmentBody(u, |sec|, |uri|) && u[|sec| + 6..][..|uri|] == uri
  {
    u := sec + w;
    DigitsLenConcat(sec, w);
    AfterDigits(sec, w);
  }

  /** The `.<millis>,\n` part that follows the seconds of an entry. */
  lemma MillisFacts(ms: string, tail: string)
    requires |ms| == 3 && AllDigits(ms)
    ensures var w := ("." + ms + ",\n") + tail;
            |w| >= 6 && w[0] == '.' && AllDigits(w[1..4]) && w[4] == ',' && IsSpace(w[5]) &&
            w[6..] == tail && (|w| == 0 || !IsDigit(w[0]))
  {
    var w := ("." + ms + ",\n") + tail;
    assert w[1..4] == ms;
  }

  lemma AfterDigits(x: string, w: string)
    requires |w| >= 6
    ensures (x + w)[|x|] == w[0] && (x + w)[|x| + 1..|x| + 4] == w[1..4]
    ensures (x + w)[|x| + 4] == w[4] && (x + w)[|x| + 5] == w[5]
    ensures (x + w)[|x| + 6..] == w[6..]
  {
  }

  /** The segment pattern matches once its pieces are in place. */
  lemma MatchSegmentAt(t: string, u: string, d: nat, n: nat)
    requires t == SegmentPattern + u && SegmentBody(u, d, n)
    ensures MatchSegment(t) == Some((|SegmentPattern| + d + 6 + n, u[d + 6..][..n]))
  {
    PatternThenRest(u);
    MatchSegmentAfterTag(t, d, n);
  }

  lemma PatternThenRest(u: string)
    ensures StartsWith(SegmentPattern + u, SegmentPattern)
    ensures (SegmentPattern + u)[|SegmentPattern|..] == u
  {
    assert (SegmentPattern + u)[..|SegmentPattern|] == SegmentPattern;
  }

  lemma MatchSegmentAfterTag(t: string, d: nat, n: nat)
    requires StartsWith(t, SegmentPattern) && SegmentBody(t[|SegmentPattern|..], d, n)
    ensures MatchSegment(t) == Some((|SegmentPattern| + d + 6 + n, t[|SegmentPattern|..][d + 6..][..n]))
  {
    var k := |SegmentPattern|;
    var c := k + d + 6;
    assert t[c..] == t[k..][d + 6..];
    assert t[c..c + n] == t[k..][d + 6..][..n];
  }

  /** A rendered entry matches the segment pattern right up to the newline
      that ends its URI line. */
  lemma MatchRenderedEntry(e: Entry, rest: string)
    requires ValidEntry(e)
    ensures MatchSegment(RenderEntry(e) + rest) == Some((|RenderEntry(e)| - 1, e.uri))
  {
    var n := EntryMatch(e, rest, RenderEntry(e) + rest);
  }

  /** The rendered entry split after its seconds; the rest of the line is
      kept in a local so that its text stays out of the match proof. */
  lemma EntryMatch(e: Entry, rest: string, t: string) returns (n: int)
    requires EntryFields(e) && t == RenderEntry(e) + rest
    ensures n == |RenderEntry(e)| - 1 && MatchSegment(t) == Some((n, e.uri))
  {
    var w := EntryRest(e, rest);
    EntryTextShape(e, rest);
    EntryTailOf(e, rest);
    n := |RenderEntry(e)| - 1;
    MatchSegmentOfLength(t, e.seconds, w, e.uri, n);
  }

  lemma MatchSegmentOfLength(t: string, sec: string, w: string, uri: string, n: int)
    requires SegmentParts(t, sec, w, uri) && n == |SegmentPattern| + |sec| + 6 + |uri|
    ensures n >= 0 && MatchSegment(t) == Some((n, uri))
  {
    MatchSegmentOfParts(t, sec, w, uri);
  }

  lemma SegmentUrisEntryStep(e: Entry, tail: string)
    requires ValidEntry(e)
    ensures SegmentUris(RenderEntry(e) + tail) == [e.uri] + SegmentUris(tail)
  {
    var t := RenderEntry(e) + tail;
    MatchRenderedEntry(e, tail);
    EntryEndsWithNewline(e, tail);
    SegmentUrisAfterMatch(t, |RenderEntry(e)| - 1, e.uri);
    SegmentUrisSkipsHashless("\n", tail);
  }

  lemma {:induction false} SegmentUrisOfEntries(es: seq<Entry>, rest: string)
    requires forall k :: 0 <= k < |es| ==> ValidEntry(es[k])
    ensures SegmentUris(RenderEntries(es) + rest) == Uris(es) + SegmentUris(rest)
    decreases |es|
  {
    if |es| == 0 {
      assert RenderEntries(es) + rest == rest;
    } else {
      var tail := RenderEntries(es[1..]) + rest;
      assert RenderEntries(es) + rest == RenderEntry(es[0]) + tail;
      SegmentUrisEntryStep(es[0], tail);
      SegmentUrisOfEntries(es[1..], rest);
      UrisCons(es);
      ConsAssoc(es[0].uri, Uris(es[1..]), SegmentUris(rest));
    }
  }

  lemma UrisCons(es: seq<Entry>)
    requires |es| > 0
    ensures Uris(es) == [es[0].uri] + Uris(es[1..])
  {
  }

  lemma ConsAssoc<T>(x: T, a: seq<T>, b: seq<T>)
    ensures [x] + (a + b) == ([x] + a) + b
  {
  }

  lemma EntryEndsWithNewline(e: Entry, tail: string)
    ensures |RenderEntry(e)| > 0
    ensures (RenderEntry(e) + tail)[|RenderEntry(e)| - 1..] == "\n" + tail
  {
    var line := SegmentPattern + e.seconds + "." + e.millis + ",\n" + e.uri;
    assert RenderEntry(e) == line + "\n";
    assert RenderEntry(e) + tail == line + ("\n" + tail);
  }

  lemma SegmentUrisAfterMatch(t: string, n: nat, u: string)
    requires MatchSegment(t) == Some((n, u))
    ensures n <= |t| && SegmentUris(t) == [u] + SegmentUris(t[n..])
  {
  }

  /** Text holding no `#EXTINF:` yields no segment URI. */
  lemma {:induction false} SegmentUrisWithoutTag(t: string)
    requires !Contains(t, SegmentPattern)
    ensures SegmentUris(t) == []
    decreases |t|
  {
    if |t| > 0 {
      assert !OccursAt(t, SegmentPattern, 0);
      assert MatchSegment(t).None?;
      forall i | 0 <= i <= |t[1..]| - |SegmentPattern|
        ensures !OccursAt(t[1..], SegmentPattern, i)
      {
        assert t[1..][i..i + |SegmentPattern|] == t[i + 1..i + 1 + |SegmentPattern|];
        assert !OccursAt(t, SegmentPattern, i + 1);
      }
      SegmentUrisWithoutTag(t[1..]);
    }
  }

  /** The segment URIs of a rendered block are the URIs of its entries. */
  lemma SegmentUrisOfBlock(b: KeyBlock)
    requires ValidKeyBlock(b)
    ensures SegmentUris(KeyBlockText(b)) == Uris(b.entries)
  {
    var head := KeyPattern + b.keyUri + "\"\n";
    assert NoHash(head);
    assert KeyBlockText(b) == head + (RenderEntries(b.entries) + b.extra);
    SegmentUrisSkipsHashless(head, RenderEntries(b.entries) + b.extra);
    SegmentUrisOfEntries(b.entries, b.extra);
    SegmentUrisWithoutTag(b.extra);
  }

  /** The key URI read back from a rendered block is the one written. */
  lemma FirstKeyUriOfBlock(b: KeyBlock)
    requires ValidKeyBlock(b)
    ensures FirstKeyUri(KeyBlockText(b)) == Some(b.keyUri)
    ensures Contains(KeyBlockText(b), AesMethod)
  {
    var tail := KeyBlockShape(b);
    MatchKeyOfParts(KeyBlockText(b), b.keyUri, tail);
    FirstKeyUriAtStart(KeyBlockText(b));
    KeyPatternHasAes(KeyBlockText(b));
  }

  /** A block's text split around its key URI; the text after the closing
      quote is returned rather than named. */
  lemma KeyBlockShape(b: KeyBlock) returns (tail: string)
    ensures KeyBlockText(b) == KeyPattern + (b.keyUri + ("\"" + tail))
    ensures |tail| > 0 && IsSpace(tail[0])
  {
    tail := "\n" + RenderEntries(b.entries) + b.extra;
  }

  /** The key pattern over a quoted URI followed by whitespace captures the URI. */
  lemma MatchKeyOfParts(t: string, uri: string, tail: string)
    requires t == KeyPattern + (uri + ("\"" + tail))
    requires NoSpace(uri) && |tail| > 0 && IsSpace(tail[0])
    ensures MatchKey(t) == Some(uri)
  {
    var k := |KeyPattern|;
    assert t[..k] == KeyPattern;
    assert StartsWith(t, KeyPattern);
    var rest := t[k..];
    assert rest == (uri + "\"") + tail;
    NonSpaceLenConcat(uri + "\"", tail);
    var run := rest[..NonSpaceLen(rest)];
    assert run == uri + "\"";
    assert RFindChar(run, '"') == |uri|;
    assert run[..|uri|] == uri;
  }

  lemma FirstKeyUriAtStart(t: string)
    requires MatchKey(t).Some?
    ensures FirstKeyUri(t) == MatchKey(t)
  {
    assert |t| >= |KeyPattern|;
  }

  /** Text opening with the key pattern contains `METHOD=AES-128`. */
  lemma KeyPatternHasAes(t: string)
    requires StartsWith(t, KeyPattern)
    ensures Contains(t, AesMethod)
  {
    AesInKeyPattern();
    OccursInPrefix(t, KeyPattern, AesMethod, 1);
  }

  lemma AesInKeyPattern()
    ensures OccursAt(KeyPattern, AesMethod, 1)
  {
  }

  // --- splitting rendered text on the key tag

  /** Joining two texts without the tag, the first ending in a character the
      tag does not use, creates no occurrence across the seam. */
  lemma NoTagAcrossNewline(x: string, y: string, tag: string)
    requires |x| > 0 && x[|x| - 1] == '\n'
    requires forall m :: 0 <= m < |tag| ==> tag[m] != '\n'
    requires !Contains(x, tag) && !Contains(y, tag)
    ensures !Contains(x + y, tag)
  {
    var s := x + y;
    forall i | 0 <= i <= |s| - |tag|
      ensures !OccursAt(s, tag, i)
    {
      if i + |tag| <= |x| {
        assert s[i..i + |tag|] == x[i..i + |tag|];
        assert !OccursAt(x, tag, i);
      } else if i >= |x| {
        assert s[i..i + |tag|] == y[i - |x|..i - |x| + |tag|];
        assert !OccursAt(y, tag, i - |x|);
      } else {
        assert s[i..i + |tag|][|x| - 1 - i] == '\n';
      }
    }
  }

  lemma NoTagInHashless(x: string, tag: string)
    requires NoHash(x) && |tag| > 0 && tag[0] == '#'
    ensures !Contains(x, tag)
  {
    forall i | 0 <= i <= |x| - |tag|
      ensures !OccursAt(x, tag, i)
    {
      assert x[i..i + |tag|][0] == x[i];
    }
  }

  lemma KeyTagNotInEntry(e: Entry)
    requires ValidEntry(e)
    ensures !Contains(RenderEntry(e), KeyTag)
  {
    var s := RenderEntry(e);
    var body := e.seconds + "." + e.millis + ",\n" + e.uri + "\n";
    assert s == SegmentPattern + body;
    assert NoHash(body);
    forall i | 0 <= i <= |s| - |KeyTag|
      ensures !OccursAt(s, KeyTag, i)
    {
      if i == 0 {
        assert s[..|KeyTag|][4] == 'I';
      } else if i < |SegmentPattern| {
        assert s[i..i + |KeyTag|][0] == s[i] == SegmentPattern[i];
      } else {
        assert s[i..i + |KeyTag|][0] == s[i] == body[i - |SegmentPattern|];
      }
    }
  }

  lemma {:induction false} KeyTagNotInEntries(es: seq<Entry>)
    requires forall k :: 0 <= k < |es| ==> ValidEntry(es[k])
    ensures !Contains(RenderEntries(es), KeyTag)
    ensures |es| > 0 ==> RenderEntries(es)[|RenderEntries(es)| - 1] == '\n'
    decreases |es|
  {
    if |es| > 0 {
      KeyTagNotInEntry(es[0]);
      KeyTagNotInEntries(es[1..]);
      if |es| > 1 {
        NoTagAcrossNewline(RenderEntry(es[0]), RenderEntries(es[1..]), KeyTag);
      } else {
        assert RenderEntries(es) == RenderEntry(es[0]);
      }
    } else {
      NoTagInHashless("", KeyTag);
    }
  }

  lemma KeyTagNotInBlock(b: KeyBlock)
    requires ValidKeyBlock(b)
    ensures !Contains(KeyBlockText(b), KeyTag)
    ensures Contains(KeyBlockText(b), SegmentTag)
  {
    var head := KeyPattern + b.keyUri + "\"\n";
    assert NoHash(head);
    NoTagInHashless(head, KeyTag);
    KeyTagNotInEntries(b.entries);
    NoTagAcrossNewline(head, RenderEntries(b.entries), KeyTag);
    var body := head + RenderEntries(b.entries);
    assert body[|body| - 1] == '\n';
    NoTagAcrossNewline(body, b.extra, KeyTag);
    assert KeyBlockText(b) == body + b.extra;
    var t := KeyBlockText(b);
    var r := RenderEntries(b.entries);
    assert r == RenderEntry(b.entries[0]) + RenderEntries(b.entries[1..]);
    assert r[..|SegmentTag|] == SegmentTag;
    assert t[|head|..|head| + |SegmentTag|] == r[..|SegmentTag|];
    assert OccursAt(t, SegmentTag, |head|);
  }

  lemma {:induction false} SplitRenderedBlocks(a: string, bs: seq<KeyBlock>)
    requires !Contains(a, KeyTag)
    requires forall k :: 0 <= k < |bs| ==> ValidKeyBlock(bs[k])
    ensures Split(a + RenderBlocks(bs), KeyTag) == [a] + BlockTexts(bs)
    decreases |bs|
  {
    if |bs| == 0 {
      assert a + RenderBlocks(bs) == a;
    } else {
      KeyTagNotInBlock(bs[0]);
      RenderBlocksStep(a, bs);
      assert forall k :: 0 <= k < |bs[1..]| ==> ValidKeyBlock(bs[1..][k]);
      SplitRenderedBlocks(KeyBlockText(bs[0]), bs[1..]);
      assert BlockTexts(bs) == [KeyBlockText(bs[0])] + BlockTexts(bs[1..]);
    }
  }

  /** Splitting at the key tag that opens the first rendered block. */
  lemma RenderBlocksStep(a: string, bs: seq<KeyBlock>)
    requires |bs| > 0
    requires !Contains(a, KeyTag)
    ensures Split(a + RenderBlocks(bs), KeyTag) ==
            [a] + Split(KeyBlockText(bs[0]) + RenderBlocks(bs[1..]), KeyTag)
  {
    var b := KeyBlockText(bs[0]) + RenderBlocks(bs[1..]);
    assert a + RenderBlocks(bs) == a + KeyTag + b;
    SplitAtKeyTag(a, b);
  }

  lemma SplitAtKeyTag(a: string, b: string)
    requires !Contains(a, KeyTag)
    ensures Split(a + KeyTag + b, KeyTag) == [a] + Split(b, KeyTag)
  {
    KeyTagHeadOnce();
    SplitAfterPiece(a, KeyTag, b);
  }

  /** The first character of the key tag does not recur in it. */
  lemma KeyTagHeadOnce()
    ensures forall m :: 1 <= m < |KeyTag| ==> KeyTag[m] != KeyTag[0]
  {
  }

  lemma {:induction false} KeepAllBlocks(bs: seq<KeyBlock>)
    requires forall k :: 0 <= k < |bs| ==> ValidKeyBlock(bs[k])
    ensures KeepWith(BlockTexts(bs), SegmentTag) == BlockTexts(bs)
    decreases |bs|
  {
    if |bs| > 0 {
      KeyTagNotInBlock(bs[0]);
      KeepAllBlocks(bs[1..]);
      assert BlockTexts(bs)[1..] == BlockTexts(bs[1..]);
    }
  }

  /** Parsing a rendered playlist gives back exactly its key blocks, in
      order, each with its own key URI and its segment URIs in order. The
      header before the first key tag is dropped because it holds no
      segment line. */
  lemma ParseRenderedPlaylist(header: string, bs: seq<KeyBlock>)
    requires !Contains(header, KeyTag) && !Contains(header, SegmentTag)
    requires forall k :: 0 <= k < |bs| ==> ValidKeyBlock(bs[k])
    ensures Blocks(RenderPlaylist(header, bs)) == BlockTexts(bs)
    ensures forall k :: 0 <= k < |bs| ==>
              SegmentUris(BlockTexts(bs)[k]) == Uris(bs[k].entries) &&
              FirstKeyUri(BlockTexts(bs)[k]) == Some(bs[k].keyUri) &&
              Contains(BlockTexts(bs)[k], AesMethod)
  {
    BlocksOfRenderedPlaylist(header, bs, RenderPlaylist(header, bs));
    forall k | 0 <= k < |bs|
      ensures SegmentUris(BlockTexts(bs)[k]) == Uris(bs[k].entries)
      ensures FirstKeyUri(BlockTexts(bs)[k]) == Some(bs[k].keyUri)
      ensures Contains(BlockTexts(bs)[k], AesMethod)
    {
      BlockTextFacts(bs[k]);
    }
  }

  /** The blocks of a rendered playlist are the rendered key blocks. */
  lemma BlocksOfRenderedPlaylist(header: string, bs: seq<KeyBlock>, text: string)
    requires !Contains(header, KeyTag) && !Contains(header, SegmentTag)
    requires forall k :: 0 <= k < |bs| ==> ValidKeyBlock(bs[k])
    requires text == RenderPlaylist(header, bs)
    ensures Blocks(text) == BlockTexts(bs)
  {
    RenderedSplit(header, bs);
    KeptBlocks(header, bs);
    BlocksOfPieces(text, header, BlockTexts(bs));
  }

  lemma BlocksOfPieces(text: string, header: string, xs: seq<string>)
    requires Split(text, KeyTag) == [header] + xs
    requires KeepWith([header] + xs, SegmentTag) == xs
    ensures Blocks(text) == xs
  {
    BlocksUnfold(text);
  }

  lemma RenderedSplit(header: string, bs: seq<KeyBlock>)
    requires !Contains(header, KeyTag)
    requires forall k :: 0 <= k < |bs| ==> ValidKeyBlock(bs[k])
    ensures Split(RenderPlaylist(header, bs), KeyTag) == [header] + BlockTexts(bs)
  {
    SplitRenderedBlocks(header, bs);
  }

  lemma KeptBlocks(header: string, bs: seq<KeyBlock>)
    requires !Contains(header, SegmentTag)
    requires forall k :: 0 <= k < |bs| ==> ValidKeyBlock(bs[k])
    ensures KeepWith([header] + BlockTexts(bs), SegmentTag) == BlockTexts(bs)
  {
    KeepWithSkipsHead(header, BlockTexts(bs), SegmentTag);
    KeepAllBlocks(bs);
  }

  lemma BlocksUnfold(text: string)
    ensures Blocks(text) == KeepWith(Split(text, KeyTag), SegmentTag)
  {
  }

  lemma KeepWithSkipsHead(h: string, xs: seq<string>, tag: string)
    requires !Contains(h, tag)
    ensures KeepWith([h] + xs, tag) == KeepWith(xs, tag)
  {
    assert ([h] + xs)[1..] == xs;
  }

  /** One rendered key block reads back as its segment URIs and key URI. */
  lemma BlockTextFacts(b: KeyBlock)
    requires ValidKeyBlock(b)
    ensures SegmentUris(KeyBlockText(b)) == Uris(b.entries)
    ensures FirstKeyUri(KeyBlockText(b)) == Some(b.keyUri)
    ensures Contains(KeyBlockText(b), AesMethod)
  {
    SegmentUrisOfBlock(b);
    FirstKeyUriOfBlock(b);
  }
}

=== FILE: pystr.dfy ===
/** Python string and integer primitives the scripts lean on: substring
    tests, `find`/`rfind`, `split`/`join`, slicing with Python's index
    normalisation, `lstrip`/`rstrip`, `removeprefix`/`removesuffix`, and the
    decimal `str(int)` / `int(str)` conversions. A Python `str` is a sequence
    of code points, which is what `string` is here. */
module PyStr {

  /** One element of a Python `bytes` value. */
  newtype byte = b: int | 0 <= b < 256

  type Bytes = seq<byte>

  datatype Option<T> = None | Some(value: T)

  /** `sub` occurs in `s` starting at index `i`. */
  predicate OccursAt(s: string, sub: string, i: int) {
    0 <= i && i + |sub| <= |s| && s[i..i + |sub|] == sub
  }

  /** Python's `sub in s`. */
  predicate Contains(s: string, sub: string) {
    exists i | 0 <= i <= |s| - |sub| :: OccursAt(s, sub, i)
  }

  predicate StartsWith(s: string, p: string) {
    |p| <= |s| && s[..|p|] == p
  }

  predicate EndsWith(s: string, p: string) {
    |p| <= |s| && s[|s| - |p|..] == p
  }

  /** Re-associating the head of a sequence. */
  lemma ConsConcat<T>(x: seq<T>, e: seq<T>)
    requires |x| > 0
    ensures [x[0]] + (x[1..] + e) == x + e
  {
  }

  /** An occurrence inside a prefix is an occurrence in the whole text. */
  lemma OccursInPrefix(t: string, p: string, sub: string, i: int)
    requires StartsWith(t, p) && OccursAt(p, sub, i)
    ensures OccursAt(t, sub, i) && Contains(t, sub)
  {
    assert t[i..i + |sub|] == t[..|p|][i..i + |sub|];
    assert OccursAt(t, sub, i);
  }

  /** Re-associating a four-piece concatenation. */
  lemma ConcatAssoc4<T>(a: seq<T>, b: seq<T>, c: seq<T>, d: seq<T>)
    ensures a + b + c + d == a + (b + c + d)
  {
  }

  /** Python's `s.find(sub, i)`: the first occurrence at or after `i`, or -1. */
  function FindFrom(s: string, sub: string, i: nat): (r: int)
    requires i <= |s|
    ensures r == -1 || (i <= r && OccursAt(s, sub, r))
    ensures r == -1 ==> forall j :: i <= j ==> !OccursAt(s, sub, j)
    ensures r != -1 ==> forall j :: i <= j < r ==> !OccursAt(s, sub, j)
    decreases |s| - i
  {
    if OccursAt(s, sub, i) then i
    else if i == |s| then -1
    else FindFrom(s, sub, i + 1)
  }

  /** Python's `s.find(sub)`. */
  function Find(s: string, sub: string): (r: int)
    ensures r == -1 <==> !Contains(s, sub)
    ensures r != -1 ==> OccursAt(s, sub, r) && forall j :: 0 <= j < r ==> !OccursAt(s, sub, j)
  {
    FindFrom(s, sub, 0)
  }

  /** Python's `s.rfind(c)` for a single character. */
  function RFindChar(s: string, c: char): (r: int)
    ensures -1 <= r < |s|
    ensures r >= 0 ==> s[r] == c && forall j :: r < j < |s| ==> s[j] != c
    ensures r == -1 ==> forall j :: 0 <= j < |s| ==> s[j] != c
  {
    if |s| == 0 then -1
    else if s[|s| - 1] == c then |s| - 1
    else RFindChar(s[..|s| - 1], c)
  }

  /** Python's `"".join` with a separator: `sep.join(parts)`. */
  function Join(parts: seq<string>, sep: string): string {
    if |parts| == 0 then ""
    else if |parts| == 1 then parts[0]
    else parts[0] + sep + Join(parts[1..], sep)
  }

  /** Python's `s.split(sep)` for a non-empty separator: the pieces between
      non-overlapping leftmost occurrences. Joining them back gives `s`, and
      no piece contains the separator. */
  function Split(s: string, sep: string): (r: seq<string>)
    requires |sep| > 0
    ensures |r| >= 1
    ensures Join(r, sep) == s
    ensures forall k :: 0 <= k < |r| ==> !Contains(r[k], sep)
    decreases |s|
  {
    var j := Find(s, sep);
    if j == -1 then [s]
    else
      NoEarlierOccurrence(s, sep, j);
      assert s == s[..j] + sep + s[j + |sep|..];
      [s[..j]] + Split(s[j + |sep|..], sep)
  }

  /** An occurrence inside the prefix `s[..j]` is an occurrence in `s`. */
  lemma NoEarlierOccurrence(s: string, sep: string, j: int)
    requires |sep| > 0 && 0 <= j <= |s|
    requires forall m :: 0 <= m < j ==> !OccursAt(s, sep, m)
    ensures !Contains(s[..j], sep)
  {
    forall m | 0 <= m <= j - |sep|
      ensures !OccursAt(s[..j], sep, m)
    {
      assert s[..j][m..m + |sep|] == s[m..m + |sep|];
      assert !OccursAt(s, sep, m);
    }
  }

  /** Splitting `a + sep + b`, where `a` holds no separator and the first
      character of `sep` does not recur inside `sep`, cuts exactly after `a`. */
  lemma {:induction false} SplitAfterPiece(a: string, sep: string, b: string)
    requires |sep| > 0
    requires !Contains(a, sep)
    requires forall m :: 1 <= m < |sep| ==> sep[m] != sep[0]
    ensures Split(a + sep + b, sep) == [a] + Split(b, sep)
  {
    var s := a + sep + b;
    assert OccursAt(s, sep, |a|) by {
      assert s[|a|..|a| + |sep|] == sep;
    }
    forall j | 0 <= j < |a|
      ensures !OccursAt(s, sep, j)
    {
      if j + |sep| <= |a| {
        assert a[j..j + |sep|] == s[j..j + |sep|];
        assert !OccursAt(a, sep, j);
      } else {
        assert s[j + (|a| - j)] == sep[0];
      }
    }
    var k := Find(s, sep);
    assert k == |a|;
    assert s[..k] == a;
    assert s[k + |sep|..] == b;
  }

  /** `c` does not occur in `s`. */
  predicate Lacks(s: string, c: char) {
    forall i :: 0 <= i < |s| ==> s[i] != c
  }

  lemma AbsentOfLacks(s: string, c: char)
    requires Lacks(s, c)
    ensures !Contains(s, [c])
  {
    forall i | 0 <= i <= |s| - 1
      ensures !OccursAt(s, [c], i)
    {
      assert s[i..i + 1] == [s[i]];
    }
  }

  lemma {:induction false} CountCharConcat(a: string, b: string, c: char)
    ensures CountChar(a + b, c) == CountChar(a, c) + CountChar(b, c)
    decreases |a|
  {
    if |a| == 0 {
      assert a + b == b;
    } else {
      assert (a + b)[1..] == a[1..] + b;
      CountCharConcat(a[1..], b, c);
    }
  }

  lemma {:induction false} CountAbsent(s: string, c: char)
    requires Lacks(s, c)
    ensures CountChar(s, c) == 0
    decreases |s|
  {
    if |s| > 0 {
      CountAbsent(s[1..], c);
    }
  }

  /** A string without the one-character substring `[c]` has no `c`. */
  lemma LacksOfAbsent(s: string, c: char)
    requires !Contains(s, [c])
    ensures Lacks(s, c)
  {
    forall i | 0 <= i < |s|
      ensures s[i] != c
    {
      assert !OccursAt(s, [c], i);
      assert s[i..i + 1] == [s[i]];
    }
  }

  /** Splitting on a character gives one more piece than there are
      occurrences of it. */
  lemma {:induction false} SplitCount(s: string, c: char)
    ensures |Split(s, [c])| == CountChar(s, c) + 1
    decreases |s|
  {
    var j := Find(s, [c]);
    if j == -1 {
      LacksOfAbsent(s, c);
      CountAbsent(s, c);
    } else {
      NoEarlierOccurrence(s, [c], j);
      LacksOfAbsent(s[..j], c);
      CountAbsent(s[..j], c);
      assert s == s[..j] + [c] + s[j + 1..];
      CountCharConcat(s[..j] + [c], s[j + 1..], c);
      CountCharConcat(s[..j], [c], c);
      SplitCount(s[j + 1..], c);
    }
  }

  /** Pieces free of `c`, joined by `c`, split back into themselves. */
  lemma SplitPair(a: string, c: char, b: string)
    requires Lacks(a, c) && Lacks(b, c)
    ensures Split(a + [c] + b, [c]) == [a, b]
  {
    AbsentOfLacks(a, c);
    AbsentOfLacks(b, c);
    SplitAfterPiece(a, [c], b);
  }

  lemma SplitTriple(a: string, c: char, b: string, d: string)
    requires Lacks(a, c) && Lacks(b, c) && Lacks(d, c)
    ensures Split(a + [c] + b + [c] + d, [c]) == [a, b, d]
  {
    AbsentOfLacks(a, c);
    SplitPair(b, c, d);
    assert a + [c] + b + [c] + d == a + [c] + (b + [c] + d);
    SplitAfterPiece(a, [c], b + [c] + d);
  }

  /** Python's slice-bound normalisation for `s[:n]` and `s[n:]`. */
  function SliceIndex(len: nat, n: int): (k: nat)
    ensures k <= len
    ensures 0 <= n <= len ==> k == n
  {
    if n < 0 then (if len + n < 0 then 0 else len + n)
    else if n > len then len
    else n
  }

  /** Python's `s[:n]`. */
  function Take(s: string, n: int): string {
    s[..SliceIndex(|s|, n)]
  }

  /** Python's `s[n:]`. */
  function Drop(s: string, n: int): string {
    s[SliceIndex(|s|, n)..]
  }

  /** Python's `s.removeprefix(p)`. */
  function RemovePrefix(s: string, p: string): (r: string)
    ensures StartsWith(s, p) ==> p + r == s
    ensures !StartsWith(s, p) ==> r == s
  {
    if StartsWith(s, p) then s[|p|..] else s
  }

  /** Python's `s.removesuffix(p)`. */
  function RemoveSuffix(s: string, p: string): (r: string)
    ensures EndsWith(s, p) ==> r + p == s
    ensures !EndsWith(s, p) ==> r == s
  {
    if EndsWith(s, p) then s[..|s| - |p|] else s
  }

  /** Python's `s.lstrip(chars)`: the suffix left after dropping every
      leading character that belongs to `chars`. */
  function LStrip(s: string, chars: set<char>): (r: string)
    ensures |r| <= |s| && s[|s| - |r|..] == r
    ensures |r| > 0 ==> r[0] !in chars
    ensures forall j :: 0 <= j < |s| - |r| ==> s[j] in chars
  {
    if |s| > 0 && s[0] in chars then LStrip(s[1..], chars) else s
  }

  /** Python's `s.rstrip(chars)`. */
  function RStrip(s: string, chars: set<char>): (r: string)
    ensures |r| <= |s| && s[..|r|] == r
    ensures |r| > 0 ==> r[|r| - 1] !in chars
    ensures forall j :: |r| <= j < |s| ==> s[j] in chars
  {
    if |s| > 0 && s[|s| - 1] in chars then RStrip(s[..|s| - 1], chars) else s
  }

  /** Python's `s.count(c)` for one character. */
  function CountChar(s: string, c: char): nat {
    if |s| == 0 then 0 else (if s[0] == c then 1 else 0) + CountChar(s[1..], c)
  }

  predicate IsDigit(c: char) {
    '0' <= c <= '9'
  }

  predicate AllDigits(s: string) {
    forall i :: 0 <= i < |s| ==> IsDigit(s[i])
  }

  /** The characters Python's `str.isspace` (and so the regex class `\s`)
      accepts. */
  predicate IsSpace(c: char) {
    c == ' ' || '\t' <= c <= '\r' || '\U{1c}' <= c <= '\U{1f}' ||
    c == '\U{85}' || c == '\U{a0}' || c == '\U{1680}' ||
    '\U{2000}' <= c <= '\U{200a}' || c == '\U{2028}' || c == '\U{2029}' ||
    c == '\U{202f}' || c == '\U{205f}' || c == '\U{3000}'
  }

  function DigitChar(d: nat): (c: char)
    requires d < 10
    ensures IsDigit(c)
  {
    ('0' as int + d) as char
  }

  function DigitValue(c: char): (d: nat)
    requires IsDigit(c)
    ensures d < 10 && DigitChar(d) == c
  {
    (c as int - '0' as int) as nat
  }

  /** Python's `str(n)` for a natural number. */
  function NatToString(n: nat): (r: string)
    ensures |r| >= 1 && AllDigits(r)
    ensures n < 10 <==> |r| == 1
  {
    if n < 10 then [DigitChar(n)] else NatToString(n / 10) + [DigitChar(n % 10)]
  }

  /** Python's `str(i)` for any integer. */
  function IntToString(i: int): (r: string)
    ensures |r| >= 1
    ensures i < 0 <==> r[0] == '-'
  {
    if i < 0 then "-" + NatToString(-i) else NatToString(i)
  }

  /** The value of a run of decimal digits (leading zeros allowed), as
      Python's `int` reads it. */
  function ParseDigits(s: string): nat
    requires AllDigits(s)
  {
    if |s| == 0 then 0 else 10 * ParseDigits(s[..|s| - 1]) + DigitValue(s[|s| - 1])
  }

  lemma {:induction false} ParseNatToString(n: nat)
    ensures ParseDigits(NatToString(n)) == n
  {
    var r := NatToString(n);
    if n >= 10 {
      ParseNatToString(n / 10);
      assert r[..|r| - 1] == NatToString(n / 10);
    }
  }

  /** Python's `int(s)` for an optional sign followed by decimal digits;
      any other text makes Python raise, which is `None` here. */
  function ParseInt(s: string): (r: Option<int>)
    ensures r.Some? ==> |s| > 0
  {
    if |s| > 0 && (s[0] == '-' || s[0] == '+') then
      var t := s[1..];
      if |t| > 0 && AllDigits(t) then
        var v: int := ParseDigits(t);
        Some(if s[0] == '-' then -v else v)
      else None
    else if |s| > 0 && AllDigits(s) then
      Some(ParseDigits(s))
    else None
  }

  /** `int(str(n)) == n`. */
  lemma ParseIntOfNat(n: nat)
    ensures ParseInt(NatToString(n)) == Some(n)
  {
    ParseNatToString(n);
  }

  predicate NoSpace(s: string) {
    forall i :: 0 <= i < |s| ==> !IsSpace(s[i])
  }

  /** Length of the run of decimal digits at the start of `t`. */
  function DigitsLen(t: string): (n: nat)
    ensures n <= |t| && AllDigits(t[..n])
    ensures n < |t| ==> !IsDigit(t[n])
  {
    if |t| > 0 && IsDigit(t[0]) then
      var n := 1 + DigitsLen(t[1..]);
      assert t[..n] == [t[0]] + t[1..][..n - 1];
      n
    else 0
  }

  /** Length of the run of non-whitespace characters at the start of `t`. */
  function NonSpaceLen(t: string): (n: nat)
    ensures n <= |t| && NoSpace(t[..n])
    ensures n < |t| ==> IsSpace(t[n])
  {
    if |t| > 0 && !IsSpace(t[0]) then
      var n := 1 + NonSpaceLen(t[1..]);
      assert t[..n] == [t[0]] + t[1..][..n - 1];
      n
    else 0
  }

  lemma {:induction false} DigitsLenConcat(x: string, y: string)
    requires AllDigits(x)
    requires |y| == 0 || !IsDigit(y[0])
    ensures DigitsLen(x + y) == |x|
    decreases |x|
  {
    if |x| == 0 {
      assert x + y == y;
    } else {
      assert (x + y)[1..] == x[1..] + y;
      DigitsLenConcat(x[1..], y);
    }
  }

  lemma {:induction false} NonSpaceLenConcat(x: string, y: string)
    requires NoSpace(x)
    requires |y| > 0 && IsSpace(y[0])
    ensures NonSpaceLen(x + y) == |x|
    decreases |x|
  {
    if |x| == 0 {
      assert x + y == y;
    } else {
      assert (x + y)[1..] == x[1..] + y;
      NonSpaceLenConcat(x[1..], y);
    }
  }

  /** `s` with every character of `cs` removed (what `re.sub("[...]", "", s)`
      does for a character class). */
  function Without(s: string, cs: set<char>): (r: string)
    ensures |r| <= |s|
    ensures forall i :: 0 <= i < |r| ==> r[i] !in cs
    ensures forall i :: 0 <= i < |r| ==> r[i] in s
    ensures (forall i :: 0 <= i < |s| ==> s[i] !in cs) ==> r == s
  {
    if |s| == 0 then ""
    else
      var rest := Without(s[1..], cs);
      assert forall i :: 0 <= i < |rest| ==> rest[i] in s;
      if s[0] in cs then rest else [s[0]] + rest
  }

  lemma {:induction false} WithoutConcat(a: string, b: string, cs: set<char>)
    ensures Without(a + b, cs) == Without(a, cs) + Without(b, cs)
    decreases |a|
  {
    if |a| == 0 {
      assert a + b == b;
    } else {
      assert (a + b)[1..] == a[1..] + b;
      WithoutConcat(a[1..], b, cs);
    }
  }

  /** Python's `format(n, "0<width>d")` for a natural number: the decimal
      digits, left-padded with zeros up to `width`. */
  function ZeroPad(n: nat, width: int): (r: string)
    ensures AllDigits(r)
    ensures |r| == if width > |NatToString(n)| then width else |NatToString(n)|
    ensures ParseDigits(r) == n
  {
    var digits := NatToString(n);
    var pad := if width > |digits| then width - |digits| else 0;
    var zeros := seq(pad, _ => '0');
    ParseNatToString(n);
    LeadingZeros(zeros, digits);
    zeros + digits
  }

  /** Leading zeros do not change the value of a digit string. */
  lemma {:induction false} LeadingZeros(zeros: string, digits: string)
    requires forall i :: 0 <= i < |zeros| ==> zeros[i] == '0'
    requires AllDigits(digits)
    ensures AllDigits(zeros + digits)
    ensures ParseDigits(zeros + digits) == ParseDigits(digits)
    decreases |digits|
  {
    var s := zeros + digits;
    if |digits| == 0 {
      assert s == zeros;
      AllZeros(zeros);
    } else {
      assert s[..|s| - 1] == zeros + digits[..|digits| - 1];
      LeadingZeros(zeros, digits[..|digits| - 1]);
    }
  }

  lemma {:induction false} AllZeros(zeros: string)
    requires forall i :: 0 <= i < |zeros| ==> zeros[i] == '0'
    ensures AllDigits(zeros) && ParseDigits(zeros) == 0
    decreases |zeros|
  {
    if |zeros| > 0 {
      AllZeros(zeros[..|zeros| - 1]);
    }
  }
}

=== FILE: reassembly.dfy ===
/** The download of one track by mu.py's `rqst_multiple`: the per-block work
    of `m3u8_block` (fetch the segments, pick the key, decrypt), the thread
    pool that runs the blocks, and the ordered merge of the fragments into
    the stream that is then remuxed. The network, the AES cipher and the
    pool's scheduling are parameters. */
module Reassembly {
  import opened PyStr
  import opened Playlist
  import opened AudioNaming

  // ---------------------------------------------------------------------
  // The outside world

  /** mu.py's own `rqst_str` (mu.py:76-80): the body of a successful
      response, `None` for any other status. */
  type Net = string -> Option<Bytes>

  /** The `update` of a CBC decryptor: the plaintext it produces for `chunk`,
      given its key, its IV and the ciphertext it has already consumed. The
      block cipher itself is not modelled. */
  type Cipher = (Bytes, Bytes, Bytes, Bytes) -> Bytes

  /** The IV of every decryptor: sixteen zero bytes (mu.py:89), not the
      media sequence number that section 5.2 of RFC 8216 asks for. */
  const ZeroIv: Bytes := seq(16, _ => 0 as byte)

  /** `algorithms.AES(k)` accepts 128-, 192- and 256-bit keys only. */
  predicate KeySizeOk(k: Bytes) {
    |k| == 16 || |k| == 24 || |k| == 32
  }

  function Flatten(xs: seq<Bytes>): Bytes {
    if |xs| == 0 then [] else xs[0] + Flatten(xs[1..])
  }

  lemma {:induction false} FlattenConcat(a: seq<Bytes>, b: seq<Bytes>)
    ensures Flatten(a + b) == Flatten(a) + Flatten(b)
    decreases |a|
  {
    if |a| == 0 {
      assert a + b == b;
    } else {
      assert (a + b)[1..] == a[1..] + b;
      FlattenConcat(a[1..], b);
    }
  }

  lemma FlattenSnoc(xs: seq<Bytes>, j: nat)
    requires j < |xs|
    ensures Flatten(xs[..j + 1]) == Flatten(xs[..j]) + xs[j]
  {
    assert xs[..j + 1] == xs[..j] + [xs[j]];
    FlattenConcat(xs[..j], [xs[j]]);
  }

  // ---------------------------------------------------------------------
  // Decryption (mu.py:85-93, 104-109)

  /** A decryptor: its key and the ciphertext fed to it so far. */
  datatype Decryptor = Decryptor(key: Bytes, fed: Bytes)

  function Update(cipher: Cipher, d: Decryptor, chunk: Bytes): (r: (Decryptor, Bytes))
    ensures r.0 == Decryptor(d.key, d.fed + chunk)
  {
    (Decryptor(d.key, d.fed + chunk), cipher(d.key, ZeroIv, d.fed, chunk))
  }

  /** What one decryptor, already fed `fed`, makes of `segs` fed in order:
      each segment is decrypted in the chain of all the bytes before it. */
  function DecryptFrom(cipher: Cipher, key: Bytes, fed: Bytes, segs: seq<Bytes>): (r: seq<Bytes>)
    ensures |r| == |segs|
  {
    seq(|segs|, j requires 0 <= j < |segs| => cipher(key, ZeroIv, fed + Flatten(segs[..j]), segs[j]))
  }

  /** A fresh decryptor over a whole block. */
  function DecryptAll(cipher: Cipher, key: Bytes, segs: seq<Bytes>): (r: seq<Bytes>)
    ensures |r| == |segs|
  {
    DecryptFrom(cipher, key, [], segs)
  }

  /** Feeding a decryptor in two runs is feeding it once: the second run
      continues the chain where the first stopped. */
  lemma DecryptSplit(cipher: Cipher, key: Bytes, fed: Bytes, a: seq<Bytes>, b: seq<Bytes>)
    ensures DecryptFrom(cipher, key, fed, a + b) ==
            DecryptFrom(cipher, key, fed, a) + DecryptFrom(cipher, key, fed + Flatten(a), b)
  {
    var l := DecryptFrom(cipher, key, fed, a + b);
    var r := DecryptFrom(cipher, key, fed, a) + DecryptFrom(cipher, key, fed + Flatten(a), b);
    forall j | 0 <= j < |a + b|
      ensures l[j] == r[j]
    {
      if j < |a| {
        assert (a + b)[..j] == a[..j];
      } else {
        var k := j - |a|;
        assert (a + b)[..j] == a + b[..k];
        FlattenConcat(a, b[..k]);
        assert fed + Flatten((a + b)[..j]) == (fed + Flatten(a)) + Flatten(b[..k]);
      }
    }
  }

  /** The loop of mu.py:108-109: one decryptor, each segment replaced in
      place by its plaintext. */
  method DecryptSegments(cipher: Cipher, key: Bytes, segs: seq<Bytes>) returns (out: seq<Bytes>)
    ensures out == DecryptAll(cipher, key, segs)
  {
    var d := Decryptor(key, []);
    out := segs;
    var j := 0;
    while j < |out|
      invariant |out| == |segs| && 0 <= j <= |segs|
      invariant d == Decryptor(key, Flatten(segs[..j]))
      invariant out[..j] == DecryptAll(cipher, key, segs)[..j]
      invariant out[j..] == segs[j..]
    {
      var plain;
      assert out[j] == segs[j];
      d, plain := Update(cipher, d, out[j]).0, Update(cipher, d, out[j]).1;
      assert [] + Flatten(segs[..j]) == Flatten(segs[..j]);
      assert plain == DecryptAll(cipher, key, segs)[j];
      out := out[j := plain];
      FlattenSnoc(segs, j);
      j := j + 1;
    }
  }

  // ---------------------------------------------------------------------
  // One block (mu.py:84-111)

  datatype BlockResult = Done(data: Bytes) | Failed

  /** `rqst_decryptor(u)`: the key at `u`, if it was fetched and AES takes
      it; anything else raises. */
  function Key(net: Net, u: string): (r: Option<Bytes>)
    ensures r.Some? <==> net(u).Some? && KeySizeOk(net(u).value)
    ensures r.Some? ==> r == net(u)
  {
    var k := net(u);
    if k.Some? && KeySizeOk(k.value) then k else None
  }

  /** The decryptor a block containing `METHOD=AES-128` ends up with: the
      inherited key is always fetched first, and replaced by the block's own
      when the two URIs differ. */
  function BlockKey(net: Net, block: string, keyUrl: string): (r: Option<Bytes>)
    ensures r.Some? <==>
              (FirstKeyUri(block).Some? && Key(net, keyUrl).Some? &&
               Key(net, FirstKeyUri(block).value).Some?)
    ensures r.Some? ==> r == Key(net, FirstKeyUri(block).value)
  {
    match FirstKeyUri(block)
    case None => None
    case Some(own) =>
      var inherited := Key(net, keyUrl);
      if inherited.None? then None
      else if own != keyUrl then Key(net, own)
      else inherited
  }

  function Fetched(net: Net, urls: seq<string>): (r: seq<Option<Bytes>>)
    ensures |r| == |urls| && forall j :: 0 <= j < |urls| ==> r[j] == net(urls[j])
  {
    seq(|urls|, j requires 0 <= j < |urls| => net(urls[j]))
  }

  predicate AllFetched(rs: seq<Option<Bytes>>) {
    forall j :: 0 <= j < |rs| ==> rs[j].Some?
  }

  function Bodies(rs: seq<Option<Bytes>>): (r: seq<Bytes>)
    requires AllFetched(rs)
    ensures |r| == |rs| && forall j :: 0 <= j < |rs| ==> rs[j] == Some(r[j])
  {
    seq(|rs|, j requires 0 <= j < |rs| => rs[j].value)
  }

  /** `m3u8_block(block, key_url)`: the segments are fetched in order; a
      missing segment, a missing or unusable key, or an encrypted block with
      no key line of its own makes the block raise. */
  function M3u8Block(cipher: Cipher, net: Net, playlistUrl: string, block: string, keyUrl: string): (r: BlockResult)
    ensures r.Done? <==>
              (AllFetched(Fetched(net, SegmentUrls(playlistUrl, block))) &&
               (Contains(block, AesMethod) ==> BlockKey(net, block, keyUrl).Some?))
  {
    var rs := Fetched(net, SegmentUrls(playlistUrl, block));
    if Contains(block, AesMethod) then
      match BlockKey(net, block, keyUrl)
      case None => Failed
      case Some(k) =>
        if AllFetched(rs) then Done(Flatten(DecryptAll(cipher, k, Bodies(rs)))) else Failed
    else if AllFetched(rs) then Done(Flatten(Bodies(rs)))
    else Failed
  }

  /** A block that names a key is decrypted with the key at its own URI,
      whichever branch of mu.py:104-106 fetched it. */
  lemma BlockUsesOwnKey(cipher: Cipher, net: Net, playlistUrl: string, block: string, keyUrl: string)
    requires Contains(block, AesMethod)
    requires M3u8Block(cipher, net, playlistUrl, block, keyUrl).Done?
    ensures FirstKeyUri(block).Some? && Key(net, FirstKeyUri(block).value).Some?
    ensures M3u8Block(cipher, net, playlistUrl, block, keyUrl).data ==
            Flatten(DecryptAll(cipher, net(FirstKeyUri(block).value).value,
                               Bodies(Fetched(net, SegmentUrls(playlistUrl, block)))))
  {
  }

  /** A block without `METHOD=AES-128` is its segments, byte for byte. */
  lemma PlainBlockPassesThrough(cipher: Cipher, net: Net, playlistUrl: string, block: string, keyUrl: string)
    requires !Contains(block, AesMethod)
    requires AllFetched(Fetched(net, SegmentUrls(playlistUrl, block)))
    ensures M3u8Block(cipher, net, playlistUrl, block, keyUrl) ==
            Done(Flatten(Bodies(Fetched(net, SegmentUrls(playlistUrl, block)))))
  {
  }

  /** Even a block with a good key of its own fails when the key inherited
      from the first block cannot be fetched. */
  lemma InheritedKeyIsFetched(cipher: Cipher, net: Net, playlistUrl: string, block: string, keyUrl: string)
    requires Contains(block, AesMethod)
    requires Key(net, keyUrl).None?
    ensures M3u8Block(cipher, net, playlistUrl, block, keyUrl) == Failed
  {
  }

  // ---------------------------------------------------------------------
  // The pool and the merge (mu.py:164-195)

  /** The order in which `as_completed` hands back the `n` submitted
      blocks: every index exactly once. */
  predicate IsCompletionOrder(order: seq<nat>, n: nat) {
    |order| == n && (forall k :: 0 <= k < n ==> order[k] < n) &&
    (forall i :: 0 <= i < n ==> i in order)
  }

  /** The dictionary `futures` after the completion loop: each result keyed
      by its submission index. */
  function Collect(order: seq<nat>, results: seq<BlockResult>): (m: map<nat, BlockResult>)
    requires forall k :: 0 <= k < |order| ==> order[k] < |results|
    ensures forall i :: i in m <==> i in order
    ensures forall i :: i in m ==> m[i] == results[i]
  {
    if |order| == 0 then map[]
    else
      var last := order[|order| - 1];
      assert order == order[..|order| - 1] + [last];
      Collect(order[..|order| - 1], results)[last := results[last]]
  }

  /** Whatever the completion order, the dictionary holds every block's
      result under its own index. */
  lemma CollectComplete(order: seq<nat>, results: seq<BlockResult>)
    requires IsCompletionOrder(order, |results|)
    ensures Collect(order, results) == map i: nat | i < |results| :: results[i]
  {
    CollectKeys(order, results);
    FullMap(Collect(order, results), results);
  }

  /** The keys of the dictionary are exactly the block indices. */
  lemma CollectKeys(order: seq<nat>, results: seq<BlockResult>)
    requires IsCompletionOrder(order, |results|)
    ensures forall i: nat :: i in Collect(order, results) <==> i < |results|
  {
    forall i: nat
      ensures i in order <==> i < |results|
    {
      if i in order {
        var k :| 0 <= k < |order| && order[k] == i;
        assert i < |results|;
      }
    }
  }

  lemma FullMap(m: map<nat, BlockResult>, results: seq<BlockResult>)
    requires forall i: nat :: i in m <==> i < |results|
    requires forall i :: i in m ==> m[i] == results[i]
    ensures m == map i: nat | i < |results| :: results[i]
  {
    var full := map i: nat | i < |results| :: results[i];
    assert m.Keys == full.Keys;
  }

  /** What `frag<i>.ts` holds: the block's bytes, or nothing when the block
      raised, since the file is opened before `future.result()` raises. */
  function FragBytes(r: BlockResult): Bytes {
    if r.Done? then r.data else []
  }

  /** The fragment files in ascending block index. */
  function Frags(m: map<nat, BlockResult>, n: nat): (r: seq<Bytes>)
    requires forall i: nat :: i < n ==> i in m
    ensures |r| == n && forall i :: 0 <= i < n ==> r[i] == FragBytes(m[i])
  {
    seq(n, i requires 0 <= i < n => FragBytes(m[i]))
  }

  /** `mu.ts`: the fragment files concatenated in ascending block index. */
  function Merge(m: map<nat, BlockResult>, n: nat): Bytes
    requires forall i: nat :: i < n ==> i in m
  {
    Flatten(Frags(m, n))
  }

  /** The bytes each block leaves behind, in submission order. */
  function BlockBytes(results: seq<BlockResult>): (r: seq<Bytes>)
    ensures |r| == |results| && forall i :: 0 <= i < |results| ==> r[i] == FragBytes(results[i])
  {
    seq(|results|, i requires 0 <= i < |results| => FragBytes(results[i]))
  }

  /** The merged stream is the blocks' bytes in submission order, for every
      completion order of the pool; a failed block leaves a gap and the
      merge goes on. */
  lemma MergeIgnoresCompletionOrder(order: seq<nat>, results: seq<BlockResult>)
    requires IsCompletionOrder(order, |results|)
    ensures forall i: nat :: i < |results| ==> i in Collect(order, results)
    ensures Merge(Collect(order, results), |results|) == Flatten(BlockBytes(results))
  {
    CollectComplete(order, results);
    var m := Collect(order, results);
    assert Frags(m, |results|) == BlockBytes(results);
  }

  lemma MergeSameForAnyTwoOrders(a: seq<nat>, b: seq<nat>, results: seq<BlockResult>)
    requires IsCompletionOrder(a, |results|) && IsCompletionOrder(b, |results|)
    ensures forall i: nat :: i < |results| ==> i in Collect(a, results) && i in Collect(b, results)
    ensures Merge(Collect(a, results), |results|) == Merge(Collect(b, results), |results|)
  {
    MergeIgnoresCompletionOrder(a, results);
    MergeIgnoresCompletionOrder(b, results);
  }

  // ---------------------------------------------------------------------
  // The track (mu.py:82, 112-198)

  datatype Track = Track(id: string, artist: string, title: string, url: string)

  /** Where `rqst_multiple` ends. `Stream` is the content of `mu.ts` and
      the name it is remuxed to; `Unrecognised` is the logged "nani" case,
      after which the remux runs on whatever `mu.ts` already holds. */
  datatype Outcome =
    | AlreadyThere
    | Refused
    | Crashed
    | NoBlocks
    | Unrecognised
    | Stream(name: string, ts: Bytes)

  /** A direct download as `requests` streams it: the `Content-Length`
      header, if any, and the chunks `iter_content` yields. */
  datatype Download = Download(contentLength: Option<string>, chunks: seq<Bytes>)

  /** Everything `rqst_multiple` consults: whether a glob pattern matches a
      file, the playlist and key fetches, a direct download (`None` for a
      failing status), whether `os.get_terminal_size()` succeeds, UTF-8
      decoding, the cipher, and the completion order the pool produces for
      `n` blocks. */
  datatype Env = Env(
    onDisk: string -> bool,
    net: Net,
    stream: string -> Option<Download>,
    terminal: bool,
    utf8: Bytes -> Option<string>,
    cipher: Cipher,
    pool: nat -> seq<nat>)

  ghost predicate PoolOk(env: Env) {
    forall n: nat :: IsCompletionOrder(env.pool(n), n)
  }

  function FileName(track: Track, finalName: string): string {
    if finalName == "" then DefaultName(track.id, track.artist, track.title) else finalName
  }

  function BlockResults(env: Env, url: string, blocks: seq<string>, keyUrl: string): (r: seq<BlockResult>)
    ensures |r| == |blocks|
    ensures forall i :: 0 <= i < |blocks| ==> r[i] == M3u8Block(env.cipher, env.net, url, blocks[i], keyUrl)
  {
    seq(|blocks|, i requires 0 <= i < |blocks| => M3u8Block(env.cipher, env.net, url, blocks[i], keyUrl))
  }

  /** The `.m3u8` branch (mu.py:154-196). A playlist that cannot be
      fetched or decoded raises; so does a first block without a key line
      (mu.py:161). */
  function PlaylistTrack(env: Env, url: string, name: string): (r: Outcome)
    requires PoolOk(env)
    ensures r.Stream? || r.Crashed? || r.NoBlocks?
  {
    match env.net(url)
    case None => Crashed
    case Some(body) =>
      match env.utf8(body)
      case None => Crashed
      case Some(text) =>
        var blocks := Blocks(text);
        if |blocks| == 0 then NoBlocks
        else
          match FirstKeyUri(blocks[0])
          case None => Crashed
          case Some(keyUrl) =>
            var results := BlockResults(env, url, blocks, keyUrl);
            var frags := Collect(env.pool(|blocks|), results);
            MergeIgnoresCompletionOrder(env.pool(|blocks|), results);
            Stream(name, Merge(frags, |blocks|))
  }

  // ---------------------------------------------------------------------
  // The direct `.mp3` branch (mu.py:129-152)

  /** `int(r.headers.get('Content-Length', '0'))`: `None` where `int`
      raises, which nothing catches. */
  function DeclaredLength(d: Download): Option<int> {
    ParseInt(if d.contentLength.None? then "0" else d.contentLength.value)
  }

  /** The chunk loop of mu.py:139-152, true when it runs to the end. Each
      chunk is written and counted first; the progress line then divides
      `cl` (`None` for a zero length) and the count so far, and asks for the
      terminal width. When that raises, the handler itself calls
      `os.path.basename` on the builtin `dir` and raises again, unless
      `handlerRaises` is false, in which case it logs and the loop goes on. */
  function ProgressLoop(cl: Option<int>, terminal: bool, total: nat, chunks: seq<Bytes>,
                        handlerRaises: bool): bool
    decreases |chunks|
  {
    if |chunks| == 0 then true
    else
      var t := total + |chunks[0]|;
      if handlerRaises && (cl.None? || t == 0 || !terminal) then false
      else ProgressLoop(cl, terminal, t, chunks[1..], handlerRaises)
  }

  /** Only the first chunk can fail: once something was counted, the
      count stays positive and nothing else in the progress line changes. */
  lemma {:induction false} ProgressLoopOk(cl: Option<int>, terminal: bool, total: nat, chunks: seq<Bytes>,
                                          handlerRaises: bool)
    ensures ProgressLoop(cl, terminal, total, chunks, handlerRaises) <==>
            !handlerRaises || |chunks| == 0 || (cl.Some? && terminal && total + |chunks[0]| > 0)
    decreases |chunks|
  {
    if |chunks| > 0 {
      ProgressLoopOk(cl, terminal, total + |chunks[0]|, chunks[1..], handlerRaises);
    }
  }

  /** The direct download: `mu.ts` receives every chunk, unless the length
      header is not a number or the first progress line raises. */
  function DirectDownload(d: Download, terminal: bool, handlerRaises: bool, name: string): (r: Outcome)
    ensures r == Crashed || r == Stream(name, Flatten(d.chunks))
    ensures r == Crashed <==>
              DeclaredLength(d).None? ||
              (handlerRaises && |d.chunks| > 0 &&
               (DeclaredLength(d) == Some(0) || !terminal || |d.chunks[0]| == 0))
  {
    match DeclaredLength(d)
    case None => Crashed
    case Some(v) =>
      var cl := if v == 0 then None else Some(v);
      ProgressLoopOk(cl, terminal, 0, d.chunks, handlerRaises);
      if ProgressLoop(cl, terminal, 0, d.chunks, handlerRaises) then Stream(name, Flatten(d.chunks))
      else Crashed
  }

  /** A body sent without `Content-Length` (or with `0`) kills the program
      at its first chunk: `cl / block_size` raises, and so does the handler. */
  lemma MissingLengthCrashes(d: Download, terminal: bool, name: string)
    requires d.contentLength.None? || d.contentLength == Some("0")
    requires |d.chunks| > 0
    ensures DirectDownload(d, terminal, true, name) == Crashed
  {
    assert ParseDigits("0") == 0;
  }

  /** With a handler that only logs, every chunk reaches `mu.ts` whenever
      the length header is a number, whatever the progress line does. */
  lemma HandledProgressSaves(d: Download, terminal: bool, name: string)
    requires DeclaredLength(d).Some?
    ensures DirectDownload(d, terminal, false, name) == Stream(name, Flatten(d.chunks))
  {
  }

  function RqstMultiple(env: Env, track: Track, finalName: string): (r: Outcome)
    requires PoolOk(env)
    ensures r.AlreadyThere? <==> env.onDisk(GlobEscape(FileName(track, finalName)))
    ensures r.Stream? ==> r.name == FileName(track, finalName)
    ensures !env.onDisk(GlobEscape(FileName(track, finalName))) && KindOf(track.url) == DirectFile ==>
              (r == Refused <==> env.stream(track.url).None?) &&
              (env.stream(track.url).Some? ==>
                 r == DirectDownload(env.stream(track.url).value, env.terminal, true, FileName(track, finalName)))
  {
    var name := FileName(track, finalName);
    if env.onDisk(GlobEscape(name)) then AlreadyThere
    else
      match KindOf(track.url)
      case DirectFile =>
        (match env.stream(track.url)
         case None => Refused
         case Some(d) => DirectDownload(d, env.terminal, true, name))
      case HlsPlaylist => PlaylistTrack(env, track.url, name)
      case UnknownUrl => Unrecognised
  }

  /** A file already matched by the escaped glob stops everything: the
      outcome does not depend on the network, the cipher or the pool. */
  lemma ExistingFileFetchesNothing(env: Env, env2: Env, track: Track, finalName: string)
    requires PoolOk(env) && PoolOk(env2) && env2.onDisk == env.onDisk
    requires env.onDisk(GlobEscape(FileName(track, finalName)))
    ensures RqstMultiple(env, track, finalName) == RqstMultiple(env2, track, finalName) == AlreadyThere
  {
  }

  /** A playlist without any block holding a segment ends before any key
      is fetched: the keys, the cipher and the pool play no part. */
  lemma EmptyPlaylistFetchesNoKey(env: Env, env2: Env, url: string, name: string, body: Bytes, text: string)
    requires PoolOk(env) && PoolOk(env2)
    requires env.net(url) == env2.net(url) == Some(body)
    requires env.utf8(body) == env2.utf8(body) == Some(text)
    requires Blocks(text) == []
    ensures PlaylistTrack(env, url, name) == PlaylistTrack(env2, url, name) == NoBlocks
  {
  }

  // ---------------------------------------------------------------------
  // A whole rendered playlist, end to end

  ghost predicate ServesBlock(net: Net, dir: string, b: KeyBlock) {
    Key(net, b.keyUri).Some? &&
    forall k :: 0 <= k < |b.entries| ==> net(dir + "/" + b.entries[k].uri).Some?
  }

  /** The segment bodies of a block, fetched next to the playlist. */
  function EntryBodies(net: Net, dir: string, es: seq<Entry>): (r: seq<Bytes>)
    requires forall k :: 0 <= k < |es| ==> net(dir + "/" + es[k].uri).Some?
    ensures |r| == |es| && forall k :: 0 <= k < |es| ==> net(dir + "/" + es[k].uri) == Some(r[k])
  {
    seq(|es|, k requires 0 <= k < |es| => net(dir + "/" + es[k].uri).value)
  }

  /** What a block should contribute: its segments, decrypted in one chain
      with the key named in its own `#EXT-X-KEY` line. */
  function ExpectedBlock(cipher: Cipher, net: Net, dir: string, b: KeyBlock): Bytes
    requires ServesBlock(net, dir, b)
  {
    Flatten(DecryptAll(cipher, net(b.keyUri).value, EntryBodies(net, dir, b.entries)))
  }

  function Expected(cipher: Cipher, net: Net, dir: string, bs: seq<KeyBlock>): (r: seq<Bytes>)
    requires forall i :: 0 <= i < |bs| ==> ServesBlock(net, dir, bs[i])
    ensures |r| == |bs| && forall i :: 0 <= i < |bs| ==> r[i] == ExpectedBlock(cipher, net, dir, bs[i])
  {
    seq(|bs|, i requires 0 <= i < |bs| => ExpectedBlock(cipher, net, dir, bs[i]))
  }

  /** One rendered block, fetched from a playlist at `dir/name`. */
  lemma RenderedBlock(cipher: Cipher, net: Net, dir: string, name: string, b: KeyBlock, keyUrl: string)
    requires ValidKeyBlock(b) && ServesBlock(net, dir, b) && Key(net, keyUrl).Some?
    requires forall i :: 0 <= i < |name| ==> name[i] != '/'
    ensures M3u8Block(cipher, net, dir + "/" + name, KeyBlockText(b), keyUrl) ==
            Done(ExpectedBlock(cipher, net, dir, b))
  {
    var text := KeyBlockText(b);
    var url := dir + "/" + name;
    SegmentUrisOfBlock(b);
    FirstKeyUriOfBlock(b);
    var urls := SegmentUrls(url, text);
    forall k | 0 <= k < |urls|
      ensures urls[k] == dir + "/" + b.entries[k].uri
    {
      SegmentUrlSibling(dir, name, b.entries[k].uri);
    }
    var rs := Fetched(net, urls);
    assert AllFetched(rs);
    assert Bodies(rs) == EntryBodies(net, dir, b.entries);
  }

  /** Downloading a rendered playlist gives every block's decrypted
      segments, block after block in playlist order, whatever order the
      pool finishes in. */
  lemma DownloadRenderedPlaylist(env: Env, dir: string, name: string, out: string,
                                 header: string, bs: seq<KeyBlock>, body: Bytes)
    requires PoolOk(env)
    requires !Contains(header, KeyTag) && !Contains(header, SegmentTag)
    requires |bs| > 0 && forall i :: 0 <= i < |bs| ==> ValidKeyBlock(bs[i])
    requires forall i :: 0 <= i < |name| ==> name[i] != '/'
    requires env.net(dir + "/" + name) == Some(body)
    requires env.utf8(body) == Some(RenderPlaylist(header, bs))
    requires forall i :: 0 <= i < |bs| ==> ServesBlock(env.net, dir, bs[i])
    ensures PlaylistTrack(env, dir + "/" + name, out) ==
            Stream(out, Flatten(Expected(env.cipher, env.net, dir, bs)))
  {
    var url := dir + "/" + name;
    var text := RenderPlaylist(header, bs);
    ParseRenderedPlaylist(header, bs);
    var blocks := Blocks(text);
    assert blocks == BlockTexts(bs);
    var keyUrl := bs[0].keyUri;
    assert FirstKeyUri(blocks[0]) == Some(keyUrl);
    var results := BlockResults(env, url, blocks, keyUrl);
    forall i | 0 <= i < |bs|
      ensures results[i] == Done(ExpectedBlock(env.cipher, env.net, dir, bs[i]))
    {
      RenderedBlock(env.cipher, env.net, dir, name, bs[i], keyUrl);
    }
    PlaylistTrackStream(env, url, out, body, text, keyUrl);
    assert BlockBytes(results) == Expected(env.cipher, env.net, dir, bs);
  }

  /** A playlist that reaches the pool is the merge of its blocks'
      results. */
  lemma PlaylistTrackStream(env: Env, url: string, name: string, body: Bytes, text: string, keyUrl: string)
    requires PoolOk(env)
    requires env.net(url) == Some(body) && env.utf8(body) == Some(text)
    requires |Blocks(text)| > 0 && FirstKeyUri(Blocks(text)[0]) == Some(keyUrl)
    ensures PlaylistTrack(env, url, name) ==
            Stream(name, Flatten(BlockBytes(BlockResults(env, url, Blocks(text), keyUrl))))
  {
    var blocks := Blocks(text);
    MergeIgnoresCompletionOrder(env.pool(|blocks|), BlockResults(env, url, blocks, keyUrl));
  }

  /** A playlist whose first block has segments but no
      `METHOD=AES-128,URI="…"` line raises at mu.py:161, so an unencrypted
      playlist is never downloaded. */
  lemma UnencryptedPlaylistCrashes(env: Env, url: string, name: string, body: Bytes, text: string)
    requires PoolOk(env)
    requires env.net(url) == Some(body) && env.utf8(body) == Some(text)
    requires !Contains(text, KeyTag) && Contains(text, SegmentTag)
    requires FirstKeyUri(text) == None
    ensures PlaylistTrack(env, url, name) == Crashed
  {
    assert Blocks(text) == [text] by {
      assert Split(text, KeyTag) == [text];
      assert KeepWith([text], SegmentTag) == [text] by {
        assert [text][1..] == [];
      }
    }
  }
}

=== FILE: sizes.dfy ===
/** Choosing one rendition of a photo from the `sizes` list the VK API
    returns. Three scripts do it: ph.py with Python's `max` over a priority
    table, phdmp.py and im.py with the same hand-written scan. */
module PhotoSizes {
  import opened PyStr

  /** The `type` letter of a size; `Other` stands for every letter the
      scripts do not rank. */
  datatype Kind = S | M | X | Y | Z | W | Other

  datatype Size = Size(kind: Kind, url: string, width: int, height: int)

  /** The priority table of ph.py:53; the scan of phdmp.py and im.py uses
      the same order for `s` to `z` and treats `w` separately. */
  function Rank(k: Kind): nat {
    match k
    case S => 1
    case M => 2
    case X => 3
    case Y => 4
    case Z => 5
    case W => 6
    case Other => 0
  }

  /** `k` is the first size of the highest rank in the list. */
  predicate FirstBest(sizes: seq<Size>, k: nat) {
    k < |sizes| &&
    (forall j :: 0 <= j < |sizes| ==> Rank(sizes[j].kind) <= Rank(sizes[k].kind)) &&
    (forall j :: 0 <= j < k ==> Rank(sizes[j].kind) < Rank(sizes[k].kind))
  }

  /** Two first-best indices are the same index. */
  lemma FirstBestUnique(sizes: seq<Size>, a: nat, b: nat)
    requires FirstBest(sizes, a) && FirstBest(sizes, b)
    ensures a == b
  {
    assert Rank(sizes[a].kind) == Rank(sizes[b].kind);
  }

  // ---------------------------------------------------------------------
  // Python's `max(..., key=..., default={})` (ph.py:52-58)

  /** `max` keeps the element it holds unless a later one has a strictly
      greater key. */
  function MaxFrom(sizes: seq<Size>, i: nat, best: nat): (r: nat)
    requires best < i <= |sizes|
    decreases |sizes| - i
  {
    if i == |sizes| then best
    else if Rank(sizes[i].kind) > Rank(sizes[best].kind) then MaxFrom(sizes, i + 1, i)
    else MaxFrom(sizes, i + 1, best)
  }

  function PyMax(sizes: seq<Size>): (r: Option<nat>)
    ensures r.None? <==> |sizes| == 0
  {
    if |sizes| == 0 then None else Some(MaxFrom(sizes, 1, 0))
  }

  lemma {:induction false} MaxFromBest(sizes: seq<Size>, i: nat, best: nat)
    requires 0 <= best < i <= |sizes|
    requires forall j :: 0 <= j < i ==> Rank(sizes[j].kind) <= Rank(sizes[best].kind)
    requires forall j :: 0 <= j < best ==> Rank(sizes[j].kind) < Rank(sizes[best].kind)
    ensures FirstBest(sizes, MaxFrom(sizes, i, best))
    decreases |sizes| - i
  {
    if i < |sizes| {
      if Rank(sizes[i].kind) > Rank(sizes[best].kind) {
        MaxFromBest(sizes, i + 1, i);
      } else {
        MaxFromBest(sizes, i + 1, best);
      }
    }
  }

  /** `max` returns the first element of the highest priority. */
  lemma PyMaxIsFirstBest(sizes: seq<Size>)
    requires |sizes| > 0
    ensures FirstBest(sizes, PyMax(sizes).value)
  {
    MaxFromBest(sizes, 1, 0);
  }

  // ---------------------------------------------------------------------
  // The scan of phdmp.py:163-185 and im.py:153-180

  /** One pass of the loop: a `w` is taken and ends the loop; an `s` to `z`
      is taken when it ranks above everything taken so far. The state is
      the rank `current` and the index `pick` of the size held. */
  function ScanFrom(sizes: seq<Size>, i: nat, current: nat, pick: Option<nat>): Option<nat>
    requires i <= |sizes|
    decreases |sizes| - i
  {
    if i == |sizes| then pick
    else if sizes[i].kind == W then Some(i)
    else if sizes[i].kind != Other && current < Rank(sizes[i].kind) then
      ScanFrom(sizes, i + 1, Rank(sizes[i].kind), Some(i))
    else ScanFrom(sizes, i + 1, current, pick)
  }

  function Scan(sizes: seq<Size>): Option<nat> {
    ScanFrom(sizes, 0, 0, None)
  }

  /** What the loop keeps true at the top of each pass. */
  predicate ScanState(sizes: seq<Size>, i: nat, current: nat, pick: Option<nat>) {
    i <= |sizes| && current <= 5 &&
    (forall j :: 0 <= j < i ==> sizes[j].kind != W && Rank(sizes[j].kind) <= current) &&
    (current == 0 <==> pick.None?) &&
    (pick.Some? ==> pick.value < i && Rank(sizes[pick.value].kind) == current &&
                    forall j :: 0 <= j < pick.value ==> Rank(sizes[j].kind) < current)
  }

  lemma {:induction false} ScanFromResult(sizes: seq<Size>, i: nat, current: nat, pick: Option<nat>)
    requires ScanState(sizes, i, current, pick)
    ensures ScanFrom(sizes, i, current, pick).None? <==>
              forall j :: 0 <= j < |sizes| ==> Rank(sizes[j].kind) == 0
    ensures ScanFrom(sizes, i, current, pick).Some? ==> FirstBest(sizes, ScanFrom(sizes, i, current, pick).value)
    decreases |sizes| - i
  {
    if i < |sizes| {
      var k := sizes[i].kind;
      if k == W {
        assert FirstBest(sizes, i);
      } else if k != Other && current < Rank(k) {
        ScanFromResult(sizes, i + 1, Rank(k), Some(i));
      } else {
        ScanFromResult(sizes, i + 1, current, pick);
      }
    }
  }

  /** The scan takes the first size of the highest rank, and nothing when
      no size has a ranked type. */
  lemma ScanIsFirstBest(sizes: seq<Size>)
    ensures Scan(sizes).None? <==> forall j :: 0 <= j < |sizes| ==> Rank(sizes[j].kind) == 0
    ensures Scan(sizes).Some? ==> FirstBest(sizes, Scan(sizes).value)
  {
    ScanFromResult(sizes, 0, 0, None);
  }

  /** Where some size has a ranked type, the scan and `max` pick the same
      size; where none has, `max` still picks the first one and the scan
      picks nothing. */
  lemma ScanAgreesWithMax(sizes: seq<Size>)
    ensures (exists j :: 0 <= j < |sizes| && Rank(sizes[j].kind) > 0) ==> Scan(sizes) == PyMax(sizes)
    ensures |sizes| > 0 && (forall j :: 0 <= j < |sizes| ==> Rank(sizes[j].kind) == 0) ==>
              Scan(sizes).None? && PyMax(sizes) == Some(0)
  {
    ScanIsFirstBest(sizes);
    if |sizes| > 0 {
      PyMaxIsFirstBest(sizes);
      if Scan(sizes).Some? {
        FirstBestUnique(sizes, Scan(sizes).value, PyMax(sizes).value);
      }
    }
  }
}

=== FILE: util.dfy ===
/** The helpers of util.py that differ from utils.py: sign handling that
    strips every leading dash, the Unicode-aware filename escaper `esc`, the
    zero-padded photo filename, and the per-photo retry and skip policy of
    the album downloader. */
module Util {
  import opened PyStr

  // ---------------------------------------------------------------------
  // Signs of ids (util.py:144-150)

  const Dash: set<char> := {'-'}

  /** `str_toplus`: every leading dash is stripped. */
  function StrToPlus(s: string): (r: string)
    ensures |r| > 0 ==> r[0] != '-'
    ensures |r| <= |s| && s[|s| - |r|..] == r
    ensures forall j :: 0 <= j < |s| - |r| ==> s[j] == '-'
  {
    LStrip(s, Dash)
  }

  /** `str_tominus`: exactly one leading dash in front of the dash-stripped
      text, or the empty string when nothing but dashes was given. */
  function StrToMinus(s: string): (r: string)
    ensures |StrToPlus(s)| > 0 ==> r == "-" + StrToPlus(s) && |r| >= 2 && r[1] != '-'
    ensures |StrToPlus(s)| == 0 ==> r == ""
  {
    var t := LStrip(s, Dash);
    if |t| > 0 then "-" + t else t
  }

  lemma {:induction false} StrToPlusIdempotent(s: string)
    ensures StrToPlus(StrToPlus(s)) == StrToPlus(s)
  {
    var r := StrToPlus(s);
    if |r| > 0 {
      assert r[0] !in Dash;
    }
  }

  lemma StrToMinusIdempotent(s: string)
    ensures StrToMinus(StrToMinus(s)) == StrToMinus(s)
  {
    var t := StrToPlus(s);
    if |t| > 0 {
      var m := "-" + t;
      assert m[1..] == t;
      assert StrToPlus(m) == StrToPlus(m[1..]);
      StrToPlusIdempotent(s);
    }
  }

  /** Stripping the sign that `str_tominus` put back gives `str_toplus`. */
  lemma PlusOfMinus(s: string)
    ensures StrToPlus(StrToMinus(s)) == StrToPlus(s)
  {
    var t := StrToPlus(s);
    if |t| > 0 {
      var m := "-" + t;
      assert m[1..] == t;
      assert StrToPlus(m) == StrToPlus(t);
      StrToPlusIdempotent(s);
    }
  }

  /** On an integer id, the two helpers give its magnitude and the
      negative form of its magnitude. */
  lemma SignsOfId(id: int)
    ensures StrToPlus(IntToString(id)) == NatToString(if id < 0 then -id else id)
    ensures StrToMinus(IntToString(id)) == "-" + NatToString(if id < 0 then -id else id)
  {
    var d := NatToString(if id < 0 then -id else id);
    assert IntToString(id) == if id < 0 then "-" + d else d;
    SignsOfDigits(d);
  }

  /** A digit string, with or without one dash in front. */
  lemma SignsOfDigits(d: string)
    requires |d| > 0 && AllDigits(d)
    ensures StrToPlus(d) == d && StrToPlus("-" + d) == d
    ensures StrToMinus(d) == "-" + d && StrToMinus("-" + d) == "-" + d
  {
    assert d[0] !in Dash;
    assert ("-" + d)[1..] == d;
    assert StrToPlus("-" + d) == StrToPlus(d);
  }

  // ---------------------------------------------------------------------
  // Filename escaping (util.py:157-177)

  /** The characters `esc` always replaces. */
  const Unsafe: set<char> := {'<', '>', ':', '\"', '/', '\\', '|', '?', '*', '\0'}

  /** The brackets `esc` always keeps. */
  const Brackets: set<char> := {'(', ')', '[', ']', '{', '}'}

  /** The characters `rstrip` removes from the end. */
  const Trailing: set<char> := {' ', '.'}

  /** The replacement of one character. `punct(ch)` stands for "the
      Unicode general category of `ch` starts with P, S or C". */
  function EscChar(ch: char, replacement: string, punct: char -> bool): string {
    if ch in Unsafe then replacement
    else if ch in Brackets then [ch]
    else if punct(ch) then replacement
    else [ch]
  }

  /** A character that may appear in the output of `esc`: one taken from
      the replacement, a bracket, or a name character that is neither
      unsafe nor punctuation, symbol or control. */
  predicate Allowed(c: char, replacement: string, punct: char -> bool) {
    c in replacement || c in Brackets || (c !in Unsafe && !punct(c))
  }

  /** The per-character loop of `esc`. */
  function EscChars(name: string, replacement: string, punct: char -> bool): (r: string)
    ensures forall i :: 0 <= i < |r| ==> Allowed(r[i], replacement, punct)
  {
    if |name| == 0 then ""
    else EscChar(name[0], replacement, punct) + EscChars(name[1..], replacement, punct)
  }

  /** The loop works character by character: escaping a concatenation
      is concatenating the escapes. */
  lemma {:induction false} EscCharsConcat(a: string, b: string, replacement: string, punct: char -> bool)
    ensures EscChars(a + b, replacement, punct) == EscChars(a, replacement, punct) + EscChars(b, replacement, punct)
    decreases |a|
  {
    if |a| > 0 {
      assert (a + b)[0] == a[0];
      assert (a + b)[1..] == a[1..] + b;
      EscCharsConcat(a[1..], b, replacement, punct);
    } else {
      assert a + b == b;
    }
  }

  /** One character becomes the replacement exactly when it is unsafe, or
      is punctuation, symbol or control and not a bracket; otherwise it
      stays. */
  lemma EscCharsOne(c: char, replacement: string, punct: char -> bool)
    ensures EscChars([c], replacement, punct) ==
            (if c in Unsafe || (c !in Brackets && punct(c)) then replacement else [c])
  {
    assert [c][1..] == [];
  }

  predicate NoDoubleUnderscore(s: string) {
    forall i :: 0 <= i < |s| - 1 ==> !(s[i] == '_' && s[i + 1] == '_')
  }

  /** `re.sub("_+", "_", s)`: every run of underscores becomes one. */
  function Collapse(s: string): (r: string)
    ensures |r| <= |s|
    ensures |s| > 0 ==> |r| > 0 && r[0] == s[0]
    ensures NoDoubleUnderscore(r)
    decreases |s|
  {
    if |s| == 0 then ""
    else if s[0] == '_' then "_" + Collapse(LStrip(s[1..], {'_'}))
    else [s[0]] + Collapse(s[1..])
  }

  /** Collapsing only drops characters. */
  lemma {:induction false} CollapseChars(s: string)
    ensures forall i :: 0 <= i < |Collapse(s)| ==> Collapse(s)[i] in s
    decreases |s|
  {
    if |s| > 0 {
      var t := if s[0] == '_' then LStrip(s[1..], {'_'}) else s[1..];
      CollapseChars(t);
      assert forall i :: 0 <= i < |t| ==> t[i] in s;
    }
  }

  /** Text without an underscore run is left alone, so collapsing is
      idempotent. */
  lemma {:induction false} CollapseIdentity(s: string)
    requires NoDoubleUnderscore(s)
    ensures Collapse(s) == s
    decreases |s|
  {
    if |s| > 0 {
      if s[0] == '_' {
        assert |s| > 1 ==> s[1] != '_';
        assert LStrip(s[1..], {'_'}) == s[1..];
      }
      CollapseIdentity(s[1..]);
    }
  }

  lemma CollapseIdempotent(s: string)
    ensures Collapse(Collapse(s)) == Collapse(s)
  {
    CollapseIdentity(Collapse(s));
  }

  /** Collapsing keeps every other character, in order. */
  lemma {:induction false} CollapseKeepsOthers(s: string)
    ensures Without(Collapse(s), {'_'}) == Without(s, {'_'})
    decreases |s|
  {
    if |s| > 0 {
      if s[0] == '_' {
        var t := LStrip(s[1..], {'_'});
        CollapseKeepsOthers(t);
        UnderscoresVanish(s[1..], t);
        WithoutConcat("_", Collapse(t), {'_'});
      } else {
        CollapseKeepsOthers(s[1..]);
        WithoutConcat([s[0]], Collapse(s[1..]), {'_'});
      }
    }
  }

  lemma {:induction false} UnderscoresVanish(s: string, t: string)
    requires t == LStrip(s, {'_'})
    ensures Without(s, {'_'}) == Without(t, {'_'})
    decreases |s|
  {
    if |s| > 0 && s[0] == '_' {
      UnderscoresVanish(s[1..], t);
    }
  }

  /** `u` is a run of underscores only. */
  predicate AllUnderscores(u: string) {
    forall i :: 0 <= i < |u| ==> u[i] == '_'
  }

  /** Stripping a run of underscores stops at text that does not start
      with one. */
  lemma {:induction false} StripRun(u: string, y: string)
    requires AllUnderscores(u) && (|y| == 0 || y[0] != '_')
    ensures LStrip(u + y, {'_'}) == y
    decreases |u|
  {
    if |u| > 0 {
      var uy := u + y;
      assert uy[0] == '_';
      assert uy[1..] == u[1..] + y;
      StripRun(u[1..], y);
    } else {
      assert u + y == y;
    }
  }

  /** Stripping looks no further than a character that is not `_`. */
  lemma {:induction false} LStripConcat(a: string, z: string)
    requires |a| > 0 && a[|a| - 1] != '_'
    ensures LStrip(a + z, {'_'}) == LStrip(a, {'_'}) + z
    ensures |LStrip(a, {'_'})| > 0
    decreases |a|
  {
    assert (a + z)[0] == a[0];
    if a[0] == '_' {
      assert (a + z)[1..] == a[1..] + z;
      LStripConcat(a[1..], z);
    }
  }

  /** One step of `re.sub`'s scan: a leading run becomes one `_`, any
      other character is copied. */
  lemma CollapseHead(s: string, c: string)
    requires |s| > 0 && c == Collapse(s)
    ensures s[0] == '_' ==> c == "_" + Collapse(LStrip(s[1..], {'_'}))
    ensures s[0] != '_' ==> c == [s[0]] + Collapse(s[1..])
  {
  }

  /** Text that does not end in `_` collapses on its own: no run crosses
      its end. */
  lemma {:induction false} CollapseConcat(x: string, z: string)
    requires |x| == 0 || x[|x| - 1] != '_'
    ensures Collapse(x + z) == Collapse(x) + Collapse(z)
    decreases |x|
  {
    if |x| > 0 {
      var xz := x + z;
      assert xz[0] == x[0];
      assert xz[1..] == x[1..] + z;
      CollapseHead(xz, Collapse(xz));
      CollapseHead(x, Collapse(x));
      if x[0] == '_' {
        var t := LStrip(x[1..], {'_'});
        LStripConcat(x[1..], z);
        assert t[|t| - 1] == x[|x| - 1];
        CollapseConcat(t, z);
      } else {
        CollapseConcat(x[1..], z);
      }
    } else {
      assert x + z == z;
    }
  }

  /** A leading run of underscores becomes one `_`. */
  lemma CollapseLeadingRun(u: string, y: string)
    requires |u| > 0 && u[0] == '_' && LStrip(u[1..], {'_'}) == y
    ensures Collapse(u) == "_" + Collapse(y)
  {
    CollapseHead(u, Collapse(u));
  }

  /** Each underscore run `u`, however long, becomes exactly one `_`, and
      the text on either side collapses on its own. */
  lemma CollapseRun(x: string, u: string, y: string)
    requires |u| >= 1 && AllUnderscores(u)
    requires |x| == 0 || x[|x| - 1] != '_'
    requires |y| == 0 || y[0] != '_'
    ensures Collapse(x + u + y) == Collapse(x) + "_" + Collapse(y)
  {
    var uy := u + y;
    assert Collapse(uy) == "_" + Collapse(y) by {
      assert uy[0] == '_';
      assert uy[1..] == u[1..] + y;
      StripRun(u[1..], y);
      CollapseLeadingRun(uy, y);
    }
    assert Collapse(x + uy) == Collapse(x) + Collapse(uy) by {
      CollapseConcat(x, uy);
    }
    assert x + u + y == x + uy;
  }

  /** `esc(name, replacement)`: characters replaced, then trailing spaces
      and dots stripped, then underscore runs collapsed, then the first
      255 characters kept. */
  function Esc(name: string, replacement: string, punct: char -> bool): (r: string)
    ensures |r| <= 255
    ensures NoDoubleUnderscore(r)
    ensures forall i :: 0 <= i < |r| ==> Allowed(r[i], replacement, punct)
  {
    var e := EscChars(name, replacement, punct);
    var stripped := RStrip(e, Trailing);
    CollapseChars(stripped);
    Take(Collapse(stripped), 255)
  }

  /** A name whose characters are all kept passes through the
      per-character loop unchanged. */
  lemma {:induction false} EscCharsPlain(name: string, replacement: string, punct: char -> bool)
    requires forall i :: 0 <= i < |name| ==> name[i] in Brackets || (name[i] !in Unsafe && !punct(name[i]))
    ensures EscChars(name, replacement, punct) == name
    decreases |name|
  {
    if |name| > 0 {
      EscCharsPlain(name[1..], replacement, punct);
      assert [name[0]] + name[1..] == name;
    }
  }

  /** A short, plain name with no underscore run and no trailing space or
      dot is its own escape; in particular `esc` is idempotent on such
      names. */
  lemma EscKeepsPlainNames(name: string, replacement: string, punct: char -> bool)
    requires forall i :: 0 <= i < |name| ==> name[i] in Brackets || (name[i] !in Unsafe && !punct(name[i]))
    requires NoDoubleUnderscore(name) && |name| <= 255
    requires |name| > 0 ==> name[|name| - 1] !in Trailing
    ensures Esc(name, replacement, punct) == name
  {
    EscCharsPlain(name, replacement, punct);
    CollapseIdentity(name);
  }

  /** With a replacement free of unsafe characters, the output has none. */
  lemma EscIsSafe(name: string, replacement: string, punct: char -> bool)
    requires forall i :: 0 <= i < |replacement| ==> replacement[i] !in Unsafe
    ensures forall i :: 0 <= i < |Esc(name, replacement, punct)| ==> Esc(name, replacement, punct)[i] !in Unsafe
  {
    AllowedIsSafe(Esc(name, replacement, punct), replacement, punct);
  }

  lemma AllowedIsSafe(r: string, replacement: string, punct: char -> bool)
    requires forall i :: 0 <= i < |replacement| ==> replacement[i] !in Unsafe
    requires forall i :: 0 <= i < |r| ==> Allowed(r[i], replacement, punct)
    ensures forall i :: 0 <= i < |r| ==> r[i] !in Unsafe
  {
  }

  // ---------------------------------------------------------------------
  // Photo filenames (util.py:28, 61)

  /** `f"{index:0{all_len}d}_{name}"` with `all_len = len(str(count))`;
      `name` is the last path segment of the photo URL. */
  function PhotoFilename(index: nat, count: nat, name: string): (r: string)
    ensures |r| == |ZeroPad(index, |NatToString(count)|)| + 1 + |name|
  {
    ZeroPad(index, |NatToString(count)|) + "_" + name
  }

  /** More digits for a larger number. */
  lemma {:induction false} NatToStringMonotone(a: nat, b: nat)
    requires a <= b
    ensures |NatToString(a)| <= |NatToString(b)|
    decreases b
  {
    if a >= 10 {
      NatToStringMonotone(a / 10, b / 10);
    }
  }

  /** For an index below the album size, the filename is a digit prefix
      of fixed width that reads back as the index, an underscore, and
      the name. */
  lemma PhotoFilenameParts(index: nat, count: nat, name: string)
    requires index < count
    ensures var w := |NatToString(count)|;
            var r := PhotoFilename(index, count, name);
            |r| == w + 1 + |name| && AllDigits(r[..w]) && ParseDigits(r[..w]) == index &&
            r[w] == '_' && r[w + 1..] == name
  {
    NatToStringMonotone(index, count);
    var w := |NatToString(count)|;
    var r := PhotoFilename(index, count, name);
    assert r[..w] == ZeroPad(index, w);
    assert r[w + 1..] == name;
  }

  /** Distinct photos of one album get distinct filenames. */
  lemma PhotoFilenameInjective(i: nat, j: nat, count: nat, a: string, b: string)
    requires i < count && j < count
    requires PhotoFilename(i, count, a) == PhotoFilename(j, count, b)
    ensures i == j && a == b
  {
    PhotoFilenameParts(i, count, a);
    PhotoFilenameParts(j, count, b);
  }

  // ---------------------------------------------------------------------
  // The per-photo policy of `_dw_photo` (util.py:57-114)

  /** The `Last-Modified` header of a response: absent, one that
      `parsedate_to_datetime` rejects, or the timestamp it gives. */
  datatype Header = NoHeader | Unparseable | Stamp(ts: int)

  /** What one `session.get` gives: a response (its status and its
      `Last-Modified` header), a client or timeout error, or any other
      exception. */
  datatype Try = Got(status: int, lastModified: Header) | ClientFailure | OtherFailure

  /** How the attempts ended. `Saved(stamped)` wrote the file and advanced
      the progress bar; `WrittenNoProgress` wrote the file and then raised. */
  datatype PhotoOutcome =
    | Skipped
    | NotFound
    | GaveUp
    | Aborted
    | Saved(stamped: bool)
    | WrittenNoProgress

  datatype PhotoRun = PhotoRun(outcome: PhotoOutcome, requests: nat)

  /** How an attempt that got a usable response ended. */
  datatype Fetch = FetchDone(lastModified: Header) | FetchEnded(outcome: PhotoOutcome)

  /** A status that makes `raise_for_status` raise a client error. */
  predicate Retryable(t: Try) {
    t.ClientFailure? || (t.Got? && t.status != 404 && t.status >= 400)
  }

  /** The attempt loop from attempt number `attempt` (1-based) on:
      `net(k)` is the result of the request of attempt `k + 1`. */
  function Attempts(attempt: nat, maxRetries: int, net: nat -> Try): (r: (Fetch, nat))
    requires attempt >= 1
    ensures attempt - 1 <= r.1
    ensures maxRetries >= attempt ==> r.1 <= maxRetries
    ensures forall k :: attempt - 1 <= k < r.1 - 1 ==> Retryable(net(k))
    ensures r.0.FetchDone? ==> r.1 >= attempt && net(r.1 - 1).Got? && net(r.1 - 1).status < 400 &&
                               net(r.1 - 1).lastModified == r.0.lastModified
    ensures r.0.FetchEnded? && r.0.outcome.NotFound? ==> r.1 >= attempt && net(r.1 - 1).Got? && net(r.1 - 1).status == 404
    ensures r.0.FetchEnded? && r.0.outcome.Aborted? ==> r.1 >= attempt && net(r.1 - 1).OtherFailure?
    ensures r.0.FetchEnded? ==> r.0.outcome in {NotFound, Aborted, GaveUp}
    ensures r.0.FetchEnded? && r.0.outcome.GaveUp? ==> r.1 == (if maxRetries >= attempt then maxRetries else attempt - 1)
    ensures r.0.FetchEnded? && r.0.outcome.GaveUp? ==> forall k :: attempt - 1 <= k < r.1 ==> Retryable(net(k))
    decreases if maxRetries >= attempt then maxRetries - attempt else 0
  {
    if attempt > maxRetries then (FetchEnded(GaveUp), attempt - 1)
    else
      var t := net(attempt - 1);
      if t.Got? && t.status == 404 then (FetchEnded(NotFound), attempt)
      else if Retryable(t) then
        if attempt >= maxRetries then (FetchEnded(GaveUp), attempt)
        else Attempts(attempt + 1, maxRetries, net)
      else if t.OtherFailure? then (FetchEnded(Aborted), attempt)
      else (FetchDone(t.lastModified), attempt)
  }

  /** The file gets a time stamp: `if ts:` holds, with `ts` the photo's
      (non-zero) date or else the parsed header, which is falsy at the
      epoch. */
  predicate Stamped(hasDate: bool, h: Header) {
    hasDate || (h.Stamp? && h.ts != 0)
  }

  /** After the file is written, without a date: an unparseable header
      raises in `parsedate_to_datetime`, and the generic handler returns
      before the progress bar moves. */
  function AfterWrite(hasDate: bool, h: Header): PhotoOutcome {
    if !hasDate && h.Unparseable? then WrittenNoProgress else Saved(Stamped(hasDate, h))
  }

  /** `_dw_photo` as written: after a response is saved, `ts` is only bound
      when the photo has a date or the response a `Last-Modified` header;
      otherwise reading it raises `UnboundLocalError`, which the generic
      handler logs, leaving the file written and the progress bar behind. */
  function DwPhotoAsWritten(onDisk: bool, hasDate: bool, maxRetries: int, net: nat -> Try): (r: PhotoRun)
    ensures onDisk ==> r == PhotoRun(Skipped, 0)
  {
    if onDisk then PhotoRun(Skipped, 0)
    else
      var (f, n) := Attempts(1, maxRetries, net);
      match f
      case FetchEnded(o) => PhotoRun(o, n)
      case FetchDone(h) => PhotoRun(if !hasDate && h.NoHeader? then WrittenNoProgress else AfterWrite(hasDate, h), n)
  }

  /** `_dw_photo` with `ts` defaulting to "no timestamp": a saved photo
      advances the progress bar, stamped only when a time is known; an
      unparseable header still raises after the write. */
  function DwPhoto(onDisk: bool, hasDate: bool, maxRetries: int, net: nat -> Try): (r: PhotoRun)
    ensures onDisk ==> r == PhotoRun(Skipped, 0)
    ensures !onDisk ==> r.requests <= (if maxRetries > 0 then maxRetries else 0)
    ensures r.outcome.NotFound? ==> r.requests >= 1 && net(r.requests - 1).Got? && net(r.requests - 1).status == 404 &&
                                    forall k :: 0 <= k < r.requests - 1 ==> Retryable(net(k))
    ensures r.outcome.Aborted? ==> r.requests >= 1 && net(r.requests - 1).OtherFailure?
    ensures r.outcome.GaveUp? ==> r.requests == (if maxRetries > 0 then maxRetries else 0) &&
                                  forall k :: 0 <= k < r.requests ==> Retryable(net(k))
    ensures r.outcome.Saved? ==> r.requests >= 1 && net(r.requests - 1).Got? && net(r.requests - 1).status < 400 &&
                                 r.outcome.stamped == Stamped(hasDate, net(r.requests - 1).lastModified)
    ensures r.outcome.WrittenNoProgress? <==>
              !onDisk && r.requests >= 1 && net(r.requests - 1).Got? && net(r.requests - 1).status < 400 &&
              !hasDate && net(r.requests - 1).lastModified.Unparseable?
  {
    if onDisk then PhotoRun(Skipped, 0)
    else
      var (f, n) := Attempts(1, maxRetries, net);
      match f
      case FetchEnded(o) => PhotoRun(o, n)
      case FetchDone(h) => PhotoRun(AfterWrite(hasDate, h), n)
  }

  /** How far the progress bar moves. */
  function Progress(o: PhotoOutcome): nat {
    if o.Skipped? || o.Saved? then 1 else 0
  }

  /** The corrected policy advances the progress bar exactly when the
      file was there or a response was saved, unless the header of that
      response cannot be parsed and the photo has no date. */
  lemma WrittenMeansProgress(onDisk: bool, hasDate: bool, maxRetries: int, net: nat -> Try)
    ensures var r := DwPhoto(onDisk, hasDate, maxRetries, net);
            Progress(r.outcome) == 1 <==> (onDisk || (r.requests >= 1 && net(r.requests - 1).Got? &&
                                                     net(r.requests - 1).status < 400 &&
                                                     (hasDate || !net(r.requests - 1).lastModified.Unparseable?)))
  {
    var r := DwPhoto(onDisk, hasDate, maxRetries, net);
    if !onDisk {
      var (f, n) := Attempts(1, maxRetries, net);
      assert r.requests == n;
    }
  }

  /** The two versions agree except where `ts` would be unbound: a saved
      response without a header, for a photo without a date. */
  lemma AsWrittenAgrees(onDisk: bool, hasDate: bool, maxRetries: int, net: nat -> Try)
    ensures DwPhotoAsWritten(onDisk, hasDate, maxRetries, net).requests == DwPhoto(onDisk, hasDate, maxRetries, net).requests
    ensures var r := DwPhoto(onDisk, hasDate, maxRetries, net);
            DwPhotoAsWritten(onDisk, hasDate, maxRetries, net).outcome != r.outcome <==>
              r.outcome == Saved(false) && !hasDate && net(r.requests - 1).lastModified.NoHeader?
    ensures DwPhotoAsWritten(onDisk, hasDate, maxRetries, net).outcome != DwPhoto(onDisk, hasDate, maxRetries, net).outcome ==>
              DwPhotoAsWritten(onDisk, hasDate, maxRetries, net).outcome == WrittenNoProgress
  {
  }

  /** The input that shows the unbound `ts`: no date, and a 200 response
      without `Last-Modified` on the first attempt. */
  lemma UnboundTimestamp()
    ensures DwPhotoAsWritten(false, false, 5, _ => Got(200, NoHeader)) == PhotoRun(WrittenNoProgress, 1)
    ensures Progress(DwPhotoAsWritten(false, false, 5, _ => Got(200, NoHeader)).outcome) == 0
    ensures DwPhoto(false, false, 5, _ => Got(200, NoHeader)) == PhotoRun(Saved(false), 1)
  {
  }

  /** Without a date, a header `parsedate_to_datetime` rejects leaves the
      file written and progress behind, and a header at the epoch gives a
      falsy `ts`, so the file is not stamped. */
  lemma HeaderEdgeCases()
    ensures DwPhotoAsWritten(false, false, 5, _ => Got(200, Unparseable)) == PhotoRun(WrittenNoProgress, 1)
    ensures DwPhoto(false, false, 5, _ => Got(200, Unparseable)) == PhotoRun(WrittenNoProgress, 1)
    ensures DwPhotoAsWritten(false, false, 5, _ => Got(200, Stamp(0))) == PhotoRun(Saved(false), 1)
    ensures DwPhoto(false, true, 5, _ => Got(200, Unparseable)) == PhotoRun(Saved(true), 1)
  {
  }
}

=== FILE: utils.dfy ===
/** The string helpers of utils.py: sign handling for ids, truncation with a
    postfix, filename sanitising, range expansion, and the bounded retry of
    a text download. util.py carries its own `str_cut`, `expand_ranges` and
    `rqst_str`, identical in behaviour, which these definitions also model. */
module Utils {
  import opened PyStr

  // ---------------------------------------------------------------------
  // Signs of ids (utils.py:27-35). Both helpers first apply `str`, so an
  // integer id arrives as `IntToString(id)`.

  /** `str_toplus`: drops exactly one leading `-`. */
  function StrToPlus(s: string): (r: string)
    ensures StartsWith(s, "-") ==> s == "-" + r
    ensures !StartsWith(s, "-") ==> r == s
  {
    if StartsWith(s, "-") then s[1..] else s
  }

  /** `str_tominus`: puts a `-` in front unless one is already there. */
  function StrToMinus(s: string): (r: string)
    ensures StartsWith(r, "-")
    ensures StartsWith(s, "-") ==> r == s
    ensures !StartsWith(s, "-") ==> r == "-" + s
  {
    if StartsWith(s, "-") then s else "-" + s
  }

  lemma ToMinusIdempotent(s: string)
    ensures StrToMinus(StrToMinus(s)) == StrToMinus(s)
  {
  }

  /** Adding the sign and removing it again gives back an unsigned string. */
  lemma ToPlusUndoesToMinus(s: string)
    requires !StartsWith(s, "-")
    ensures StrToPlus(StrToMinus(s)) == s
  {
    assert ("-" + s)[1..] == s;
  }

  /** Only one dash goes, even when the rest starts with another. */
  lemma ToPlusOneDash(s: string)
    ensures StrToPlus("-" + s) == s
  {
    assert ("-" + s)[1..] == s;
  }

  /** On an integer id, `str_toplus` gives the digits of its magnitude and
      `str_tominus` the negative form of those digits. */
  lemma SignsOfId(id: int)
    ensures StrToPlus(IntToString(id)) == NatToString(if id < 0 then -id else id)
    ensures StrToMinus(IntToString(id)) == "-" + NatToString(if id < 0 then -id else id)
  {
    var d := NatToString(if id < 0 then -id else id);
    assert d[0] != '-';
    if id < 0 {
      assert ("-" + d)[1..] == d;
    }
  }

  // ---------------------------------------------------------------------
  // Truncation (utils.py:37-38, util.py:153-154, phdmp.py:25-26)

  /** `str_cut(s, letters, postfix)`: the first `letters` characters (with
      Python's reading of a negative bound), followed by `postfix` exactly
      when something was cut off. */
  function StrCut(s: string, letters: int, postfix: string): (r: string)
    ensures |s| <= letters ==> r == s
    ensures 0 <= letters < |s| ==> r == s[..letters] + postfix
    ensures StartsWith(r, Take(s, letters))
    ensures r == Take(s, letters) || r == Take(s, letters) + postfix
    ensures letters >= 0 ==> |r| <= letters + |postfix|
  {
    var rest := Drop(s, letters);
    Take(s, letters) + (if |rest| > 0 then postfix else "")
  }

  /** A cut with an empty postfix is a prefix, and cutting it again to the
      same length changes nothing. */
  lemma StrCutIdempotent(s: string, letters: int)
    requires letters >= 0
    ensures StrCut(StrCut(s, letters, ""), letters, "") == StrCut(s, letters, "")
  {
  }

  // ---------------------------------------------------------------------
  // Filename sanitising (utils.py:40-44)

  /** The characters `str_fix` deletes: `/ \ ? % * : { } 【 】 | " < >`. */
  const FixForbidden: set<char> :=
    {'/', '\\', '?', '%', '*', ':', '{', '}', '\U{3010}', '\U{3011}', '|', '\"', '<', '>'}

  predicate Clean(s: string) {
    forall i :: 0 <= i < |s| ==> s[i] !in FixForbidden
  }

  /** `str_fix(s, letters)`: the forbidden characters removed, then, for a
      non-zero `letters` (the default is 100), a cut with `"..."`. */
  function StrFix(s: string, letters: int): (r: string)
    ensures Clean(r)
    ensures letters == 0 ==> |r| <= |s|
    ensures letters > 0 ==> |r| <= letters + 3
    ensures Clean(s) && (letters == 0 || |s| <= letters) ==> r == s
  {
    var kept := Without(s, FixForbidden);
    if letters != 0 then StrCut(kept, letters, "...") else kept
  }

  /** Without truncation, sanitising a sanitised name changes nothing. */
  lemma StrFixIdempotent(s: string)
    ensures StrFix(StrFix(s, 0), 0) == StrFix(s, 0)
  {
  }

  /** Sanitising keeps every allowed character, in order: on a name built
      from a clean part and a forbidden part, only the clean part remains. */
  lemma StrFixDropsOnlyForbidden(a: string, junk: string, b: string)
    requires Clean(a) && Clean(b)
    requires forall i :: 0 <= i < |junk| ==> junk[i] in FixForbidden
    ensures StrFix(a + junk + b, 0) == a + b
  {
    WithoutConcat(a + junk, b, FixForbidden);
    WithoutConcat(a, junk, FixForbidden);
    AllForbiddenVanish(junk);
    WithoutClean(a);
    WithoutClean(b);
    assert Without(a, FixForbidden) + Without(junk, FixForbidden) == a;
  }

  lemma WithoutClean(s: string)
    requires Clean(s)
    ensures Without(s, FixForbidden) == s
  {
  }

  lemma {:induction false} AllForbiddenVanish(junk: string)
    requires forall i :: 0 <= i < |junk| ==> junk[i] in FixForbidden
    ensures Without(junk, FixForbidden) == ""
    decreases |junk|
  {
    if |junk| > 0 {
      AllForbiddenVanish(junk[1..]);
    }
  }

  // ---------------------------------------------------------------------
  // Range expansion (utils.py:54-60, util.py:208-214)

  /** The pattern `\d+-\d+` tried at the start of `t`: on a match, the
      lengths of its two digit runs. Both runs are maximal, since a shorter
      first run would be followed by a digit instead of `-`. */
  function MatchRange(t: string): (m: Option<(nat, nat)>)
    ensures m.Some? ==> 0 < m.value.0 && 0 < m.value.1 && m.value.0 + 1 + m.value.1 <= |t|
    ensures m.Some? ==> t[m.value.0] == '-'
    ensures m.Some? ==> forall k :: 0 <= k < m.value.0 ==> IsDigit(t[k])
    ensures m.Some? ==> forall k :: m.value.0 < k <= m.value.0 + m.value.1 ==> IsDigit(t[k])
  {
    var d1 := DigitsLen(t);
    if d1 == 0 || d1 >= |t| || t[d1] != '-' then None
    else
      var d2 := DigitsLen(t[d1 + 1..]);
      if d2 == 0 then None
      else
        assert t[d1 + 1..][..d2] == t[d1 + 1..d1 + 1 + d2];
        Some((d1, d2))
  }

  /** `range(a, b + 1)` as a sequence. */
  function Interval(a: nat, b: nat): (r: seq<nat>)
    ensures a <= b ==> |r| == b - a + 1
    ensures a > b ==> r == []
    ensures forall k :: 0 <= k < |r| ==> r[k] == a + k
    decreases b + 1 - a
  {
    if a > b then [] else [a] + Interval(a + 1, b)
  }

  function Decimals(ns: seq<nat>): (r: seq<string>)
    ensures |r| == |ns|
    ensures forall k :: 0 <= k < |ns| ==> r[k] == NatToString(ns[k])
  {
    if |ns| == 0 then [] else [NatToString(ns[0])] + Decimals(ns[1..])
  }

  /** The replacement of one match: `",".join(map(str, range(a, b + 1)))`. */
  function RangeText(a: nat, b: nat): string {
    Join(Decimals(Interval(a, b)), ",")
  }

  /** `replace_range` on the match at the start of `t`. */
  function Replacement(t: string, d1: nat, d2: nat): string
    requires MatchRange(t) == Some((d1, d2))
  {
    RangeText(ParseDigits(t[..d1]), ParseDigits(t[d1 + 1..d1 + 1 + d2]))
  }

  /** `re.sub(r"\d+-\d+", replace_range, s)`: scanning left to right, each
      match is replaced by its range and every other character is kept. */
  function ExpandRanges(s: string): (r: string)
    decreases |s|
  {
    if |s| == 0 then ""
    else
      var step := ExpandStep(s);
      step.0 + ExpandRanges(s[step.1..])
  }

  /** One step of the scan: the text emitted at the start of `s` and how
      many characters of `s` it consumes. */
  function ExpandStep(s: string): (step: (string, nat))
    requires |s| > 0
    ensures 0 < step.1 <= |s|
  {
    var m := MatchRange(s);
    if m.Some? then (Replacement(s, m.value.0, m.value.1), m.value.0 + 1 + m.value.1)
    else ([s[0]], 1)
  }

  /** Text without digits passes through unchanged. */
  lemma {:induction false} ExpandWithoutDigits(s: string)
    requires forall i :: 0 <= i < |s| ==> !IsDigit(s[i])
    ensures ExpandRanges(s) == s
    decreases |s|
  {
    if |s| > 0 {
      ExpandStepCopy(s);
      ExpandWithoutDigits(s[1..]);
    }
  }

  /** One comma-separated item of a page list: a single number or a range. */
  datatype Item = Single(n: nat) | Span(first: nat, last: nat)

  function ItemSource(it: Item): string {
    match it
    case Single(n) => NatToString(n)
    case Span(a, b) => NatToString(a) + "-" + NatToString(b)
  }

  /** What an item stands for once expanded. */
  function ItemExpansion(it: Item): string {
    match it
    case Single(n) => NatToString(n)
    case Span(a, b) => RangeText(a, b)
  }

  function ItemsSource(items: seq<Item>): string {
    Join(Items(items, ItemSource), ",")
  }

  function ItemsExpansion(items: seq<Item>): string {
    Join(Items(items, ItemExpansion), ",")
  }

  function Items(items: seq<Item>, f: Item -> string): (r: seq<string>)
    ensures |r| == |items|
    ensures forall k :: 0 <= k < |items| ==> r[k] == f(items[k])
  {
    if |items| == 0 then [] else [f(items[0])] + Items(items[1..], f)
  }

  lemma ExpandStepCopy(t: string)
    requires |t| > 0 && MatchRange(t).None?
    ensures ExpandRanges(t) == [t[0]] + ExpandRanges(t[1..])
  {
    assert ExpandStep(t) == ([t[0]], 1);
  }

  lemma StepOfRange(t: string, d1: nat, d2: nat)
    requires MatchRange(t) == Some((d1, d2))
    ensures |t| > 0 && ExpandStep(t) == (Replacement(t, d1, d2), d1 + 1 + d2)
  {
  }

  lemma ExpandUnfold(t: string)
    requires |t| > 0
    ensures ExpandRanges(t) == ExpandStep(t).0 + ExpandRanges(t[ExpandStep(t).1..])
  {
  }

  lemma NoRangeAt(t: string)
    requires DigitsLen(t) < |t| ==> t[DigitsLen(t)] != '-'
    ensures MatchRange(t).None?
  {
  }

  /** A run of digits not followed by `-` or a digit is copied unchanged. */
  lemma {:induction false} ExpandCopiesDigits(x: string, y: string)
    requires AllDigits(x)
    requires |y| == 0 || (y[0] != '-' && !IsDigit(y[0]))
    ensures ExpandRanges(x + y) == x + ExpandRanges(y)
    decreases |x|
  {
    if |x| > 0 {
      var t := x + y;
      DigitsLenConcat(x, y);
      NoRangeAt(t);
      ExpandStepCopy(t);
      assert t[1..] == x[1..] + y;
      ExpandCopiesDigits(x[1..], y);
      ConsConcat(x, ExpandRanges(y));
    } else {
      assert x + y == y;
    }
  }

  lemma RangeAt(x: string, z: string, y: string)
    requires |x| > 0 && |z| > 0 && AllDigits(x) && AllDigits(z)
    requires |y| == 0 || !IsDigit(y[0])
    ensures MatchRange(x + "-" + z + y) == Some((|x|, |z|))
  {
    var t := x + "-" + z + y;
    DigitsLenConcat(x, "-" + z + y);
    ConcatAssoc4(x, "-", z, y);
    assert t[|x| + 1..] == z + y;
    DigitsLenConcat(z, y);
  }

  /** `a-b` followed by text that does not continue the digits is replaced
      by its range. */
  lemma ExpandSpan(a: nat, b: nat, y: string)
    requires |y| == 0 || !IsDigit(y[0])
    ensures ExpandRanges(NatToString(a) + "-" + NatToString(b) + y) == RangeText(a, b) + ExpandRanges(y)
  {
    var x := NatToString(a);
    var z := NatToString(b);
    var t := x + "-" + z + y;
    RangeAt(x, z, y);
    assert t[..|x|] == x;
    assert t[|x| + 1..|x| + 1 + |z|] == z;
    ParseNatToString(a);
    ParseNatToString(b);
    StepOfRange(t, |x|, |z|);
    ExpandUnfold(t);
    ReplacementOf(t, x, z);
    assert t[|x| + 1 + |z|..] == y;
  }

  lemma ReplacementOf(t: string, x: string, z: string)
    requires |x| + 1 + |z| <= |t| && t[..|x|] == x && t[|x| + 1..|x| + 1 + |z|] == z
    requires MatchRange(t) == Some((|x|, |z|))
    ensures AllDigits(x) && AllDigits(z)
    ensures Replacement(t, |x|, |z|) == RangeText(ParseDigits(x), ParseDigits(z))
  {
  }

  lemma ExpandItem(it: Item, y: string)
    requires |y| == 0 || y[0] == ','
    ensures ExpandRanges(ItemSource(it) + y) == ItemExpansion(it) + ExpandRanges(y)
  {
    match it
    case Single(n) => ExpandCopiesDigits(NatToString(n), y);
    case Span(a, b) => ExpandSpan(a, b, y);
  }

  /** Expanding a rendered list of items gives the comma-joined expansions
      of the items; `"1-5,8,10-12"` is the instance
      `[Span(1, 5), Single(8), Span(10, 12)]`. */
  lemma {:induction false} ExpandItems(items: seq<Item>)
    ensures ExpandRanges(ItemsSource(items)) == ItemsExpansion(items)
    decreases |items|
  {
    if |items| == 1 {
      ExpandItem(items[0], "");
      assert ItemSource(items[0]) + "" == ItemSource(items[0]);
    } else if |items| > 1 {
      ExpandItemsCons(items);
      ItemsExpansionCons(items);
      ExpandItems(items[1..]);
    }
  }

  lemma ExpandItemsCons(items: seq<Item>)
    requires |items| > 1
    ensures ExpandRanges(ItemsSource(items)) ==
            ItemExpansion(items[0]) + ("," + ExpandRanges(ItemsSource(items[1..])))
  {
    var rest := ItemsSourceCons(items);
    ExpandItem(items[0], "," + rest);
    ExpandComma(rest);
  }

  lemma ItemsSourceCons(items: seq<Item>) returns (rest: string)
    requires |items| > 1
    ensures rest == ItemsSource(items[1..])
    ensures ItemsSource(items) == ItemSource(items[0]) + ("," + rest)
  {
    rest := ItemsSource(items[1..]);
    assert Items(items, ItemSource)[1..] == Items(items[1..], ItemSource);
  }

  lemma ItemsExpansionCons(items: seq<Item>)
    requires |items| > 1
    ensures ItemsExpansion(items) == ItemExpansion(items[0]) + ("," + ItemsExpansion(items[1..]))
  {
    assert Items(items, ItemExpansion)[1..] == Items(items[1..], ItemExpansion);
  }

  /** A comma is copied and the scan goes on after it. */
  lemma ExpandComma(rest: string)
    ensures ExpandRanges("," + rest) == "," + ExpandRanges(rest)
  {
    assert MatchRange("," + rest).None?;
    ExpandStepCopy("," + rest);
    assert ("," + rest)[1..] == rest;
  }

  /** The example in the comment of `expand_ranges`. */
  lemma ExpandExample()
    ensures ExpandRanges("1-5,8,10-12") == "1,2,3,4,5,8,10,11,12"
  {
    var items := [Span(1, 5), Single(8), Span(10, 12)];
    ExampleSource(items);
    ExampleExpansion(items);
    ExpandItems(items);
  }

  lemma ExampleDecimals()
    ensures NatToString(1) == "1" && NatToString(5) == "5" && NatToString(8) == "8"
    ensures NatToString(10) == "10" && NatToString(11) == "11" && NatToString(12) == "12"
  {
  }

  lemma ExampleSource(items: seq<Item>)
    requires items == [Span(1, 5), Single(8), Span(10, 12)]
    ensures ItemsSource(items) == "1-5,8,10-12"
  {
    ExampleDecimals();
    assert ItemSource(items[0]) == "1-5";
    assert ItemSource(items[2]) == "10-12";
    assert Items(items, ItemSource) == ["1-5", "8", "10-12"];
    JoinThree("1-5", "8", "10-12");
  }

  lemma ExampleExpansion(items: seq<Item>)
    requires items == [Span(1, 5), Single(8), Span(10, 12)]
    ensures ItemsExpansion(items) == "1,2,3,4,5,8,10,11,12"
  {
    var parts := ExampleExpandedItems(items);
    JoinThree("1,2,3,4,5", "8", "10,11,12");
  }

  lemma ExampleExpandedItems(items: seq<Item>) returns (parts: seq<string>)
    requires items == [Span(1, 5), Single(8), Span(10, 12)]
    ensures parts == Items(items, ItemExpansion) && parts == ["1,2,3,4,5", "8", "10,11,12"]
  {
    parts := Items(items, ItemExpansion);
    ExampleDecimals();
    ExampleRanges();
    assert parts[0] == "1,2,3,4,5" && parts[1] == "8" && parts[2] == "10,11,12";
  }

  lemma ExampleRanges()
    ensures RangeText(1, 5) == "1,2,3,4,5" && RangeText(10, 12) == "10,11,12"
  {
    ExampleLowRange();
    ExampleHighRange();
  }

  lemma ExampleLowRange()
    ensures RangeText(1, 5) == "1,2,3,4,5"
  {
    var ds := Decimals(Interval(1, 5));
    assert |ds| == 5;
    assert ds[0] == "1" && ds[1] == "2" && ds[2] == "3" && ds[3] == "4" && ds[4] == "5";
    assert ds == ["1", "2", "3", "4", "5"];
    JoinFive("1", "2", "3", "4", "5");
  }

  lemma ExampleHighRange()
    ensures RangeText(10, 12) == "10,11,12"
  {
    ExampleDecimals();
    var ds := Decimals(Interval(10, 12));
    assert |ds| == 3;
    assert ds[0] == "10" && ds[1] == "11" && ds[2] == "12";
    assert ds == ["10", "11", "12"];
    JoinThree("10", "11", "12");
  }

  lemma JoinThree(a: string, b: string, c: string)
    ensures Join([a, b, c], ",") == a + "," + b + "," + c
  {
    assert [a, b, c][1..] == [b, c];
    assert [b, c][1..] == [c];
    assert Join([b, c], ",") == b + "," + c;
  }

  lemma JoinFive(a: string, b: string, c: string, d: string, e: string)
    ensures Join([a, b, c, d, e], ",") == a + "," + b + "," + c + "," + d + "," + e
  {
    assert [a, b, c, d, e][1..] == [b, c, d, e];
    JoinFour(b, c, d, e);
  }

  lemma JoinFour(b: string, c: string, d: string, e: string)
    ensures Join([b, c, d, e], ",") == b + "," + c + "," + d + "," + e
  {
    assert [b, c, d, e][1..] == [c, d, e];
    JoinThree(c, d, e);
  }

  // ---------------------------------------------------------------------
  // Bounded retry of a download (utils.py:62-71, util.py:218-227)

  /** The outcome of one `requests.get`: an answer with its status, or an
      exception. */
  datatype Attempt = Answer(status: int, content: Bytes) | Raised

  /** The truth value of a `requests` response: false for a 4xx or 5xx
      status. */
  predicate Ok(status: int) {
    !(400 <= status < 600)
  }

  /** What `rqst_str` returns: the content, `False`, or `None`. */
  datatype Fetched = Content(body: Bytes) | Refused | Nothing

  /** `rqst_str(url, retries)`, where `attempt(i)` is what the `i`-th call
      to the network gives. Only an exception uses up a retry; an answer
      ends the loop at once. */
  method RqstStr(retries: nat, attempt: nat -> Attempt) returns (r: Fetched, tries: nat)
    ensures tries <= retries
    ensures forall i :: 0 <= i < tries - 1 ==> attempt(i).Raised?
    ensures r.Nothing? <==> forall i :: 0 <= i < retries ==> attempt(i).Raised?
    ensures r.Nothing? ==> tries == retries
    ensures r.Content? ==> tries > 0 && attempt(tries - 1).Answer? &&
                           Ok(attempt(tries - 1).status) && attempt(tries - 1).content == r.body
    ensures r.Refused? ==> tries > 0 && attempt(tries - 1).Answer? && !Ok(attempt(tries - 1).status)
  {
    var left := retries;
    tries := 0;
    while left != 0
      invariant tries + left == retries
      invariant forall i :: 0 <= i < tries ==> attempt(i).Raised?
    {
      var a := attempt(tries);
      tries := tries + 1;
      if a.Answer? {
        if Ok(a.status) {
          return Content(a.content), tries;
        }
        return Refused, tries;
      }
      left := left - 1;
    }
    r := Nothing;
  }
}
